=== FILE: README.md ===
# book_crawer core, modelled in Dafny

This project models the core of the `book_crawer` web-novel crawler.

The crawler reads a novel's index page and lists its chapter links. It fetches
every chapter it has not stored yet, up to a chapter quota. It keeps its
progress in `<novel>.json`, a map from normalised chapter title to page text,
and it writes the finished book to `<novel>.txt`.

The model covers two copies of that core:

- the packaged copy under `src/`:
  - `normalize_chapter_title` and the JSON/TXT helpers of `src/utils.py`;
  - the crawl driver, chapter loop and retry loop of `src/base_crawler.py`;
  - the index-page, link-filtering, de-duplication, content-cleaning and
    failure-placeholder logic of the 77shuwu site crawler in
    `src/crawer_77shuwu.py`;
- the older root copy (`utils.py`, `base_crawler.py`), which normalises titles
  differently, makes one attempt per chapter, and writes the text file in
  map order. Its `save_chapter_to_json`, `load_existing_json`
  (utils.py:58-82) and `clear_existing_files` (base_crawler.py:56-71) behave
  like the packaged ones, so `ProgressStore` and `Crawler.ClearExistingFiles`
  model both copies.

Files and modules:

| file | module | models |
|---|---|---|
| `wrappers.dfy` | `Wrappers` | `Option` |
| `text.dfy` | `Text` | Python `str.strip`, `str.replace`, `str.find`, `split`/`join`, `re.search(r'\d+')`, `int`/`str` of numbers |
| `ordered_dict.dfy` | `OrderedDict` | an insertion-ordered `dict` |
| `sorting.dfy` | `Sorting` | `sorted`/`list.sort` by a key |
| `sequences.dfy` | `Sequences` | small sequence helpers |
| `progress_store.dfy` | `ProgressStore` | the JSON progress file and the file store |
| `titles.dfy` | `TitleNormalizer` | packaged title normalisation |
| `legacy_titles.dfy` | `LegacyNormalizer` | root-copy title normalisation |
| `assembler.dfy` | `Assembler` | packaged TXT assembly |
| `safe_filename.dfy` | `SafeFilename` | file names for debug pages |
| `crawler.dfy` | `Crawler` | the packaged crawl |
| `shuwu.dfy` | `Shuwu` | the 77shuwu site crawler |
| `legacy_crawler.dfy` | `LegacyCrawler` | the root-copy crawl |

How the outside world is represented:

- **Files.** The file system is a `Store`, a map from path (`JsonFile(title)`
  or `TxtFile(title)`) to text.
- **JSON.** It is a `Codec` parameter: an `encode`/`decode` pair. Decoding may
  fail. A *lawful* codec decodes what it encoded and decodes `{}` to the empty
  map.
- **Chapter pages.** Fetching is a `Fetcher` parameter. It maps a URL and the
  running count of fetch calls to `Fetched(body)` or `FetchFailed`, so "the
  site always answers" is the predicate `NeverFails`.
- **Index page.** Its HTML reaches the model as a list of anchors plus the
  optional title tag.
- **Side effects.** Logging and the random delays are recorded as an event
  trace: fetch attempts, saves and back-off pauses. The model counts the
  events; it does not time them.

Where the code and the project's own description disagree, the model follows
the code:

- **Packaged `normalize_chapter_title` (src/utils.py:191-216).** It returns
  the cleaned title unchanged. `_extract_and_format_title` builds the
  `第 N 章: …` heading only in a local variable and returns just the next
  counter. So `"456 测试内容"` normalises to `("456 测试内容", 457)`, not to
  `("第 456 章: 测试内容", 457)`. The title `"立即阅读"` normalises to
  `("", 2)`. The assertions in tests/test_crawler.py:28-45 allow this.
- **Root copy.** It does produce the heading, and `LegacyNormalizer` models
  that.

## Model

| member | source | states |
|---|---|---|
| Text.Strip | src/utils.py:204 | `strip()` leaves no whitespace at either end and never lengthens the string |
| Text.StripIdempotent | src/utils.py:204 | stripping twice is stripping once |
| Text.ReplaceAbsent | src/utils.py:204 | `replace` of a pattern that does not occur returns the string unchanged |
| Text.FindFrom | src/crawer_77shuwu.py:453 | `find` returns the first occurrence at or after the start, or -1 exactly when there is none |
| Text.FirstRun | src/utils.py:229 | `re.search(r'\d+')` finds no run exactly when the string has no digit; otherwise it finds a maximal digit run with no digit before it |
| Text.IntToStringRoundTrip | src/utils.py:235-237 | the decimal text of a counter reads back as the same number, with a leading minus exactly for negatives |
| Text.IntToStringInjective | src/utils.py:235-237 | distinct counters give distinct decimal texts |
| Text.JoinSplit | src/crawer_77shuwu.py:444 | joining the pieces of a split on a separator gives back the original text |
| Text.SplitJoin | src/crawer_77shuwu.py:444 | splitting a join of separator-free pieces gives back the pieces |
| OrderedDict.Put | src/base_crawler.py:212 | assigning a key updates only that key; a new key goes last in iteration order, and an existing key keeps its place |
| OrderedDict.Values | utils.py:88-90 | `items()` yields the values in key insertion order, one per key |
| Sorting.SortBy | src/crawer_77shuwu.py:213 | sorting by a total preorder yields a sorted permutation of the input |
| Sorting.LexLeqIsTotalPreorder | src/crawer_77shuwu.py:213 | comparing URLs as strings is total and transitive, so the sort is well defined |
| ProgressStore.PathName | src/utils.py:82-95 | the progress file name starts with the title, ends in `.json` and is exactly five characters longer, so it is `<title>.json`; likewise the text file is `<title>.txt` |
| Text.PrefixSuffixDetermine | src/utils.py:82-95 | a string that starts with `a`, ends with `b` and is as long as both is `a + b`, which pins the file names and the chapter URLs |
| ProgressStore.PathNameInjective | src/utils.py:144 | two store paths have the same file name exactly when they are the same path |
| ProgressStore.SaveChapterToJson | src/utils.py:82-95 | saving writes exactly the novel's JSON file and leaves every other file as it was |
| ProgressStore.LoadExistingJson | src/utils.py:98-125 | a missing file, an all-blank file or an undecodable file loads as the empty map; otherwise the stripped contents decode to the map |
| ProgressStore.LoadAfterSave | src/utils.py:82-125 | with a lawful codec, loading after a save returns the saved map (round trip) |
| ProgressStore.LoadOfEmptyJson | src/base_crawler.py:93-95 | a file cleared to `{}` loads as the empty map |
| TitleNormalizer.CleanTitle | src/utils.py:204 | the cleaned title has no edge whitespace and is no longer than the raw title |
| TitleNormalizer.ChapterHeading | src/utils.py:234-237 | a heading starts with `第 N 章` for its number and ends with `: caption` when there is a caption |
| TitleNormalizer.DropLeadingNumber | src/utils.py:232 | the result is a suffix of the title; a title that starts with a non-digit is unchanged; otherwise what is removed is the whole leading digit run followed only by separators, and the result does not start with a separator |
| TitleNormalizer.ExtractAndFormatTitle | src/utils.py:219-239 | the title it builds, and then discards, always starts with `第` |
| TitleNormalizer.Normalize | src/utils.py:191-216 | the key is the cleaned title; the next counter is one past the current one for `第` titles and titles without digits, and one past the first number otherwise |
| TitleNormalizer.KeyIgnoresCounter | src/utils.py:191-216 | the key never depends on the counter passed in |
| TitleNormalizer.NextCounterFromTitle | src/utils.py:229-231 | for an unmarked title with a number, the next counter does not depend on the counter passed in |
| TitleNormalizer.NextCounterCases | src/utils.py:207-210 | the next counter is either the current one plus one or the title's first number plus one |
| TitleNormalizer.NoiseSurvivesOnePass | src/utils.py:204 | a single replacement pass turns `立即立即阅读阅读` into `立即阅读`, which survives into the key |
| TitleNormalizer.NestedNoiseReplaced | src/utils.py:204 | the replacement is one left-to-right pass, not repeated until nothing is left |
| TitleNormalizer.NoiseOnlyTitle | src/utils.py:204-216 | `立即阅读` normalises to the empty key with next counter 2 |
| TitleNormalizer.MarkedTitleExample | src/utils.py:207-210 | `第123章 测试标题` is kept as is and the counter only advances |
| TitleNormalizer.NumberedTitleExample | src/utils.py:229-239 | `456 测试内容` sets the next counter to 457 |
| TitleNormalizer.PlainTitleExample | src/utils.py:234-239 | a title without digits keeps its text and advances the counter by one |
| LegacyNormalizer.Normalize | utils.py:96-123 | every legacy key starts with `第`, and an unmarked title's key starts with the heading of the number that was used |
| LegacyNormalizer.MarkedTitleKept | utils.py:102-104 | a title already starting with `第` is kept and the counter advances by one |
| LegacyNormalizer.NumberedTitleRewritten | utils.py:104-114 | a cleaned title without the marker whose first number is N gets the key `第 N 章`, followed by `: ` and the caption (the cleaned title without its leading number, stripped) when that caption is not empty; the counter becomes N+1 |
| LegacyNormalizer.PlainTitleRewritten | utils.py:104-114 | a cleaned title without the marker or any digit gets the key `第 c 章` for the counter c, followed by `: ` and the cleaned title when it is not empty; the counter becomes c+1 |
| LegacyNormalizer.KeyIndependentOfCounter | utils.py:102-114 | marked and numbered titles get the same key whatever the counter |
| LegacyNormalizer.KeyDependsOnCounter | utils.py:111-114 | a plain title gets different keys under different counters |
| LegacyNormalizer.LaterNumberStaysInCaption | utils.py:106-110 | a number that is not at the start sets the chapter number but stays in the caption |
| LegacyNormalizer.CounterAgreesWithPackaged | utils.py:96-123 | both copies advance the counter identically |
| LegacyNormalizer.KeyIsDiscardedPackagedTitle | src/utils.py:219-239 | the legacy key is exactly the title that the packaged helper builds and throws away |
| LegacyNormalizer.NumberedTitleExample | utils.py:104-114 | `456 测试内容` becomes `("第 456 章: 测试内容", 457)` |
| LegacyNormalizer.PlainTitleExample | utils.py:111-114 | `测试章节` becomes `第 1 章: 测试章节` under counter 1 and `第 2 章: 测试章节` under counter 2 |
| Assembler.ChapterLeqIsTotalPreorder | src/utils.py:179-184 | ordering by first number (0 when none) is total and transitive |
| Assembler.DistinctPositionsIffOnce | src/utils.py:145-152 | stored listed keys sit at distinct positions exactly when each is listed once |
| Assembler.WriteListed | src/utils.py:149-155 | the listed pass writes the stored listed titles in list order and removes each from the pending set; it raises exactly when a title is written a second time, and then the last one written is a repeat or no longer pending |
| Assembler.WrittenStep | src/utils.py:149-155 | one iteration of the listed pass: when the first title does not clash, what holds of the pass over the rest holds of the whole list, with that title written in front when it is stored |
| Assembler.WriteListedStopsAtFirstClash | src/utils.py:145-155 | when the listed pass raises, it raised at the first clash, and what was written is every stored listed title up to and including that clash, in list order |
| Assembler.ClashAtHead | src/utils.py:150-152 | a first stored title that is no longer pending is written and then raises |
| Assembler.ClashLater | src/utils.py:149-155 | a first clash at position j of the rest of the list is the first clash at position j + 1 of the whole list, with the first title written in front when it is stored |
| Assembler.ClashOfTail | src/utils.py:149-155 | a first clash of the rest of the list is a first clash of the whole list, when the first title does not clash |
| Assembler.FirstClashIsRepeat | src/utils.py:145-152 | with every stored key pending at the start, the first clash is a stored key listed a second time |
| Assembler.NoClashIffListedOnce | src/utils.py:149-155 | the listed pass does not raise exactly when no stored key is listed twice |
| Assembler.SaveNovelToTxt | src/utils.py:128-162 | the text is the concatenation of the pages written, and the assembly completes exactly when no stored key is listed twice |
| Assembler.CompleteAssemblyOrder | src/utils.py:145-188 | a complete assembly writes every stored chapter exactly once: listed ones in list order, then the unlisted ones sorted by chapter number |
| Assembler.CutShortRepeatsLastKey | src/utils.py:145-152 | an incomplete assembly stops right after writing a key it had already written: it holds the stored listed keys, in list order, up to and including the first stored key listed a second time, before which no stored key repeats |
| Assembler.Permutation | src/utils.py:145-188 | listed and unmatched pages together are a permutation of the stored chapters |
| Assembler.FullListInMapOrder | utils.py:84-94 | listing every key in map order writes every page in map order and completes |
| Assembler.RepeatedKeyCutsShort | src/utils.py:149-152 | listing one stored key twice writes its page twice and then raises |
| SafeFilename.StripInvalidChars | src/utils.py:315 | the result has no forbidden file-name character, and holds every other character exactly as many times as the title does |
| SafeFilename.StripInvalidCharsAppend | src/utils.py:315 | the filter distributes over concatenation, so the kept characters stay in title order |
| SafeFilename.StripInvalidCharsOfChar | src/utils.py:315 | a single character is dropped exactly when it is forbidden |
| SafeFilename.TwoValidKept | src/utils.py:315-318 | a title holding two different allowed characters keeps at least two characters, so the title, not the URL, names the file |
| SafeFilename.StripInvalidCharsOfValid | src/utils.py:315 | a title without forbidden characters is unchanged |
| SafeFilename.StripInvalidCharsIdempotent | src/utils.py:315 | filtering twice is filtering once |
| SafeFilename.ExtractFilenameFromUrl | src/utils.py:324-337 | a non-empty name is a path segment longer than one character that does not end in `.html`, and no later segment qualifies; the name is empty exactly when no segment qualifies |
| SafeFilename.GetSafeFilename | src/utils.py:304-321 | the name is never empty and has no `/`; a filtered title of two or more characters is used as is; otherwise the name is the last usable URL segment, unfiltered, and when there is none it is the hash name |
| SafeFilename.InvalidCharsRemovedExample | src/utils.py:315-317 | `测试/文件:名?称` loses its `/`, `:` and `?` |
| SafeFilename.ColonThroughUrlFallback | src/utils.py:318-321 | with an empty title and the URL `http:`, the name is `http:`, which keeps a forbidden colon |
| SafeFilename.GetSafeFilenameFiltered | src/utils.py:304-321 | the corrected name also filters the URL fallback, so it never holds a forbidden character; a short title gives the filtered URL segment, or the hash name when that is empty |
| SafeFilename.HashName | src/utils.py:321 | the hash name is `chapter_` followed by at most three digits whose value is the hash modulo 1000 |
| SafeFilename.HashNameIsValid | src/utils.py:320-321 | the hash-based name holds no forbidden character |
| SafeFilename.FilteredAgreesOnTitles | src/utils.py:315-317 | the corrected name equals the original whenever the title is usable |
| Crawler.Attempts | src/base_crawler.py:205-234 | at most `max_retries` fetches of one URL; it stops at the first success, pauses after each failure except the last allowed one, and gives up only after every allowed attempt failed |
| Crawler.FetchChapterWithRetry | src/base_crawler.py:188-234 | on success, stores `key\n\n<body>\n\n` under the key and saves the JSON once; on failure, leaves the map and the store unchanged; a never-failing site needs exactly one fetch and no pause |
| Crawler.ClearExistingFiles | src/base_crawler.py:87-105 | only existing novel files are reset, the JSON to `{}` and the text to empty; nothing is created and nothing else changes |
| Crawler.ClearThenLoadEmpty | src/base_crawler.py:115-122 | after clearing, the progress loads as the empty map |
| Crawler.KeyIsNormalizedTitle | src/base_crawler.py:135 | a chapter's key is its normalised title, whatever the counter |
| Crawler.Listed | src/base_crawler.py:132-136 | the listed keys are the normalised titles, one per link, in link order |
| Crawler.UncrawledChapters | src/base_crawler.py:131-138 | every link whose key is not stored has its title in the work map |
| Crawler.UncrawledOnlyMissing | src/base_crawler.py:137-138 | every title in the work map comes from a link whose key is not stored |
| Crawler.UncrawledLastUrl | src/base_crawler.py:138 | a repeated title maps to the URL of its last such link |
| Crawler.UncrawledOrder | src/base_crawler.py:133-138 | work titles are in order of their first appearance among the links |
| Crawler.WorkList | src/base_crawler.py:141 | the work list is the first `remaining` items of the work map, in order |
| Crawler.CrawlChapters | src/base_crawler.py:158-186 | each work item is skipped (its key already stored), stored or given up; only fetched keys are added, each holding `key + "\n\n" + body + "\n\n"` for a body a fetch of an item with that key returned; fetch and save counts match; the JSON always holds the current map; item by item, a skipped item is fetched 0 times, a stored one 1 to `max_retries` times and a given-up one `max_retries` times, and the fetched URLs are those counts of copies of each item's URL, in work order |
| Crawler.CrawlItem | src/base_crawler.py:175-186 | one item of the loop: an item whose key was loaded is skipped, an item is skipped only when its key was loaded or stored by an earlier item, and a skipped item fetches nothing; the other loop facts carry over |
| Crawler.AttemptItem | src/base_crawler.py:183-186 | an attempted item fetches only its own URL, between 1 and `max_retries` times when it is stored and exactly `max_retries` times when it is given up |
| Crawler.SkipTriesNothing | src/base_crawler.py:180-181 | a skipped item adds no fetch to the fetched URLs |
| Crawler.AttemptTriesItsUrl | src/base_crawler.py:183-186 | an attempt whose fetches all go to the item's URL extends the fetched URLs by that many copies of it |
| Crawler.AttemptKeepsPages | src/base_crawler.py:208-212 | storing the page of a successful fetch keeps every added key holding the page of a fetched body of an item with that key |
| Crawler.UncrawledEntriesOccur | src/base_crawler.py:134-138 | every title in the work map comes with the URL of a link of the index that carries that title |
| Crawler.PagesFromLinks | src/base_crawler.py:140-147 | a page fact over the work list carries over to the index links the work list was drawn from |
| Crawler.ClearedRunStartsEmpty | src/base_crawler.py:115-122 | with clearing on, the run starts from the empty map |
| Crawler.EveryListedKeyStored | src/base_crawler.py:131-186 | if nothing is given up and the work list covers the whole work map, every listed key ends up stored |
| Crawler.BudgetIsProduct | src/base_crawler.py:141-186 | the fetch budget is chapters times max retries |
| Crawler.FetchMissing | src/base_crawler.py:131-147 | the map only grows, by at most `remaining`; fetches stay within budget; the JSON holds the map; with a never-failing site and enough quota, every listed key is stored; every added key holds the page of a body fetched from an index link with that key; the fetches follow the work list item by item, skipping (without a fetch) every item whose key was loaded and only items whose key was loaded or stored by an earlier item; a stored item is fetched 1 to `max_retries` times, a given-up one `max_retries` times |
| Crawler.Crawl | src/base_crawler.py:107-156 | the run aborts exactly when the index cannot be read, and then touches nothing; otherwise it satisfies the run contract below |
| Crawler.CrawlNovel | src/base_crawler.py:114-152 | run contract: the quota check stops the run exactly when the loaded map is already full; only the novel's files change; one save per new chapter; the text file is the assembly of the final map and is cut short exactly when a stored key is listed twice; every added key holds the page of a body fetched from an index link with that key; past the quota check, the fetches follow the run's work list item by item, skipping (without a fetch) every item whose key was loaded and only items whose key was loaded or stored by an earlier item; a stored item is fetched 1 to `max_retries` times, a given-up one `max_retries` times |
| Crawler.NothingMissing | src/base_crawler.py:131-138 | when every listed key is stored, the work map is empty |
| Crawler.RerunHasNoWork | src/base_crawler.py:131-141 | a map that holds every listed key gives an empty work list |
| Crawler.RerunFindsNothingToFetch | src/base_crawler.py:115-141 | after a run that stored everything, a rerun without clearing loads the same map and finds nothing to fetch |
| Crawler.QuotaRunHolds | src/base_crawler.py:123-129 | a run that meets the quota check returns the loaded map and fetches nothing |
| Crawler.FullRunHolds | src/base_crawler.py:131-152 | a run past the quota check satisfies the run contract, ending `Finished` or in a failed assembly |
| Crawler.WriteText | src/base_crawler.py:152 | writing the text file stores the assembly; the assembly completes exactly when no stored key is listed twice |
| Shuwu.ExtractNovelTitle | src/crawer_77shuwu.py:103-119 | with no tag the title is `未知小说`; otherwise it has no forbidden character and holds every other character of the stripped tag text exactly as many times |
| Shuwu.NovelTitleKeepsOrder | src/crawer_77shuwu.py:116-118 | the title of a tag whose stripped text is `a + b` is the filtered `a` followed by the filtered `b`: the order is kept |
| Shuwu.NovelTitleExample | src/crawer_77shuwu.py:116-119 | a clean title is kept as is |
| Shuwu.ExtractNovelId | src/crawer_77shuwu.py:121-131 | the id is all digits, and empty exactly when the URL has no `/novel/<digits>/` |
| Shuwu.NovelIdOfFirstMatch | src/crawer_77shuwu.py:130-131 | the id is the digit run of the first match |
| Shuwu.NovelIdOfHomepage | src/crawer_77shuwu.py:130-131 | a homepage URL `…/novel/<digits>/` yields its digits |
| Shuwu.ChapterPrefixAccepted | src/crawer_77shuwu.py:184-185 | every `/chapter/` link is a chapter link |
| Shuwu.EmptyIdUsesPrefixRules | src/crawer_77shuwu.py:180-190 | without an id, a link is a chapter link exactly when it starts with `/chapter/` or is a deep `/novel/` link not ending in `/` |
| Shuwu.OtherLinksRejected | src/crawer_77shuwu.py:180-190 | a link with no `/chapter/` and not under `/novel/` is rejected |
| Shuwu.ChapterLinkExamples | src/crawer_77shuwu.py:180-190 | `/chapter/123/1.html` and `/chapter/456/2.html` are accepted and `/author/test` is not |
| Shuwu.FullUrl | src/crawer_77shuwu.py:165 | a root-relative link starts with the base URL, ends with the link and is exactly as long as both, so it is `base_url + href`; any other link is kept as is |
| Shuwu.ExtractChapterLinks | src/crawer_77shuwu.py:133-168 | every link kept has a stripped title of 1 to 50 characters other than `立即阅读` |
| Shuwu.LinkFromKeptAnchor | src/crawer_77shuwu.py:150-166 | every link comes from an anchor that passes the filters |
| Shuwu.KeptAnchorLinked | src/crawer_77shuwu.py:150-166 | every anchor that passes the filters yields a link |
| Shuwu.DedupByUrl | src/crawer_77shuwu.py:204-210 | de-duplication keeps only links from the input and never lengthens it |
| Shuwu.DedupByUrlFacts | src/crawer_77shuwu.py:204-210 | de-duplication keeps one link per URL, loses no URL, and keeps the first link for each URL |
| Shuwu.UrlLeqIsTotalPreorder | src/crawer_77shuwu.py:213 | ordering links by URL is a total preorder |
| Shuwu.SameElementsKeepFirsts | src/crawer_77shuwu.py:212-213 | sorting the deduplicated links keeps their URL set and keeps each one the first link of the input with its URL |
| Shuwu.DeduplicateAndSortLinks | src/crawer_77shuwu.py:192-214 | the result has distinct URLs, the same URL set as the input and the first link of each URL, and is sorted by URL |
| Shuwu.PermutationKeepsDistinctUrls | src/crawer_77shuwu.py:213 | sorting cannot reintroduce a duplicate URL |
| Shuwu.DeduplicateExample | src/crawer_77shuwu.py:192-214 | two links to `…2.html` and one to `…1.html` give two links, `…1.html` first |
| Shuwu.GetPageUrls | src/crawer_77shuwu.py:63-101 | discovery fails exactly when the index cannot be read; otherwise it gives the novel title extracted from the title tag and distinct, sorted links whose URLs are exactly those of the filtered anchors, each link being the first filtered link with its URL |
| Shuwu.StripLines | src/crawer_77shuwu.py:444 | every kept line is non-empty and stripped |
| Shuwu.StripLinesIdempotent | src/crawer_77shuwu.py:444 | cleaning lines twice is cleaning them once |
| Shuwu.CleanLines | src/crawer_77shuwu.py:444 | the joined lines never hold two newlines in a row |
| Shuwu.CleanLinesRoundTrip | src/crawer_77shuwu.py:444 | splitting the joined text gives back exactly the kept lines |
| Shuwu.CollapseNewlines | src/crawer_77shuwu.py:445 | the result has no run of three newlines |
| Shuwu.CollapseOfNoDouble | src/crawer_77shuwu.py:445 | text without a double newline is unchanged |
| Shuwu.CollapseIsNoOp | src/crawer_77shuwu.py:444-445 | the collapse never changes the joined lines |
| Shuwu.RemoveBlocks | src/crawer_77shuwu.py:448 | removal never lengthens the text and leaves text without the opening marker unchanged |
| Shuwu.BlockRemoved | src/crawer_77shuwu.py:448 | a block is removed from its opening marker to the first closing marker after it |
| Shuwu.RemoveAds | src/crawer_77shuwu.py:448 | ad removal never lengthens the text and leaves ad-free text unchanged |
| Shuwu.AdBlockRemoved | src/crawer_77shuwu.py:448 | one `温馨提示：方向键左右 … 返回列表` block is removed, up to its first `返回列表` |
| Shuwu.CutAt | src/crawer_77shuwu.py:452-455 | after the cut, the keyword no longer occurs |
| Shuwu.CutAtKeeps | src/crawer_77shuwu.py:452-455 | the cut introduces no new substring and no double newline |
| Shuwu.CutAtAll | src/crawer_77shuwu.py:451-455 | after the cuts, no navigation keyword occurs, and nothing absent before appears |
| Shuwu.CleanContent | src/crawer_77shuwu.py:434-457 | the cleaned content is stripped and holds neither navigation keyword |
| Shuwu.CleanContentWithoutAds | src/crawer_77shuwu.py:434-457 | without ads, cleaning is line cleaning plus the navigation cuts, and leaves no double newline |
| Shuwu.AdLineLeavesBlankLine | src/crawer_77shuwu.py:444-457 | an ad line between two lines leaves a blank line behind, because the collapse runs before ad removal |
| Shuwu.GetChapterContent | src/crawer_77shuwu.py:216-249 | the site's fetch never fails: exceptions become page text |
| Shuwu.FailedPageBecomesPlaceholder | src/crawer_77shuwu.py:247-249 | a failed fetch yields a page starting `[章节内容获取失败 - ` |
| Shuwu.SiteRunStoresEveryChapter | src/crawer_77shuwu.py:216-249 | a 77shuwu run with enough quota stores every listed chapter, placeholders included |
| LegacyCrawler.ListedKeys | base_crawler.py:98-102 | the listed keys are the legacy-normalised titles under counter 1 |
| LegacyCrawler.ThreadedKeyAt | base_crawler.py:110-114 | the key of the p-th work item is its title normalised under the counter threaded through the items before it |
| LegacyCrawler.RunningKeyAt | base_crawler.py:110-114 | the loop's p-th key uses the counter left by the earlier items |
| LegacyCrawler.RunningKeyAgrees | base_crawler.py:98-118 | for marked or numbered titles, the loop key is the listed key |
| LegacyCrawler.RunningKeyDiffers | base_crawler.py:98-118 | for a plain title reached with a counter other than 1, the loop key differs from the listed key |
| LegacyCrawler.SecondPlainTitleMisKeyed | base_crawler.py:98-118 | of two plain titles in a row, the second is stored under a different key from the one it was listed under |
| LegacyCrawler.CrawlChapters | base_crawler.py:110-142 | one attempt per item: skipped, stored under the running key, or given up on an exception; the fetch calls are, in order, one of the URL of each item not skipped; every added key holds the page of a body fetched for an item with that running key; the JSON holds the current map |
| LegacyCrawler.Work | base_crawler.py:98-106 | the work list holds at most `remaining` items |
| LegacyCrawler.TextIsFullAssembly | utils.py:84-94 | the legacy text file is every stored page in map order |
| LegacyCrawler.Crawl | base_crawler.py:73-158 | aborts exactly when the index cannot be read, and then touches nothing; otherwise it satisfies the legacy run contract below |
| LegacyCrawler.CrawlNovel | base_crawler.py:80-147 | legacy run contract: quota as in the packaged copy; the fetches are, in order, one of each work item not skipped, an item being skipped only when its running key was loaded or stored by an earlier item; new keys come from the running keys and hold the page of a body fetched for that item; with a never-failing site, every running key is stored |
| LegacyCrawler.LegacyRunHolds | base_crawler.py:108-147 | the loop's facts give the legacy run contract |
| LegacyCrawler.AttemptedUrls | base_crawler.py:113-123 | one URL per item not skipped, so as many as the items not skipped |
| LegacyCrawler.SkipFetchesNothing | base_crawler.py:118-119 | a skipped item adds no fetch call |
| LegacyCrawler.AttemptFetchesItsUrl | base_crawler.py:121-123 | an attempted item adds exactly one fetch call, of its own URL |
| LegacyCrawler.WorkRunHolds | base_crawler.py:110-142 | the loop's facts show that each added key holds a fetched page of its item and that the fetches follow the items |
| LegacyCrawler.FinishedLegacyRun | base_crawler.py:80-147 | the parts of a finished run make up the legacy run contract |
| LegacyCrawler.NeverFailingRun | base_crawler.py:113-142 | when nothing is given up, every running key is stored and the fetch count equals the number of new chapters |
| LegacyCrawler.MissedKeyListedAgain | base_crawler.py:98-106 | a listed key that was neither loaded nor produced by the loop is still missing, so the next run lists that chapter again |

## Left out

- I/O failures are not modelled: the `IOError` branch of `clear_existing_files`, and failing writes in the save helpers. Writes always succeed in the model.
- Logging is not modelled. `random_delay`, `tqdm` and `time` are reduced to back-off events in the trace; no durations are modelled.
- HTTP and HTML parsing are not modelled. This covers `_send_request`, BeautifulSoup, `_extract_chapter_title` and the three content extractors. The index page is an abstract list of anchors plus an optional title tag. A chapter fetch is a `PageResult` that is either page text or an exception.
- `_clean_content` is modelled (`Shuwu.CleanContent`) but is not wired into the fetch. It is reached only through the content extractors, which are out of scope.
- The huanghelou crawlers are not part of this model, in either copy.
- Also outside the model:
  - the root `crawer_77shuwu.py`;
  - the run scripts;
  - `parse_args`/`main`;
  - `setup_logger`;
  - `ensure_directory`;
  - `save_debug_html` and `_save_debug_html_on_error`.
- JSON syntax is abstracted into the `Codec` parameter. The codec either yields a chapter map or fails. A file that parses to valid JSON other than an object is outside the model; the source would return that value as is.
- The URL hash of `_get_safe_filename` is a parameter, `urlHash`.
- `\d` matches only ASCII digits here, whereas Python also matches other Unicode digits. Whitespace for `strip()` is the fixed list of characters for which Python's `str.isspace` holds. Python's 4300-digit limit on `int()` is not modelled.
- The unmatched chapters are sorted from a Python `set`. Its iteration order is arbitrary, so chapters with equal numbers may come out in any order. The model uses map order for ties and claims only sortedness and the permutation.
- Shuwu.NovelIdOfHomepage: stated for any homepage `host + "/novel/" + digits + "/"` whose host has no `n`, rather than for one literal site URL.
- Shuwu.DeduplicateExample: stated over any site prefix rather than the literal URLs of the tests.
- Shuwu.RemoveBlocks: the non-greedy DOTALL removal is characterised for a single block whose prefix holds no opening character. Overlapping markers are not characterised.
- Shuwu.RemoveAds: same restriction as `Shuwu.RemoveBlocks`.
- Shuwu.CleanContent: the contract states stripping and the absence of navigation keywords, not the exact text. The exact text is given for ad-free content (`Shuwu.CleanContentWithoutAds`) and for one ad line (`Shuwu.AdLineLeavesBlankLine`).
- Crawler.CrawlNovel: the exception that a duplicated listed title raises in `save_novel_to_txt` is an outcome (`AssemblyRaised`) with the text cut short. The model does not follow it into the `except` handler's debug dump.
- LegacyCrawler.CrawlNovel: the legacy run's `except` around the whole crawl also catches failures of the text write. Those cannot happen in the model.

## Findings

| source | as written | input that shows it | evidently intended | confidence | as-written member | corrected member |
|---|---|---|---|---|---|---|
| src/utils.py:318-321 | the URL fallback name is returned without removing forbidden file-name characters | title `""` and URL `http:` give the name `http:`, which contains `:` | the fallback name is filtered like the title | not executed | SafeFilename.ColonThroughUrlFallback | SafeFilename.GetSafeFilenameFiltered |

=== FILE: assembler.dfy ===
/**
  Assembly of the finished novel text by the packaged crawler
  (`save_novel_to_txt` and `_write_unmatched_titles` in `src/utils.py`).

  The chapters named by the discovered title list are written first, in list
  order; the stored chapters the list never names ("orphans") follow, ordered
  by the first number in their key. A key the list names twice is written twice
  and then makes the set removal raise `KeyError`, which leaves the text cut
  short.
*/
module Assembler {
  import opened Wrappers
  import opened Text
  import opened OrderedDict
  import opened Sorting
  import opened Sequences
  import opened ProgressStore

  /** `extract_chapter_num`: the first digit run's value, 0 when there is none. */
  function ChapterNum(title: string): nat {
    FirstNumber(title).GetOr(0)
  }

  /** The sort key comparison of `sorted(..., key=extract_chapter_num)`. */
  predicate ChapterLeq(a: string, b: string) {
    ChapterNum(a) <= ChapterNum(b)
  }

  lemma ChapterLeqIsTotalPreorder()
    ensures TotalPreorder(ChapterLeq)
  {
  }

  /** The finished text: the keys written in order, their concatenated chapter
      texts, and whether the writing ran to the end without raising. */
  datatype Document = Document(written: seq<string>, text: string, complete: bool)

  /** The chapter texts of `keys`, in order. */
  function Texts(keys: seq<string>, d: Progress): (ts: seq<string>)
    requires forall k | k in keys :: k in d.m
    ensures |ts| == |keys|
    ensures forall i | 0 <= i < |ts| :: ts[i] == d.m[keys[i]]
  {
    seq(|keys|, i requires 0 <= i < |keys| => d.m[keys[i]])
  }

  function ElemSet(s: seq<string>): set<string> {
    set x | x in s
  }

  /** No key of the map is listed twice. */
  ghost predicate ListsPresentOnce(listed: seq<string>, d: Progress) {
    forall k | k in d.m :: multiset(listed)[k] <= 1
  }

  /** No two positions of the list hold the same key of the map. */
  ghost predicate PresentPositionsDistinct(listed: seq<string>, d: Progress) {
    forall i, j | 0 <= i < j < |listed| && listed[i] in d.m :: listed[i] != listed[j]
  }

  /** A value at two positions occurs at least twice. */
  lemma TwoPositionsTwice(s: seq<string>, i: int, j: int)
    requires 0 <= i < j < |s| && s[i] == s[j]
    ensures multiset(s)[s[i]] >= 2
  {
    assert s == s[..j] + s[j..];
    assert s[i] == s[..j][i];
    assert s[j] == s[j..][0];
  }

  lemma {:induction false} DistinctPositionsIffOnce(listed: seq<string>, d: Progress)
    ensures PresentPositionsDistinct(listed, d) <==> ListsPresentOnce(listed, d)
  {
    if ListsPresentOnce(listed, d) {
      forall i, j | 0 <= i < j < |listed| && listed[i] in d.m ensures listed[i] != listed[j] {
        if listed[i] == listed[j] {
          TwoPositionsTwice(listed, i, j);
        }
      }
    }
    if listed != [] && PresentPositionsDistinct(listed, d) {
      var t, rest := listed[0], listed[1..];
      assert listed == [t] + rest;
      assert PresentPositionsDistinct(rest, d) by {
        forall i, j | 0 <= i < j < |rest| && rest[i] in d.m ensures rest[i] != rest[j] {
          assert rest[i] == listed[i + 1] && rest[j] == listed[j + 1];
        }
      }
      DistinctPositionsIffOnce(rest, d);
      if t in d.m {
        assert t !in rest by {
          forall j | 0 <= j < |rest| ensures rest[j] != t {
            assert rest[j] == listed[j + 1];
          }
        }
      }
    }
  }

  /** Every listed key of the map is still pending when reached, and was not
      listed before. */
  ghost predicate NoClash(listed: seq<string>, d: Progress, pending: set<string>) {
    forall i | 0 <= i < |listed| && listed[i] in d.m :: listed[i] in pending && listed[i] !in listed[..i]
  }

  lemma NoClashStep(listed: seq<string>, d: Progress, pending: set<string>)
    requires listed != []
    ensures NoClash(listed, d, pending) <==>
            if listed[0] in d.m then listed[0] in pending && NoClash(listed[1..], d, pending - {listed[0]})
            else NoClash(listed[1..], d, pending)
  {
    var t, rest := listed[0], listed[1..];
    forall i | 0 <= i < |rest| ensures listed[i + 1] == rest[i] && listed[..i + 1] == [t] + rest[..i] {
    }
    if NoClash(listed, d, pending) {
      var p := if t in d.m then pending - {t} else pending;
      forall i | 0 <= i < |rest| && rest[i] in d.m ensures rest[i] in p && rest[i] !in rest[..i] {
        assert listed[i + 1] in pending && listed[i + 1] !in listed[..i + 1];
      }
    }
    if (if t in d.m then t in pending && NoClash(rest, d, pending - {t}) else NoClash(rest, d, pending)) {
      forall i | 0 <= i < |listed| && listed[i] in d.m ensures listed[i] in pending && listed[i] !in listed[..i] {
        if i > 0 {
          assert rest[i - 1] == listed[i];
        }
      }
    }
  }

  /** The pass raised at position `j`, the first listed key of the map that
      is no longer pending or was listed before, having written every listed
      key of the map up to and including it. */
  ghost predicate RaisedAtFirstClash(listed: seq<string>, d: Progress, pending: set<string>, w: seq<string>) {
    exists j | 0 <= j < |listed| :: ClashAt(listed, d, pending, w, j)
  }

  /** Position `j` is the first clash and `w` what was written up to it. */
  ghost predicate ClashAt(listed: seq<string>, d: Progress, pending: set<string>, w: seq<string>, j: nat)
    requires j < |listed|
  {
    && NoClash(listed[..j], d, pending)
    && !NoClash(listed[..j + 1], d, pending)
    && w == Keep(listed[..j + 1], d.m.Keys)
  }

  /** A first key of the map that is not pending raises at once, after being written. */
  lemma ClashAtHead(listed: seq<string>, d: Progress, pending: set<string>)
    requires listed != [] && listed[0] in d.m && listed[0] !in pending
    ensures RaisedAtFirstClash(listed, d, pending, [listed[0]])
  {
    var t := listed[0];
    assert listed[..1] == [t];
    assert listed[..0] == [];
    assert Keep([t], d.m.Keys) == [t] + Keep([t][1..], d.m.Keys);
    assert [t][1..] == [];
    assert ClashAt(listed, d, pending, [t], 0);
  }

  /** A first clash at position `j` of the tail is a first clash at position
      `j + 1` of the whole list, when its head does not clash, and the keys
      written up to it gain the head in front when it is in the map. */
  lemma ClashLater(listed: seq<string>, d: Progress, pending: set<string>, w: seq<string>, j: nat)
    requires j + 1 < |listed|
    requires listed[0] in d.m ==> listed[0] in pending
    requires ClashAt(listed[1..], d, if listed[0] in d.m then pending - {listed[0]} else pending, w, j)
    ensures ClashAt(listed, d, pending, if listed[0] in d.m then [listed[0]] + w else w, j + 1)
  {
    NoClashOfPrefix(listed, d, pending, j);
    NoClashOfPrefix(listed, d, pending, j + 1);
    KeepOfPrefix(listed, d.m.Keys, j + 1);
  }

  /** `NoClashStep` for the prefix of length `n + 1`. */
  lemma NoClashOfPrefix(listed: seq<string>, d: Progress, pending: set<string>, n: nat)
    requires n < |listed|
    ensures var t := listed[0];
            NoClash(listed[..n + 1], d, pending) <==>
            if t in d.m then t in pending && NoClash(listed[1..][..n], d, pending - {t})
            else NoClash(listed[1..][..n], d, pending)
  {
    var a := listed[..n + 1];
    assert a[0] == listed[0] && a[1..] == listed[1..][..n];
    NoClashStep(a, d, pending);
  }

  /** Keeping from the prefix of length `n + 1` keeps the first element, when
      kept, in front of what is kept from the rest. */
  lemma KeepOfPrefix(listed: seq<string>, keep: set<string>, n: nat)
    requires n < |listed|
    ensures Keep(listed[..n + 1], keep)
            == (if listed[0] in keep then [listed[0]] else []) + Keep(listed[1..][..n], keep)
  {
    var a := listed[..n + 1];
    assert a[0] == listed[0] && a[1..] == listed[1..][..n];
  }

  /** The loop over the title list: `pending` is `not_found_titles`. Returns the
      keys written, the keys still pending, and whether `remove` raised. */
  function WriteListed(listed: seq<string>, d: Progress, pending: set<string>): (r: (seq<string>, set<string>, bool))
    requires pending <= d.m.Keys
    ensures forall k | k in r.0 :: k in d.m
    ensures r.1 <= pending
    ensures !r.2 <==> NoClash(listed, d, pending)
    ensures !r.2 ==> r.0 == Keep(listed, d.m.Keys) && r.1 == pending - ElemSet(listed)
    ensures !r.2 ==> Distinct(r.0) && forall k | k in r.0 :: k in pending
    ensures r.2 ==> r.0 != [] && r.0[|r.0| - 1] in d.m
                    && (r.0[|r.0| - 1] !in pending || r.0[|r.0| - 1] in r.0[..|r.0| - 1])
    decreases |listed|
  {
    if listed == [] then ([], pending, false)
    else
      var t := listed[0];
      if t in d.m && t !in pending then
        NoClashStep(listed, d, pending);
        ([t], pending, true)
      else
        var p := if t in d.m then pending - {t} else pending;
        var r := WriteListed(listed[1..], d, p);
        WrittenStep(listed, d, pending, r);
        if t in d.m then ([t] + r.0, r.1, r.2) else r
  }

  /** The contract of `WriteListed`, as one predicate. */
  ghost predicate Written(listed: seq<string>, d: Progress, pending: set<string>, r: (seq<string>, set<string>, bool)) {
    && (forall k | k in r.0 :: k in d.m)
    && r.1 <= pending
    && (!r.2 <==> NoClash(listed, d, pending))
    && (!r.2 ==> r.0 == Keep(listed, d.m.Keys) && r.1 == pending - ElemSet(listed))
    && (!r.2 ==> Distinct(r.0) && forall k | k in r.0 :: k in pending)
    && (r.2 ==> r.0 != [] && r.0[|r.0| - 1] in d.m
                && (r.0[|r.0| - 1] !in pending || r.0[|r.0| - 1] in r.0[..|r.0| - 1]))
  }

  /** The contract of `WriteListed` carries over from the rest of the list to
      the whole, when the first key does not clash. */
  lemma WrittenStep(listed: seq<string>, d: Progress, pending: set<string>, r: (seq<string>, set<string>, bool))
    requires pending <= d.m.Keys && listed != []
    requires listed[0] in d.m ==> listed[0] in pending
    requires Written(listed[1..], d, if listed[0] in d.m then pending - {listed[0]} else pending, r)
    ensures Written(listed, d, pending, if listed[0] in d.m then ([listed[0]] + r.0, r.1, r.2) else r)
  {
    var t := listed[0];
    NoClashStep(listed, d, pending);
    ElemSetCons(listed);
    if t in d.m {
      LastOfCons(t, r.0);
    }
  }

  lemma ElemSetCons(s: seq<string>)
    requires s != []
    ensures s == [s[0]] + s[1..]
    ensures ElemSet(s) == {s[0]} + ElemSet(s[1..])
  {
    assert s == [s[0]] + s[1..];
  }

  /** The last element of `[t] + w`, and what comes before it. */
  lemma LastOfCons(t: string, w: seq<string>)
    ensures var v := [t] + w;
            && v[|v| - 1] == (if w == [] then t else w[|w| - 1])
            && (w != [] ==> v[..|v| - 1] == [t] + w[..|w| - 1])
  {
    var v := [t] + w;
    if w != [] {
      assert v[..|v| - 1] == [t] + w[..|w| - 1];
    }
  }

  /** A pass that raises wrote every listed key of the map up to and
      including the first clash, in list order. */
  lemma {:induction false} WriteListedStopsAtFirstClash(listed: seq<string>, d: Progress, pending: set<string>)
    requires pending <= d.m.Keys
    ensures WriteListed(listed, d, pending).2 ==> RaisedAtFirstClash(listed, d, pending, WriteListed(listed, d, pending).0)
    decreases |listed|
  {
    if listed != [] {
      var t := listed[0];
      var p := if t in d.m then pending - {t} else pending;
      if t in d.m && t !in pending {
        assert WriteListed(listed, d, pending).0 == [t];
        ClashAtHead(listed, d, pending);
      } else {
        WriteListedStep(listed, d, pending);
        WriteListedStopsAtFirstClash(listed[1..], d, p);
        if WriteListed(listed, d, pending).2 {
          ClashOfTail(listed, d, pending, WriteListed(listed[1..], d, p).0);
        }
      }
    }
  }

  /** A pass whose first key does not clash goes on with the rest of the list. */
  lemma WriteListedStep(listed: seq<string>, d: Progress, pending: set<string>)
    requires pending <= d.m.Keys && listed != []
    requires listed[0] in d.m ==> listed[0] in pending
    ensures var t := listed[0];
            var p := if t in d.m then pending - {t} else pending;
            var r, r' := WriteListed(listed, d, pending), WriteListed(listed[1..], d, p);
            r.2 == r'.2 && r.0 == if t in d.m then [t] + r'.0 else r'.0
  {
  }

  /** A first clash of the tail is a first clash of the whole list. */
  lemma ClashOfTail(listed: seq<string>, d: Progress, pending: set<string>, w: seq<string>)
    requires listed != []
    requires listed[0] in d.m ==> listed[0] in pending
    requires RaisedAtFirstClash(listed[1..], d, if listed[0] in d.m then pending - {listed[0]} else pending, w)
    ensures RaisedAtFirstClash(listed, d, pending, if listed[0] in d.m then [listed[0]] + w else w)
  {
    var rest := listed[1..];
    var p := if listed[0] in d.m then pending - {listed[0]} else pending;
    var j :| 0 <= j < |rest| && ClashAt(rest, d, p, w, j);
    ClashLater(listed, d, pending, w, j);
  }

  /** With every key pending at the start, nothing clashes exactly when no key
      of the map is listed twice. */
  lemma NoClashIffListedOnce(listed: seq<string>, d: Progress)
    ensures NoClash(listed, d, d.m.Keys) <==> ListsPresentOnce(listed, d)
  {
    DistinctPositionsIffOnce(listed, d);
    if NoClash(listed, d, d.m.Keys) {
      forall i, j | 0 <= i < j < |listed| && listed[i] in d.m ensures listed[i] != listed[j] {
        assert listed[i] in listed[..j];
      }
    }
    if PresentPositionsDistinct(listed, d) {
      forall i | 0 <= i < |listed| && listed[i] in d.m ensures listed[i] !in listed[..i] {
        forall k | 0 <= k < i ensures listed[..i][k] != listed[i] {
          assert listed[..i][k] == listed[k];
        }
      }
    }
  }

  /** `save_novel_to_txt(content_title, normalized_titles, json_content)`: the
      text is the chapters of the keys written, and the writing runs to the end
      exactly when no stored key is listed twice. The order of what is written
      is stated by `AssemblyOrder`. */
  function SaveNovelToTxt(listed: seq<string>, d: Progress): (doc: Document)
    requires Valid(d)
    ensures forall k | k in doc.written :: k in d.m
    ensures doc.text == Concat(Texts(doc.written, d))
    ensures doc.complete <==> ListsPresentOnce(listed, d)
  {
    NoClashIffListedOnce(listed, d);
    var r := WriteListed(listed, d, d.m.Keys);
    if r.2 then
      Document(r.0, Concat(Texts(r.0, d)), false)
    else
      ChapterLeqIsTotalPreorder();
      var orphans := SortBy(Keep(d.keys, r.1), ChapterLeq);
      var w := r.0 + orphans;
      assert forall x | x in orphans :: x in r.1 by {
        Permutation(d, r.0, r.1, Keep(d.keys, r.1), orphans, listed);
      }
      Document(w, Concat(Texts(w, d)), true)
  }

  /** A complete text holds every stored chapter exactly once: first the
      listed ones in list order, then the orphans sorted by chapter number
      and never named by the list. */
  lemma CompleteAssemblyOrder(listed: seq<string>, d: Progress)
    requires Valid(d) && ListsPresentOnce(listed, d)
    ensures SaveNovelToTxt(listed, d).complete
    ensures multiset(SaveNovelToTxt(listed, d).written) == multiset(d.keys)
    ensures |Keep(listed, d.m.Keys)| <= |SaveNovelToTxt(listed, d).written|
    ensures SaveNovelToTxt(listed, d).written[..|Keep(listed, d.m.Keys)|] == Keep(listed, d.m.Keys)
    ensures SortedBy(SaveNovelToTxt(listed, d).written[|Keep(listed, d.m.Keys)|..], ChapterLeq)
    ensures forall k | k in SaveNovelToTxt(listed, d).written[|Keep(listed, d.m.Keys)|..] :: k !in listed
  {
    NoClashIffListedOnce(listed, d);
    var r := WriteListed(listed, d, d.m.Keys);
    assert !r.2;
    ChapterLeqIsTotalPreorder();
    var unmatched := Keep(d.keys, r.1);
    var orphans := SortBy(unmatched, ChapterLeq);
    var w := r.0 + orphans;
    assert SaveNovelToTxt(listed, d).written == w;
    Permutation(d, r.0, r.1, unmatched, orphans, listed);
    assert w[..|r.0|] == r.0 && w[|r.0|..] == orphans;
  }

  /** A text cut short ends with a key it has already written: it holds the
      listed keys of the map, in list order, up to and including the first
      one listed a second time. */
  lemma CutShortRepeatsLastKey(listed: seq<string>, d: Progress)
    requires Valid(d) && !ListsPresentOnce(listed, d)
    ensures !SaveNovelToTxt(listed, d).complete
    ensures EndsWithRepeat(SaveNovelToTxt(listed, d).written)
    ensures exists j | 0 <= j < |listed| ::
              && listed[j] in d.m && listed[j] in listed[..j]
              && ListsPresentOnce(listed[..j], d)
              && SaveNovelToTxt(listed, d).written == Keep(listed[..j + 1], d.m.Keys)
  {
    NoClashIffListedOnce(listed, d);
    var r := WriteListed(listed, d, d.m.Keys);
    assert r.2;
    assert SaveNovelToTxt(listed, d).written == r.0;
    WriteListedStopsAtFirstClash(listed, d, d.m.Keys);
    var j :| 0 <= j < |listed| && ClashAt(listed, d, d.m.Keys, r.0, j);
    assert r.0 == Keep(listed[..j + 1], d.m.Keys);
    FirstClashIsRepeat(listed, d, j);
    NoClashIffListedOnce(listed[..j], d);
    KeptRepeatEnds(listed, d.m.Keys, j, SaveNovelToTxt(listed, d).written);
    assert listed[j] in d.m && listed[j] in listed[..j] && ListsPresentOnce(listed[..j], d);
  }

  /** `w` has at least two elements and its last one already occurs before it. */
  predicate EndsWithRepeat(w: seq<string>) {
    |w| >= 2 && w[|w| - 1] in w[..|w| - 1]
  }

  /** Keeping the list up to a kept element that occurred before ends with a
      repeat of an element already kept. */
  lemma KeptRepeatEnds(listed: seq<string>, keep: set<string>, j: nat, w: seq<string>)
    requires j < |listed| && listed[j] in keep && listed[j] in listed[..j]
    requires w == Keep(listed[..j + 1], keep)
    ensures EndsWithRepeat(w)
  {
    var a := Keep(listed[..j], keep);
    assert listed[..j + 1] == listed[..j] + [listed[j]];
    KeepAppend(listed[..j], [listed[j]], keep);
    assert w == a + [listed[j]];
    assert listed[j] in a;
    assert w[..|w| - 1] == a;
  }

  /** With every key pending, the first clash is a key of the map listed a second time. */
  lemma FirstClashIsRepeat(listed: seq<string>, d: Progress, j: nat)
    requires j < |listed|
    requires NoClash(listed[..j], d, d.m.Keys) && !NoClash(listed[..j + 1], d, d.m.Keys)
    ensures listed[j] in d.m && listed[j] in listed[..j]
  {
    var a, b := listed[..j], listed[..j + 1];
    var i :| 0 <= i < |b| && b[i] in d.m && (b[i] !in d.m.Keys || b[i] in b[..i]);
    assert i == j;
    assert b[..j] == a;
  }

  /** The keys written from the list and the sorted orphans together are the
      map's keys, each once. */
  lemma Permutation(d: Progress, w: seq<string>, pending: set<string>, unmatched: seq<string>,
                    orphans: seq<string>, listed: seq<string>)
    requires Valid(d)
    requires Distinct(w) && w == Keep(listed, d.m.Keys)
    requires pending == d.m.Keys - ElemSet(listed)
    requires unmatched == Keep(d.keys, pending)
    requires multiset(orphans) == multiset(unmatched)
    ensures multiset(w + orphans) == multiset(d.keys)
    ensures forall x | x in orphans :: x in pending
  {
    assert Distinct(d.keys);
    KeepDistinct(d.keys, pending);
    MultisetDistinct(orphans, unmatched);
    forall x | x in orphans ensures x in pending {
      assert x in multiset(orphans);
      assert x in unmatched;
    }
    forall x | x in w ensures x !in orphans {
      assert x in listed && x !in unmatched;
      assert multiset(orphans)[x] == 0;
    }
    DistinctConcat(w, orphans);
    forall x ensures x in w + orphans <==> x in d.keys {
      if x in orphans {
        assert x in multiset(orphans);
        assert x in unmatched;
      }
      if x in d.keys && x !in w {
        assert x in d.m && x !in listed;
        assert x in unmatched;
        assert x in multiset(unmatched);
      }
    }
    SameElementsMultiset(w + orphans, d.keys);
  }

  /** A list naming every stored key once, in the map's order, writes the whole
      map in that order and leaves no orphan. */
  lemma FullListInMapOrder(d: Progress)
    requires Valid(d)
    ensures SaveNovelToTxt(d.keys, d) == Document(d.keys, Concat(Values(d)), true)
  {
    var r := WriteListed(d.keys, d, d.m.Keys);
    assert r == (d.keys, {}, false) by {
      FullListWritesAll(d);
    }
    assert Keep(d.keys, r.1) == [] by {
      KeepNone(d.keys, r.1);
    }
    assert SortBy<string>([], ChapterLeq) == [];
    assert Texts(d.keys + [], d) == Values(d) by {
      assert d.keys + [] == d.keys;
    }
  }

  /** Writing the map's own key list consumes every key without a clash. */
  lemma FullListWritesAll(d: Progress)
    requires Valid(d)
    ensures WriteListed(d.keys, d, d.m.Keys) == (d.keys, {}, false)
  {
    assert PresentPositionsDistinct(d.keys, d);
    NoClashIffListedOnce(d.keys, d);
    KeepAll(d.keys, d.m.Keys);
    var r := WriteListed(d.keys, d, d.m.Keys);
    assert !r.2;
    assert r.0 == d.keys;
    assert r.1 == d.m.Keys - ElemSet(d.keys);
    forall x | x in d.m.Keys ensures x in ElemSet(d.keys) {
      assert x in d.keys;
    }
    assert r.1 == {};
  }

  /** Keeping from an empty set keeps nothing. */
  lemma {:induction false} KeepNone(s: seq<string>, keep: set<string>)
    requires keep == {}
    ensures Keep(s, keep) == []
  {
    if s != [] {
      KeepNone(s[1..], keep);
    }
  }

  /** A present key listed twice is written twice, then the removal raises. */
  lemma RepeatedKeyCutsShort(d: Progress, k: string)
    requires Valid(d) && k in d.m
    ensures SaveNovelToTxt([k, k], d) == Document([k, k], d.m[k] + d.m[k], false)
  {
    var listed := [k, k];
    assert listed[1..] == [k];
    assert WriteListed([k], d, d.m.Keys - {k}) == ([k], d.m.Keys - {k}, true);
    assert WriteListed(listed, d, d.m.Keys).0 == [k, k];
    var ts := Texts([k, k], d);
    assert ts == [d.m[k], d.m[k]];
    assert ts[1..] == [d.m[k]] && ts[1..][1..] == [];
    assert Concat(ts[1..]) == d.m[k] + Concat([]);
    assert Concat(ts) == d.m[k] + d.m[k];
  }
}

=== FILE: crawler.dfy ===
/**
  The packaged crawl orchestrator (`src/base_crawler.py`): discover the chapter
  links, optionally clear old output, load saved progress, apply the chapter
  quota, build the work list, fetch each chapter with bounded retries while
  saving progress after every stored chapter, and assemble the final text.

  Discovery and chapter fetching are parameters. The fetcher is a function of
  the URL and of the number of fetch calls made before it in the run, so any
  schedule of answers a site might give can be expressed. Delays are events
  of the trace; their lengths are not modelled.
*/
module Crawler {
  import opened Wrappers
  import opened Text
  import opened OrderedDict
  import opened ProgressStore
  import TN = TitleNormalizer
  import A = Assembler

  /** A discovered chapter link: its raw title and its URL. */
  datatype Ref = Ref(title: string, url: string)

  /** What `get_chapter_content` does for one call: return a title and a body,
      or raise. */
  datatype FetchResult = Fetched(title: string, body: string) | FetchFailed

  /** `get_chapter_content(url)` as the `n`-th fetch call of the run. */
  type Fetcher = (string, nat) -> FetchResult

  /** What `get_page_urls(homepage)` does: return the novel title and its
      chapter links, or raise. */
  datatype Discovery = Discovered(novelTitle: string, refs: seq<Ref>) | DiscoveryFailed

  datatype Config = Config(maxChapters: int, maxRetries: int, clearFiles: bool)

  /** The observable steps of a run: a fetch call (with its 1-based attempt
      number), a back-off delay after a failed attempt, a save of the progress
      file, and the pacing delay after a stored chapter. */
  datatype Event = Fetch(url: string, attempt: nat) | Backoff(attempt: nat) | Saved(progress: Progress) | Pace

  /** How `crawl` ends: discovery raised, the quota was already met, the text
      was written, or writing the text raised. */
  datatype Outcome = Aborted | QuotaReached | Finished | AssemblyRaised

  /** What happened to one work item. */
  datatype Handling = Skipped | Stored | GaveUp

  /** The number of fetch calls, saves and back-off delays in a trace. */
  function FetchCount(es: seq<Event>): nat {
    if es == [] then 0 else FetchCount(es[..|es| - 1]) + (if es[|es| - 1].Fetch? then 1 else 0)
  }

  function SaveCount(es: seq<Event>): nat {
    if es == [] then 0 else SaveCount(es[..|es| - 1]) + (if es[|es| - 1].Saved? then 1 else 0)
  }

  function BackoffCount(es: seq<Event>): nat {
    if es == [] then 0 else BackoffCount(es[..|es| - 1]) + (if es[|es| - 1].Backoff? then 1 else 0)
  }

  /** Appending one event adds one to the count of its own kind only. */
  lemma AppendCounts(es: seq<Event>, e: Event)
    ensures FetchCount(es + [e]) == FetchCount(es) + (if e.Fetch? then 1 else 0)
    ensures SaveCount(es + [e]) == SaveCount(es) + (if e.Saved? then 1 else 0)
    ensures BackoffCount(es + [e]) == BackoffCount(es) + (if e.Backoff? then 1 else 0)
  {
    assert (es + [e])[..|es|] == es;
  }

  lemma {:induction false} ConcatCounts(a: seq<Event>, b: seq<Event>)
    ensures FetchCount(a + b) == FetchCount(a) + FetchCount(b)
    ensures SaveCount(a + b) == SaveCount(a) + SaveCount(b)
    ensures BackoffCount(a + b) == BackoffCount(a) + BackoffCount(b)
    decreases |b|
  {
    if b == [] {
      assert a + b == a;
    } else {
      var c := b[..|b| - 1];
      ConcatCounts(a, c);
      assert a + b == (a + c) + [b[|b| - 1]];
      assert b == c + [b[|b| - 1]];
      AppendCounts(a + c, b[|b| - 1]);
      AppendCounts(c, b[|b| - 1]);
    }
  }

  /** The URLs of the fetch calls of a trace, in order. */
  function FetchedUrls(es: seq<Event>): (us: seq<string>)
    ensures |us| == FetchCount(es)
  {
    if es == [] then []
    else FetchedUrls(es[..|es| - 1]) + (if es[|es| - 1].Fetch? then [es[|es| - 1].url] else [])
  }

  lemma {:induction false} ConcatFetchedUrls(a: seq<Event>, b: seq<Event>)
    ensures FetchedUrls(a + b) == FetchedUrls(a) + FetchedUrls(b)
    decreases |b|
  {
    if b == [] {
      assert a + b == a;
    } else {
      var c := b[..|b| - 1];
      ConcatFetchedUrls(a, c);
      assert (a + b)[..|a + b| - 1] == a + c;
    }
  }

  /** A trace whose fetch calls all go to `u` fetches only `u`. */
  lemma {:induction false} FetchedUrlsAllSame(es: seq<Event>, u: string)
    requires forall i | 0 <= i < |es| && es[i].Fetch? :: es[i].url == u
    ensures forall i | 0 <= i < |FetchedUrls(es)| :: FetchedUrls(es)[i] == u
  {
    if es != [] {
      var c := es[..|es| - 1];
      assert forall i | 0 <= i < |c| :: c[i] == es[i];
      FetchedUrlsAllSame(c, u);
    }
  }

  /** `n` copies of `u`. */
  function Repeat(u: string, n: nat): (us: seq<string>)
    ensures |us| == n && forall i | 0 <= i < n :: us[i] == u
  {
    seq(n, _ => u)
  }

  /** A trace whose fetch calls all go to `u` fetches `u` once per call. */
  lemma FetchedUrlsRepeat(es: seq<Event>, u: string)
    requires forall i | 0 <= i < |es| && es[i].Fetch? :: es[i].url == u
    ensures FetchedUrls(es) == Repeat(u, FetchCount(es))
  {
    FetchedUrlsAllSame(es, u);
  }

  function Max0(n: int): nat {
    if n < 0 then 0 else n
  }

  /** A fetcher that never raises, like the 77shuwu one. */
  ghost predicate NeverFails(fetch: Fetcher) {
    forall u, n :: fetch(u, n).Fetched?
  }

  /** The chapter text stored under `key`. */
  function Page(key: string, body: string): string {
    key + "\n\n" + body + "\n\n"
  }

  /** The retry loop of `_fetch_chapter_with_retry`: up to `maxRetries` fetch
      calls for one URL, stopping at the first that succeeds, with a back-off
      delay after every failed attempt but the last allowed one. */
  /** Appending a fetch of `url` numbered below `below`, or a pause numbered
      below `maxRetries`, keeps the shape of a retry trace. */
  lemma TraceAppend(events: seq<Event>, e: Event, url: string, below: int, maxRetries: int)
    requires forall i | 0 <= i < |events| :: events[i].Fetch? || events[i].Backoff?
    requires forall i | 0 <= i < |events| && events[i].Fetch? :: events[i].url == url && 1 <= events[i].attempt < below
    requires forall i | 0 <= i < |events| && events[i].Backoff? :: events[i].attempt < maxRetries
    requires e.Fetch? || e.Backoff?
    requires e.Fetch? ==> e.url == url && 1 <= e.attempt < below
    requires e.Backoff? ==> e.attempt < maxRetries
    ensures forall i | 0 <= i < |events + [e]| :: (events + [e])[i].Fetch? || (events + [e])[i].Backoff?
    ensures forall i | 0 <= i < |events + [e]| && (events + [e])[i].Fetch? ::
              (events + [e])[i].url == url && 1 <= (events + [e])[i].attempt < below
    ensures forall i | 0 <= i < |events + [e]| && (events + [e])[i].Backoff? :: (events + [e])[i].attempt < maxRetries
  {
  }

  method Attempts(url: string, fetch: Fetcher, calls: nat, maxRetries: int)
    returns (ok: bool, body: string, events: seq<Event>, calls': nat)
    ensures calls <= calls' <= calls + Max0(maxRetries)
    ensures FetchCount(events) == calls' - calls && SaveCount(events) == 0
    ensures BackoffCount(events) == if calls' == calls then 0 else calls' - calls - 1
    ensures forall n | calls <= n < calls' - 1 :: fetch(url, n).FetchFailed?
    ensures ok ==> calls < calls' && fetch(url, calls' - 1).Fetched? && fetch(url, calls' - 1).body == body
    ensures !ok ==> calls' == calls + Max0(maxRetries) && forall n | calls <= n < calls' :: fetch(url, n).FetchFailed?
    ensures forall i | 0 <= i < |events| :: events[i].Fetch? || events[i].Backoff?
    ensures forall i | 0 <= i < |events| && events[i].Fetch? :: events[i].url == url && 1 <= events[i].attempt <= maxRetries
    ensures forall i | 0 <= i < |events| && events[i].Backoff? :: events[i].attempt < maxRetries
  {
    ok, body, events, calls' := false, "", [], calls;
    var attempt := 1;
    while attempt <= maxRetries
      invariant 1 <= attempt <= Max0(maxRetries) + 1
      invariant calls' == calls + attempt - 1
      invariant forall n | calls <= n < calls' :: fetch(url, n).FetchFailed?
      invariant FetchCount(events) == attempt - 1 && SaveCount(events) == 0
      invariant BackoffCount(events) == if attempt == 1 then 0 else if attempt <= maxRetries then attempt - 1 else attempt - 2
      invariant forall i | 0 <= i < |events| :: events[i].Fetch? || events[i].Backoff?
      invariant forall i | 0 <= i < |events| && events[i].Fetch? :: events[i].url == url && 1 <= events[i].attempt < attempt
      invariant forall i | 0 <= i < |events| && events[i].Backoff? :: events[i].attempt < maxRetries
    {
      var res := fetch(url, calls');
      AppendCounts(events, Fetch(url, attempt));
      TraceAppend(events, Fetch(url, attempt), url, attempt + 1, maxRetries);
      events := events + [Fetch(url, attempt)];
      calls' := calls' + 1;
      if res.Fetched? {
        ok, body := true, res.body;
        return;
      }
      if attempt < maxRetries {
        AppendCounts(events, Backoff(attempt));
        TraceAppend(events, Backoff(attempt), url, attempt + 1, maxRetries);
        events := events + [Backoff(attempt)];
      }
      attempt := attempt + 1;
    }
  }

  /** `_fetch_chapter_with_retry`: on the first successful attempt the page is
      stored under `key` and the whole map is saved at once, followed by the
      pacing delay; when every attempt fails nothing changes. */
  method FetchChapterWithRetry(url: string, key: string, title: string, d: Progress, store: Store,
                               codec: Codec, fetch: Fetcher, calls: nat, maxRetries: int)
    returns (ok: bool, d': Progress, store': Store, events: seq<Event>, calls': nat)
    requires Valid(d)
    ensures Valid(d')
    ensures calls <= calls' <= calls + Max0(maxRetries)
    ensures FetchCount(events) == calls' - calls
    ensures SaveCount(events) == if ok then 1 else 0
    ensures BackoffCount(events) == if calls' == calls then 0 else calls' - calls - 1
    ensures forall n | calls <= n < calls' - 1 :: fetch(url, n).FetchFailed?
    ensures ok ==> calls < calls' && fetch(url, calls' - 1).Fetched?
    ensures ok ==> d' == Put(d, key, Page(key, fetch(url, calls' - 1).body))
    ensures ok ==> store' == SaveChapterToJson(store, codec, title, d')
    ensures !ok ==> d' == d && store' == store
    ensures !ok ==> calls' == calls + Max0(maxRetries) && forall n | calls <= n < calls' :: fetch(url, n).FetchFailed?
    ensures forall i | 0 <= i < |events| && events[i].Fetch? :: events[i].url == url && 1 <= events[i].attempt <= maxRetries
    ensures forall i | 0 <= i < |events| && events[i].Backoff? :: events[i].attempt < maxRetries
    ensures forall i | 0 <= i < |events| && events[i].Saved? :: events[i].progress == d'
    ensures NeverFails(fetch) && maxRetries >= 1 ==> ok && calls' == calls + 1 && BackoffCount(events) == 0
    ensures maxRetries < 1 ==> !ok && calls' == calls
  {
    var body;
    ok, body, events, calls' := Attempts(url, fetch, calls, maxRetries);
    if NeverFails(fetch) && maxRetries >= 1 {
      assert fetch(url, calls).Fetched?;
    }
    d', store' := d, store;
    if ok {
      d' := Put(d, key, Page(key, body));
      store' := SaveChapterToJson(store, codec, title, d');
      AppendCounts(events, Saved(d'));
      AppendCounts(events + [Saved(d')], Pace);
      events := events + [Saved(d')] + [Pace];
    }
  }

  // ---------------------------------------------------------------------
  // Clearing and reconciling against saved progress

  /** `clear_existing_files(title)`: an existing progress file becomes `"{}"`
      and an existing text file becomes empty; a missing file is not created. */
  function ClearExistingFiles(store: Store, title: string): (r: Store)
    ensures r.Keys == store.Keys
    ensures JsonPath(title) in store ==> r[JsonPath(title)] == EmptyJson
    ensures TxtPath(title) in store ==> r[TxtPath(title)] == ""
    ensures forall p | p in store && p != JsonPath(title) && p != TxtPath(title) :: r[p] == store[p]
  {
    var s1 := if JsonPath(title) in store then store[JsonPath(title) := EmptyJson] else store;
    if TxtPath(title) in s1 then s1[TxtPath(title) := ""] else s1
  }

  /** After clearing, the saved progress loads as the empty map. */
  lemma ClearThenLoadEmpty(store: Store, codec: Codec, title: string)
    requires Lawful(codec)
    ensures LoadExistingJson(ClearExistingFiles(store, title), codec, title) == Empty()
  {
    var r := ClearExistingFiles(store, title);
    if JsonPath(title) in r {
      LoadOfEmptyJson(r, codec, title);
    }
  }

  /** The key a link is stored under: its cleaned title. */
  function Key(r: Ref): string {
    TN.CleanTitle(r.title)
  }

  /** The key is what `normalize_chapter_title` returns for the link's title,
      whatever the counter. */
  lemma KeyIsNormalizedTitle(r: Ref, pageNum: int)
    ensures Key(r) == TN.Normalize(r.title, pageNum).0
  {
  }

  /** `normalized_titles`: the keys of all discovered links, in order. */
  function Listed(refs: seq<Ref>): (ks: seq<string>)
    ensures |ks| == |refs|
    ensures forall i | 0 <= i < |refs| :: ks[i] == TN.CleanTitle(refs[i].title)
  {
    seq(|refs|, i requires 0 <= i < |refs| => Key(refs[i]))
  }

  /** The index of the first link titled `t`, or `|refs|` when there is none. */
  function FirstTitleIndex(refs: seq<Ref>, t: string): (k: nat)
    ensures k <= |refs|
    ensures k < |refs| ==> refs[k].title == t
    ensures forall j | 0 <= j < k :: refs[j].title != t
  {
    if refs == [] then 0
    else
      var n := |refs| - 1;
      var k := FirstTitleIndex(refs[..n], t);
      if k < n then k else if refs[n].title == t then n else |refs|
  }

  /** No later link has the title of link `i`. */
  ghost predicate LastWithTitle(refs: seq<Ref>, i: int) {
    0 <= i < |refs| && forall j | i < j < |refs| :: refs[j].title != refs[i].title
  }

  /** Links with the same title have the same key. */
  ghost predicate KeyedByTitle(refs: seq<Ref>, ks: seq<string>) {
    && |ks| == |refs|
    && forall i, j | 0 <= i < |refs| && 0 <= j < |refs| && refs[i].title == refs[j].title :: ks[i] == ks[j]
  }

  lemma ListedIsKeyedByTitle(refs: seq<Ref>)
    ensures KeyedByTitle(refs, Listed(refs))
  {
  }

  lemma KeyedByTitlePrefix(refs: seq<Ref>, ks: seq<string>, n: nat)
    requires KeyedByTitle(refs, ks) && n <= |refs|
    ensures KeyedByTitle(refs[..n], ks[..n])
  {
  }

  /** `uncrawled_chapters`: raw title to URL for every link whose key `ks[i]`
      is not stored yet, built by assigning in link order. */
  function UncrawledChapters(refs: seq<Ref>, ks: seq<string>, d: Progress): (u: Dict<string, string>)
    requires |ks| == |refs|
    ensures Valid(u)
    ensures forall i | 0 <= i < |refs| && ks[i] !in d.m :: refs[i].title in u.m
  {
    if refs == [] then Empty()
    else
      var n := |refs| - 1;
      var u := UncrawledChapters(refs[..n], ks[..n], d);
      assert forall i | 0 <= i < n :: refs[..n][i] == refs[i] && ks[..n][i] == ks[i];
      if ks[n] in d.m then u else Put(u, refs[n].title, refs[n].url)
  }

  /** Only links whose key is missing contribute a title. */
  lemma {:induction false} UncrawledOnlyMissing(refs: seq<Ref>, ks: seq<string>, d: Progress)
    requires |ks| == |refs|
    ensures forall t | t in UncrawledChapters(refs, ks, d).m ::
              exists i | 0 <= i < |refs| :: refs[i].title == t && ks[i] !in d.m
  {
    if refs != [] {
      var n := |refs| - 1;
      UncrawledOnlyMissing(refs[..n], ks[..n], d);
      forall t | t in UncrawledChapters(refs, ks, d).m
        ensures exists i | 0 <= i < |refs| :: refs[i].title == t && ks[i] !in d.m
      {
        if t in UncrawledChapters(refs[..n], ks[..n], d).m {
          var i :| 0 <= i < n && refs[..n][i].title == t && ks[..n][i] !in d.m;
          assert refs[i] == refs[..n][i] && ks[i] == ks[..n][i];
        } else {
          assert refs[n].title == t && ks[n] !in d.m;
        }
      }
    }
  }

  /** A title in the work map has its key missing from the stored map. */
  lemma TitleInWorkIsMissing(refs: seq<Ref>, ks: seq<string>, d: Progress, i: nat)
    requires KeyedByTitle(refs, ks) && i < |refs|
    requires refs[i].title in UncrawledChapters(refs, ks, d).m
    ensures ks[i] !in d.m
  {
    UncrawledOnlyMissing(refs, ks, d);
    var j :| 0 <= j < |refs| && refs[j].title == refs[i].title && ks[j] !in d.m;
    assert ks[j] == ks[i];
  }

  /** A repeated title keeps the URL of its last link. */
  lemma {:induction false} UncrawledLastUrl(refs: seq<Ref>, ks: seq<string>, d: Progress)
    requires KeyedByTitle(refs, ks)
    ensures forall i | LastWithTitle(refs, i) && refs[i].title in UncrawledChapters(refs, ks, d).m ::
              UncrawledChapters(refs, ks, d).m[refs[i].title] == refs[i].url
  {
    if refs != [] {
      var n := |refs| - 1;
      var pre, kpre := refs[..n], ks[..n];
      KeyedByTitlePrefix(refs, ks, n);
      UncrawledLastUrl(pre, kpre, d);
      var u := UncrawledChapters(refs, ks, d);
      forall i | LastWithTitle(refs, i) && refs[i].title in u.m
        ensures u.m[refs[i].title] == refs[i].url
      {
        TitleInWorkIsMissing(refs, ks, d, i);
        if i < n {
          assert pre[i] == refs[i] && kpre[i] == ks[i];
          assert LastWithTitle(pre, i);
          assert refs[n].title != refs[i].title;
          assert refs[i].title in UncrawledChapters(pre, kpre, d).m;
        }
      }
    }
  }

  /** Every title in the work map is the title of some link. */
  lemma UncrawledTitlesOccur(refs: seq<Ref>, ks: seq<string>, d: Progress)
    requires |ks| == |refs|
    ensures forall a | 0 <= a < |UncrawledChapters(refs, ks, d).keys| ::
              FirstTitleIndex(refs, UncrawledChapters(refs, ks, d).keys[a]) < |refs|
  {
    UncrawledOnlyMissing(refs, ks, d);
    var u := UncrawledChapters(refs, ks, d);
    forall a | 0 <= a < |u.keys| ensures FirstTitleIndex(refs, u.keys[a]) < |refs| {
      var i :| 0 <= i < |refs| && refs[i].title == u.keys[a] && ks[i] !in d.m;
      assert FirstTitleIndex(refs, u.keys[a]) <= i;
    }
  }

  /** Adding a link keeps the first index of every title already present. */
  lemma FirstTitleIndexExtend(refs: seq<Ref>, ts: seq<string>)
    requires refs != []
    requires forall a | 0 <= a < |ts| :: FirstTitleIndex(refs[..|refs| - 1], ts[a]) < |refs| - 1
    ensures forall a | 0 <= a < |ts| :: FirstTitleIndex(refs, ts[a]) == FirstTitleIndex(refs[..|refs| - 1], ts[a])
  {
  }

  /** A title that the last link adds to the work map occurs in no earlier link. */
  lemma NewTitleFirstAtEnd(refs: seq<Ref>, ks: seq<string>, d: Progress)
    requires KeyedByTitle(refs, ks) && refs != []
    requires refs[|refs| - 1].title !in UncrawledChapters(refs[..|refs| - 1], ks[..|refs| - 1], d).m
    requires ks[|refs| - 1] !in d.m
    ensures FirstTitleIndex(refs, refs[|refs| - 1].title) == |refs| - 1
  {
    var n := |refs| - 1;
    var pre, kpre := refs[..n], ks[..n];
    var t := refs[n].title;
    forall i | 0 <= i < n ensures refs[i].title != t {
      assert pre[i] == refs[i] && kpre[i] == ks[i];
      if ks[i] !in d.m {
        assert refs[i].title in UncrawledChapters(pre, kpre, d).m;
      } else {
        assert ks[i] != ks[n];
      }
    }
  }

  /** A title keeps the position of its first link: titles are in the order of
      their first links. */
  lemma {:induction false} UncrawledOrder(refs: seq<Ref>, ks: seq<string>, d: Progress)
    requires KeyedByTitle(refs, ks)
    ensures forall a, b | 0 <= a < b < |UncrawledChapters(refs, ks, d).keys| ::
              FirstTitleIndex(refs, UncrawledChapters(refs, ks, d).keys[a])
              < FirstTitleIndex(refs, UncrawledChapters(refs, ks, d).keys[b])
  {
    if refs != [] {
      var n := |refs| - 1;
      var pre, kpre := refs[..n], ks[..n];
      KeyedByTitlePrefix(refs, ks, n);
      UncrawledOrder(pre, kpre, d);
      UncrawledTitlesOccur(pre, kpre, d);
      var u0 := UncrawledChapters(pre, kpre, d);
      FirstTitleIndexExtend(refs, u0.keys);
      var u := UncrawledChapters(refs, ks, d);
      if u.keys != u0.keys {
        NewTitleFirstAtEnd(refs, ks, d);
        assert u.keys == u0.keys + [refs[n].title];
      }
    }
  }

  function Min(a: int, b: int): int {
    if a < b then a else b
  }

  /** `list(uncrawled_chapters.items())[:remaining]`. */
  function WorkList(u: Dict<string, string>, remaining: int): (work: seq<Ref>)
    requires Valid(u)
    ensures |work| == Min(Max0(remaining), Size(u))
    ensures forall i | 0 <= i < |work| :: work[i] == Ref(u.keys[i], u.m[u.keys[i]])
  {
    var n := Min(Max0(remaining), Size(u));
    seq(n, i requires 0 <= i < n => Ref(u.keys[i], u.m[u.keys[i]]))
  }

  // ---------------------------------------------------------------------
  // The fetch loop

  /** The number of items handled a given way. */
  function CountOf(hs: seq<Handling>, h: Handling): nat {
    if hs == [] then 0 else CountOf(hs[..|hs| - 1], h) + (if hs[|hs| - 1] == h then 1 else 0)
  }

  /** The keys of the stored items, in work order. */
  function StoredKeys(ks: seq<string>, hs: seq<Handling>): seq<string>
    requires |hs| <= |ks|
  {
    if hs == [] then []
    else StoredKeys(ks, hs[..|hs| - 1]) + (if hs[|hs| - 1] == Stored then [ks[|hs| - 1]] else [])
  }

  lemma AppendHandling(ks: seq<string>, hs: seq<Handling>, h: Handling)
    requires |hs| < |ks|
    ensures StoredKeys(ks, hs + [h]) == StoredKeys(ks, hs) + (if h == Stored then [ks[|hs|]] else [])
  {
    assert (hs + [h])[..|hs|] == hs;
  }

  lemma CountOfAppend(hs: seq<Handling>, h: Handling)
    ensures forall g :: CountOf(hs + [h], g) == CountOf(hs, g) + (if h == g then 1 else 0)
  {
    assert (hs + [h])[..|hs|] == hs;
  }

  /** An item before the `j`-th one with the same key was stored. */
  ghost predicate StoredEarlier(ks: seq<string>, hs: seq<Handling>, j: int)
    requires 0 <= j < |hs| <= |ks|
  {
    exists p | 0 <= p < j :: hs[p] == Stored && ks[p] == ks[j]
  }

  /** Every stored key belongs to a stored item. */
  lemma {:induction false} StoredKeyHasItem(ks: seq<string>, hs: seq<Handling>, k: string)
    requires |hs| <= |ks| && k in StoredKeys(ks, hs)
    ensures exists p | 0 <= p < |hs| :: hs[p] == Stored && ks[p] == k
  {
    var n := |hs| - 1;
    if k in StoredKeys(ks, hs[..n]) {
      StoredKeyHasItem(ks, hs[..n], k);
      var p :| 0 <= p < n && hs[..n][p] == Stored && ks[p] == k;
      assert hs[p] == Stored;
    } else {
      assert hs[n] == Stored && ks[n] == k;
    }
  }

  /** What the fetch loop keeps after its first `|hs|` items: the stored map
      grows only by the stored items' keys, in order, and keeps every entry. */
  ghost predicate MapInv(ks: seq<string>, d0: Progress, d: Progress, hs: seq<Handling>) {
    && |hs| <= |ks|
    && Valid(d0) && Valid(d) && Extends(d, d0)
    && d.keys == d0.keys + StoredKeys(ks, hs)
  }

  /** Items whose key was stored before the run are skipped; a skipped item's
      key was stored before the run or by an earlier item; an item not given
      up on has its key stored. */
  ghost predicate SkipInv(ks: seq<string>, d0: Progress, d: Progress, hs: seq<Handling>) {
    && |hs| <= |ks|
    && (forall j | 0 <= j < |hs| && ks[j] in d0.m :: hs[j] == Skipped)
    && (forall j | 0 <= j < |hs| && hs[j] == Skipped :: ks[j] in d0.m || StoredEarlier(ks, hs, j))
    && (forall j | 0 <= j < |hs| && hs[j] != GaveUp :: ks[j] in d.m)
  }

  /** Fetch calls are counted by the trace, at most `m` per item not skipped;
      every stored item is saved once. */
  ghost predicate CountInv(d0: Progress, d: Progress, events: seq<Event>, calls0: nat, calls: nat,
                           hs: seq<Handling>, m: nat) {
    && calls == calls0 + FetchCount(events)
    && FetchCount(events) <= (|hs| - CountOf(hs, Skipped)) * m
    && SaveCount(events) == CountOf(hs, Stored) == Size(d) - Size(d0)
  }

  /** The progress file holds the in-memory map once anything was stored. */
  ghost predicate StoreInv(d0: Progress, d: Progress, store0: Store, store: Store, codec: Codec, title: string) {
    && (Size(d) == Size(d0) ==> store == store0)
    && (Size(d) > Size(d0) ==> store == SaveChapterToJson(store0, codec, title, d))
  }

  /** A fetcher that never fails stores every item it reaches on the first
      attempt; with no attempts allowed nothing is fetched or stored. */
  ghost predicate FetcherInv(fetch: Fetcher, maxRetries: int, events: seq<Event>, hs: seq<Handling>) {
    && (NeverFails(fetch) && maxRetries >= 1 ==> CountOf(hs, GaveUp) == 0 && BackoffCount(events) == 0)
    && (maxRetries < 1 ==> CountOf(hs, Stored) == 0 && FetchCount(events) == 0)
  }

  /** How many fetch calls an item handled as `h` makes, with `m` attempts
      allowed: none when skipped, one to `m` when stored (the last one
      succeeding), all `m` when given up. */
  predicate TriesFit(h: Handling, n: nat, m: nat) {
    match h
    case Skipped => n == 0
    case Stored => 1 <= n <= m
    case GaveUp => n == m
  }

  /** The URLs fetched for the first `|ns|` items of `work`, item `i` having
      made `ns[i]` calls, in work order. */
  function Expand(work: seq<Ref>, ns: seq<nat>): (us: seq<string>)
    requires |ns| <= |work|
  {
    if ns == [] then [] else Expand(work, ns[..|ns| - 1]) + Repeat(work[|ns| - 1].url, ns[|ns| - 1])
  }

  lemma ExpandAppend(work: seq<Ref>, ns: seq<nat>, n: nat)
    requires |ns| < |work|
    ensures Expand(work, ns + [n]) == Expand(work, ns) + Repeat(work[|ns|].url, n)
  {
    assert (ns + [n])[..|ns|] == ns;
  }

  /** The fetch calls so far went, item by item, to the URLs of the items
      handled, each as often as its handling allows. */
  ghost predicate TriesInv(work: seq<Ref>, events: seq<Event>, hs: seq<Handling>, ns: seq<nat>, m: nat) {
    && |ns| == |hs| <= |work|
    && (forall i | 0 <= i < |hs| :: TriesFit(hs[i], ns[i], m))
    && FetchedUrls(events) == Expand(work, ns)
  }

  /** A skipped item adds no fetch call. */
  lemma SkipTriesNothing(work: seq<Ref>, events: seq<Event>, hs: seq<Handling>, ns: seq<nat>, m: nat)
    requires |hs| < |work| && TriesInv(work, events, hs, ns, m)
    ensures TriesInv(work, events, hs + [Skipped], ns + [0], m)
  {
    ExpandAppend(work, ns, 0);
  }

  /** An attempted item adds its own calls, all to its own URL. */
  lemma AttemptTriesItsUrl(work: seq<Ref>, events: seq<Event>, es: seq<Event>, hs: seq<Handling>, ns: seq<nat>,
                           m: nat, h: Handling)
    requires |hs| < |work| && TriesInv(work, events, hs, ns, m)
    requires forall i | 0 <= i < |es| && es[i].Fetch? :: es[i].url == work[|hs|].url
    requires TriesFit(h, FetchCount(es), m)
    ensures TriesInv(work, events + es, hs + [h], ns + [FetchCount(es)], m)
  {
    ConcatFetchedUrls(events, es);
    FetchedUrlsRepeat(es, work[|hs|].url);
    ExpandAppend(work, ns, FetchCount(es));
  }

  /** A skipped item leaves the map and its order as they were. */
  lemma SkipKeepsMap(ks: seq<string>, d0: Progress, d: Progress, hs: seq<Handling>)
    requires |hs| < |ks| && MapInv(ks, d0, d, hs)
    ensures MapInv(ks, d0, d, hs + [Skipped])
  {
    AppendHandling(ks, hs, Skipped);
  }

  /** An item is skipped only when its key is already stored. */
  lemma SkipOnlyWhenStored(ks: seq<string>, d0: Progress, d: Progress, hs: seq<Handling>)
    requires |hs| < |ks| && ks[|hs|] in d.m
    requires ks[|hs|] in d0.m || ks[|hs|] in StoredKeys(ks, hs)
    requires SkipInv(ks, d0, d, hs)
    ensures SkipInv(ks, d0, d, hs + [Skipped])
  {
    var i := |hs|;
    var hs' := hs + [Skipped];
    forall j | 0 <= j < i
      ensures hs'[j] == hs[j]
      ensures StoredEarlier(ks, hs, j) ==> StoredEarlier(ks, hs', j)
    {
    }
    if ks[i] !in d0.m {
      StoredKeyHasItem(ks, hs, ks[i]);
      assert StoredEarlier(ks, hs', i);
    }
  }

  /** A key the run added belongs to a stored item. */
  lemma NewKeyIsStored(ks: seq<string>, d0: Progress, d: Progress, hs: seq<Handling>, k: string)
    requires MapInv(ks, d0, d, hs) && k in d.m && k !in d0.m
    ensures k in StoredKeys(ks, hs)
  {
    var sk := StoredKeys(ks, hs);
    assert k in d0.keys + sk;
    assert k !in d0.keys;
  }

  /** A skipped item fetches and saves nothing. */
  lemma SkipCountsNothing(d0: Progress, d: Progress, events: seq<Event>, calls0: nat, calls: nat,
                          hs: seq<Handling>, m: nat, fetch: Fetcher, maxRetries: int)
    requires CountInv(d0, d, events, calls0, calls, hs, m) && FetcherInv(fetch, maxRetries, events, hs)
    ensures CountInv(d0, d, events, calls0, calls, hs + [Skipped], m)
    ensures FetcherInv(fetch, maxRetries, events, hs + [Skipped])
  {
    CountOfAppend(hs, Skipped);
    assert (|hs| + 1 - CountOf(hs + [Skipped], Skipped)) * m == (|hs| - CountOf(hs, Skipped)) * m;
  }

  /** An attempted item is stored under its own key, or leaves the map as it was. */
  lemma AttemptKeepsMap(ks: seq<string>, d0: Progress, d: Progress, d': Progress, hs: seq<Handling>, ok: bool)
    requires |hs| < |ks| && ks[|hs|] !in d.m
    requires MapInv(ks, d0, d, hs) && Valid(d')
    requires ok ==> d'.keys == d.keys + [ks[|hs|]] && Extends(d', d)
    requires !ok ==> d' == d
    ensures MapInv(ks, d0, d', hs + [if ok then Stored else GaveUp])
  {
    AppendHandling(ks, hs, if ok then Stored else GaveUp);
    if ok {
      ExtendsTransitive(d0, d, d');
    }
  }

  /** An attempted item was not skipped, and a stored one has its key present. */
  lemma AttemptKeepsSkips(ks: seq<string>, d0: Progress, d: Progress, d': Progress, hs: seq<Handling>, ok: bool)
    requires |hs| < |ks| && ks[|hs|] !in d0.m
    requires SkipInv(ks, d0, d, hs)
    requires d.m.Keys <= d'.m.Keys
    requires ok ==> ks[|hs|] in d'.m
    ensures SkipInv(ks, d0, d', hs + [if ok then Stored else GaveUp])
  {
    var i := |hs|;
    var hs' := hs + [if ok then Stored else GaveUp];
    forall j | 0 <= j < i
      ensures hs'[j] == hs[j]
      ensures StoredEarlier(ks, hs, j) ==> StoredEarlier(ks, hs', j)
    {
    }
  }

  /** An attempted item adds its fetch calls and at most one save. */
  lemma AttemptCounts(d0: Progress, d: Progress, d': Progress, events: seq<Event>, es: seq<Event>,
                      calls0: nat, calls: nat, calls': nat, hs: seq<Handling>, m: nat, ok: bool)
    requires CountInv(d0, d, events, calls0, calls, hs, m)
    requires FetchCount(es) == calls' - calls <= m
    requires SaveCount(es) == if ok then 1 else 0
    requires Size(d') == Size(d) + (if ok then 1 else 0)
    ensures CountInv(d0, d', events + es, calls0, calls', hs + [if ok then Stored else GaveUp], m)
  {
    var h := if ok then Stored else GaveUp;
    ConcatCounts(events, es);
    CountOfAppend(hs, h);
    assert |hs + [h]| - CountOf(hs + [h], Skipped) == |hs| - CountOf(hs, Skipped) + 1;
    assert (|hs| - CountOf(hs, Skipped) + 1) * m == (|hs| - CountOf(hs, Skipped)) * m + m;
  }

  /** A never-failing fetcher stores on the first attempt; with no attempts
      allowed nothing is fetched. */
  lemma AttemptKeepsFetcherFacts(fetch: Fetcher, maxRetries: int, events: seq<Event>, es: seq<Event>,
                                 hs: seq<Handling>, ok: bool)
    requires FetcherInv(fetch, maxRetries, events, hs)
    requires NeverFails(fetch) && maxRetries >= 1 ==> ok && BackoffCount(es) == 0
    requires maxRetries < 1 ==> !ok && FetchCount(es) == 0
    ensures FetcherInv(fetch, maxRetries, events + es, hs + [if ok then Stored else GaveUp])
  {
    ConcatCounts(events, es);
    CountOfAppend(hs, if ok then Stored else GaveUp);
  }

  /** Saving the whole map again overwrites the earlier save. */
  lemma AttemptKeepsStore(d0: Progress, d: Progress, d': Progress, store0: Store, store: Store, store': Store,
                          codec: Codec, title: string, ok: bool)
    requires StoreInv(d0, d, store0, store, codec, title) && Size(d0) <= Size(d)
    requires ok ==> Size(d') > Size(d) && store' == SaveChapterToJson(store, codec, title, d')
    requires !ok ==> d' == d && store' == store
    ensures StoreInv(d0, d', store0, store', codec, title)
  {
  }

  /** The fetch calls of a run over `work` that took the map from `loaded`
      to `progress`: under some handling of the items that follows the skip
      rule, the calls go item by item, in work order, to each item's URL,
      never for a skipped item, one to `m` times for a stored one and `m`
      times for one given up. */
  ghost predicate FetchesFollowWork(work: seq<Ref>, loaded: Progress, progress: Progress, events: seq<Event>, m: nat) {
    exists hs: seq<Handling>, ns: seq<nat> | |hs| == |work| && SkipInv(Listed(work), loaded, progress, hs) ::
      TriesInv(work, events, hs, ns, m)
  }

  /** What the fetch loop keeps after handling the items `hs` of keys `ks`. */
  ghost predicate LoopInv(ks: seq<string>, d0: Progress, d: Progress, events: seq<Event>, calls0: nat, calls: nat,
                          hs: seq<Handling>, store0: Store, store: Store, codec: Codec, title: string,
                          fetch: Fetcher, maxRetries: int) {
    && MapInv(ks, d0, d, hs)
    && SkipInv(ks, d0, d, hs)
    && CountInv(d0, d, events, calls0, calls, hs, Max0(maxRetries))
    && StoreInv(d0, d, store0, store, codec, title)
    && FetcherInv(fetch, maxRetries, events, hs)
  }

  /** Skipping an item whose key is stored keeps the loop invariant. */
  lemma SkipStep(ks: seq<string>, d0: Progress, d: Progress, events: seq<Event>, calls0: nat, calls: nat,
                 hs: seq<Handling>, store0: Store, store: Store, codec: Codec, title: string, fetch: Fetcher,
                 maxRetries: int)
    requires |hs| < |ks| && ks[|hs|] in d.m
    requires LoopInv(ks, d0, d, events, calls0, calls, hs, store0, store, codec, title, fetch, maxRetries)
    ensures LoopInv(ks, d0, d, events, calls0, calls, hs + [Skipped], store0, store, codec, title, fetch, maxRetries)
  {
    var key := ks[|hs|];
    if key !in d0.m {
      NewKeyIsStored(ks, d0, d, hs, key);
    }
    SkipKeepsMap(ks, d0, d, hs);
    SkipOnlyWhenStored(ks, d0, d, hs);
    SkipCountsNothing(d0, d, events, calls0, calls, hs, Max0(maxRetries), fetch, maxRetries);
  }

  /** One attempt at an item whose key is not stored keeps the loop
      invariant, whether it stored the page or gave up. */
  lemma AttemptStep(ks: seq<string>, d0: Progress, d: Progress, d': Progress, events: seq<Event>, es: seq<Event>,
                    calls0: nat, calls: nat, calls': nat, hs: seq<Handling>, store0: Store, store: Store,
                    store': Store, codec: Codec, title: string, fetch: Fetcher, maxRetries: int, ok: bool, page: string)
    requires |hs| < |ks| && ks[|hs|] !in d.m
    requires LoopInv(ks, d0, d, events, calls0, calls, hs, store0, store, codec, title, fetch, maxRetries)
    requires Valid(d') && calls <= calls' <= calls + Max0(maxRetries)
    requires FetchCount(es) == calls' - calls
    requires SaveCount(es) == if ok then 1 else 0
    requires ok ==> d' == Put(d, ks[|hs|], page)
    requires ok ==> store' == SaveChapterToJson(store, codec, title, d')
    requires !ok ==> d' == d && store' == store
    requires NeverFails(fetch) && maxRetries >= 1 ==> ok && BackoffCount(es) == 0
    requires maxRetries < 1 ==> !ok && calls' == calls
    ensures LoopInv(ks, d0, d', events + es, calls0, calls', hs + [if ok then Stored else GaveUp],
                    store0, store', codec, title, fetch, maxRetries)
  {
    var key := ks[|hs|];
    if ok {
      PutNewExtends(d, key, page);
    }
    AttemptKeepsMap(ks, d0, d, d', hs, ok);
    AttemptKeepsSkips(ks, d0, d, d', hs, ok);
    AttemptCounts(d0, d, d', events, es, calls0, calls, calls', hs, Max0(maxRetries), ok);
    AttemptKeepsFetcherFacts(fetch, maxRetries, events, es, hs, ok);
    AttemptKeepsStore(d0, d, d', store0, store, store', codec, title, ok);
  }

  /** `v` is the page stored for `key` from a body some fetch of `url` returned. */
  ghost predicate FetchedPage(fetch: Fetcher, url: string, key: string, v: string) {
    exists n: nat :: fetch(url, n).Fetched? && v == Page(key, fetch(url, n).body)
  }

  /** Every key the run added to `d0` holds the page of a fetched body of an
      item of `work` with that key. */
  ghost predicate PageInv(work: seq<Ref>, ks: seq<string>, d0: Progress, d: Progress, fetch: Fetcher)
    requires |ks| == |work|
  {
    forall k | k in d.m && k !in d0.m ::
      exists p | 0 <= p < |work| && ks[p] == k :: FetchedPage(fetch, work[p].url, k, d.m[k])
  }

  /** Storing the page of the `n`-th fetch of item `i` under its key keeps
      every added key holding a fetched page. */
  lemma AttemptKeepsPages(work: seq<Ref>, ks: seq<string>, d0: Progress, d: Progress, d': Progress,
                          fetch: Fetcher, i: nat, ok: bool, n: nat)
    requires |ks| == |work| && i < |work|
    requires PageInv(work, ks, d0, d, fetch)
    requires ok ==> fetch(work[i].url, n).Fetched? && d'.m == d.m[ks[i] := Page(ks[i], fetch(work[i].url, n).body)]
    requires !ok ==> d' == d
    ensures PageInv(work, ks, d0, d', fetch)
  {
    if ok {
      forall k | k in d'.m && k !in d0.m
        ensures exists p | 0 <= p < |work| && ks[p] == k :: FetchedPage(fetch, work[p].url, k, d'.m[k])
      {
        if k == ks[i] {
          assert FetchedPage(fetch, work[i].url, k, d'.m[k]);
        } else {
          var p :| 0 <= p < |work| && ks[p] == k && FetchedPage(fetch, work[p].url, k, d.m[k]);
          assert d'.m[k] == d.m[k];
        }
      }
    }
  }

  /** Every title in the work map comes with the URL of a link carrying it. */
  lemma {:induction false} UncrawledEntriesOccur(refs: seq<Ref>, ks: seq<string>, d: Progress)
    requires |ks| == |refs|
    ensures forall t | t in UncrawledChapters(refs, ks, d).m ::
              exists i | 0 <= i < |refs| :: refs[i] == Ref(t, UncrawledChapters(refs, ks, d).m[t])
  {
    if refs != [] {
      var n := |refs| - 1;
      var pre, kpre := refs[..n], ks[..n];
      UncrawledEntriesOccur(pre, kpre, d);
      var u0 := UncrawledChapters(pre, kpre, d);
      var u := UncrawledChapters(refs, ks, d);
      forall t | t in u.m ensures exists i | 0 <= i < |refs| :: refs[i] == Ref(t, u.m[t]) {
        if ks[n] !in d.m && t == refs[n].title {
          assert refs[n] == Ref(t, u.m[t]);
        } else {
          assert u.m[t] == u0.m[t];
          var i :| 0 <= i < n && pre[i] == Ref(t, u0.m[t]);
          assert refs[i] == pre[i];
        }
      }
    }
  }

  /** A page invariant over a work list drawn from `refs` holds over `refs`. */
  lemma PagesFromLinks(refs: seq<Ref>, work: seq<Ref>, d0: Progress, d: Progress, fetch: Fetcher)
    requires forall p | 0 <= p < |work| :: exists i | 0 <= i < |refs| :: refs[i] == work[p]
    requires PageInv(work, Listed(work), d0, d, fetch)
    ensures PageInv(refs, Listed(refs), d0, d, fetch)
  {
    var ks, wks := Listed(refs), Listed(work);
    forall k | k in d.m && k !in d0.m
      ensures exists i | 0 <= i < |refs| && ks[i] == k :: FetchedPage(fetch, refs[i].url, k, d.m[k])
    {
      var p :| 0 <= p < |work| && wks[p] == k && FetchedPage(fetch, work[p].url, k, d.m[k]);
      var i :| 0 <= i < |refs| && refs[i] == work[p];
      assert ks[i] == k;
    }
  }

  /** The work list holds links of `refs`, title and URL. */
  lemma WorkFromLinks(refs: seq<Ref>, loaded: Progress, remaining: int)
    requires Valid(loaded)
    ensures var work := WorkList(UncrawledChapters(refs, Listed(refs), loaded), remaining);
            forall p | 0 <= p < |work| :: exists i | 0 <= i < |refs| :: refs[i] == work[p]
  {
    var u := UncrawledChapters(refs, Listed(refs), loaded);
    var work := WorkList(u, remaining);
    UncrawledEntriesOccur(refs, Listed(refs), loaded);
    forall p | 0 <= p < |work| ensures exists i | 0 <= i < |refs| :: refs[i] == work[p] {
      assert u.keys[p] in u.m;
    }
  }

  /** `_crawl_chapters`: each work item whose key is not stored yet is fetched
      with retries; a key stored before the run or earlier in it is skipped
      without a fetch. The running page counter is threaded through as in the
      source but never affects a key. */
  method CrawlChapters(work: seq<Ref>, title: string, d0: Progress, store0: Store, codec: Codec,
                       fetch: Fetcher, calls0: nat, maxRetries: int)
    returns (d: Progress, store: Store, events: seq<Event>, calls: nat, handled: seq<Handling>, tries: seq<nat>)
    requires Valid(d0)
    ensures |handled| == |work|
    ensures MapInv(Listed(work), d0, d, handled)
    ensures SkipInv(Listed(work), d0, d, handled)
    ensures CountInv(d0, d, events, calls0, calls, handled, Max0(maxRetries))
    ensures StoreInv(d0, d, store0, store, codec, title)
    ensures FetcherInv(fetch, maxRetries, events, handled)
    ensures PageInv(work, Listed(work), d0, d, fetch)
    ensures |tries| == |work| && forall i | 0 <= i < |work| :: TriesFit(handled[i], tries[i], Max0(maxRetries))
    ensures FetchedUrls(events) == Expand(work, tries)
  {
    ghost var ks := Listed(work);
    var m := Max0(maxRetries);
    d, store, events, calls, handled, tries := d0, store0, [], calls0, [], [];
    var pageNum := 1;
    assert d0.keys + [] == d0.keys;
    for i := 0 to |work|
      invariant |handled| == i
      invariant LoopInv(ks, d0, d, events, calls0, calls, handled, store0, store, codec, title, fetch, maxRetries)
      invariant PageInv(work, ks, d0, d, fetch)
      invariant TriesInv(work, events, handled, tries, m)
    {
      pageNum, d, store, events, calls, handled, tries :=
        CrawlItem(work, title, d0, store0, codec, fetch, calls0, maxRetries, pageNum, d, store, events, calls, handled, tries);
    }
  }

  /** One iteration of `_crawl_chapters`, for the item after those handled:
      skip it when its key is stored, otherwise fetch it with retries. */
  method CrawlItem(work: seq<Ref>, title: string, d0: Progress, store0: Store, codec: Codec, fetch: Fetcher,
                   calls0: nat, maxRetries: int, pageNum: int, d: Progress, store: Store, events: seq<Event>,
                   calls: nat, handled: seq<Handling>, tries: seq<nat>)
    returns (pageNum': int, d': Progress, store': Store, events': seq<Event>, calls': nat,
             handled': seq<Handling>, tries': seq<nat>)
    requires |handled| < |work|
    requires LoopInv(Listed(work), d0, d, events, calls0, calls, handled, store0, store, codec, title, fetch, maxRetries)
    requires PageInv(work, Listed(work), d0, d, fetch)
    requires TriesInv(work, events, handled, tries, Max0(maxRetries))
    ensures |handled'| == |handled| + 1
    ensures LoopInv(Listed(work), d0, d', events', calls0, calls', handled', store0, store', codec, title, fetch, maxRetries)
    ensures PageInv(work, Listed(work), d0, d', fetch)
    ensures TriesInv(work, events', handled', tries', Max0(maxRetries))
  {
    var i := |handled|;
    var normalized := TN.Normalize(work[i].title, pageNum);
    var key := normalized.0;
    pageNum' := normalized.1;
    assert key == Listed(work)[i];
    if key in d.m {
      SkipStep(Listed(work), d0, d, events, calls0, calls, handled, store0, store, codec, title, fetch, maxRetries);
      SkipTriesNothing(work, events, handled, tries, Max0(maxRetries));
      d', store', events', calls' := d, store, events, calls;
      handled', tries' := handled + [Skipped], tries + [0];
    } else {
      d', store', events', calls', handled', tries' :=
        AttemptItem(work, title, d0, store0, codec, fetch, calls0, maxRetries, d, store, events, calls, handled, tries);
    }
  }

  /** The retrying fetch of the item after those handled, whose key is not
      stored: its page is stored, or it is given up. */
  method AttemptItem(work: seq<Ref>, title: string, d0: Progress, store0: Store, codec: Codec, fetch: Fetcher,
                     calls0: nat, maxRetries: int, d: Progress, store: Store, events: seq<Event>,
                     calls: nat, handled: seq<Handling>, tries: seq<nat>)
    returns (d': Progress, store': Store, events': seq<Event>, calls': nat, handled': seq<Handling>, tries': seq<nat>)
    requires |handled| < |work| && Listed(work)[|handled|] !in d.m
    requires LoopInv(Listed(work), d0, d, events, calls0, calls, handled, store0, store, codec, title, fetch, maxRetries)
    requires PageInv(work, Listed(work), d0, d, fetch)
    requires TriesInv(work, events, handled, tries, Max0(maxRetries))
    ensures |handled'| == |handled| + 1
    ensures LoopInv(Listed(work), d0, d', events', calls0, calls', handled', store0, store', codec, title, fetch, maxRetries)
    ensures PageInv(work, Listed(work), d0, d', fetch)
    ensures TriesInv(work, events', handled', tries', Max0(maxRetries))
  {
    var i := |handled|;
    var key := Listed(work)[i];
    var ok, es;
    ok, d', store', es, calls' := FetchChapterWithRetry(work[i].url, key, title, d, store, codec, fetch, calls, maxRetries);
    ghost var page := if ok then Page(key, fetch(work[i].url, calls' - 1).body) else [];
    AttemptStep(Listed(work), d0, d, d', events, es, calls0, calls, calls', handled, store0, store, store', codec, title,
                fetch, maxRetries, ok, page);
    AttemptKeepsPages(work, Listed(work), d0, d, d', fetch, i, ok, if ok then calls' - 1 else 0);
    AttemptTriesItsUrl(work, events, es, handled, tries, Max0(maxRetries), if ok then Stored else GaveUp);
    var n: nat := calls' - calls;
    handled', tries', events' := handled + [if ok then Stored else GaveUp], tries + [n], events + es;
  }

  // ---------------------------------------------------------------------
  // The whole run

  /** The store once the optional clearing has run. */
  function Prepared(cfg: Config, title: string, store: Store): Store {
    if cfg.clearFiles then ClearExistingFiles(store, title) else store
  }

  /** The progress map the run starts from. */
  function Loaded(cfg: Config, title: string, store: Store, codec: Codec): Progress {
    LoadExistingJson(Prepared(cfg, title, store), codec, title)
  }

  /** With clearing enabled the run starts from the empty map. */
  lemma ClearedRunStartsEmpty(cfg: Config, title: string, store: Store, codec: Codec)
    requires Lawful(codec) && cfg.clearFiles
    ensures Loaded(cfg, title, store, codec) == Empty()
  {
    ClearThenLoadEmpty(store, codec, title);
  }

  /** Writing the text file does not disturb the progress file. */
  lemma LoadIgnoresTxt(store: Store, codec: Codec, title: string, text: string)
    ensures LoadExistingJson(store[TxtPath(title) := text], codec, title) == LoadExistingJson(store, codec, title)
  {
  }

  /** No handling of a kind is counted only when none occurs. */
  lemma {:induction false} CountOfZero(hs: seq<Handling>, h: Handling)
    requires CountOf(hs, h) == 0
    ensures forall j | 0 <= j < |hs| :: hs[j] != h
  {
    if hs != [] {
      var n := |hs| - 1;
      CountOfZero(hs[..n], h);
      assert forall j | 0 <= j < n :: hs[j] == hs[..n][j];
    }
  }

  lemma {:induction false} CountOfBound(hs: seq<Handling>, h: Handling)
    ensures CountOf(hs, h) <= |hs|
  {
    if hs != [] {
      CountOfBound(hs[..|hs| - 1], h);
    }
  }

  /** When the work list holds every uncrawled title and nothing is given up,
      every listed key ends up stored. */
  lemma EveryListedKeyStored(refs: seq<Ref>, ks: seq<string>, loaded: Progress, work: seq<Ref>, wks: seq<string>,
                             d: Progress, hs: seq<Handling>)
    requires |ks| == |refs| && |wks| == |work|
    requires forall i, p | 0 <= i < |refs| && 0 <= p < |work| && work[p].title == refs[i].title :: wks[p] == ks[i]
    requires var u := UncrawledChapters(refs, ks, loaded);
             && |work| == Size(u)
             && forall i | 0 <= i < |work| :: work[i].title == u.keys[i]
    requires |hs| == |work| && SkipInv(wks, loaded, d, hs)
    requires forall k | k in loaded.m :: k in d.m
    requires forall j | 0 <= j < |hs| :: hs[j] != GaveUp
    ensures forall i | 0 <= i < |refs| :: ks[i] in d.m
  {
    var u := UncrawledChapters(refs, ks, loaded);
    forall i | 0 <= i < |refs| ensures ks[i] in d.m {
      if ks[i] !in loaded.m {
        assert refs[i].title in u.m;
        var p :| 0 <= p < |u.keys| && u.keys[p] == refs[i].title;
        assert wks[p] == ks[i];
        assert hs[p] != GaveUp;
      }
    }
  }

  /** Links with the same title have the same key, across two link lists. */
  lemma SameTitleSameKey(refs: seq<Ref>, work: seq<Ref>)
    ensures forall i, p | 0 <= i < |refs| && 0 <= p < |work| && work[p].title == refs[i].title ::
              Listed(work)[p] == Listed(refs)[i]
  {
  }

  /** The most fetch calls `chapters` chapters may take: `max_retries` each. */
  function Budget(chapters: int, maxRetries: int): nat
    decreases chapters
  {
    if chapters <= 0 then 0 else Budget(chapters - 1, maxRetries) + Max0(maxRetries)
  }

  lemma {:induction false} BudgetIsProduct(chapters: nat, maxRetries: int)
    ensures Budget(chapters, maxRetries) == chapters * Max0(maxRetries)
  {
    if chapters > 0 {
      BudgetIsProduct(chapters - 1, maxRetries);
    }
  }

  /** `(a - b) * m` stays below `c * m` once `a <= c`. */
  lemma FetchBound(a: int, b: nat, c: int, m: nat)
    requires b <= a <= c
    ensures (a - b) * m <= c * m
  {
  }

  /** The part of `crawl()` between loading and assembling: build the work
      list from the links whose key is not stored, cut it to the quota, and
      fetch it. The progress file ends up holding the final map. */
  method FetchMissing(refs: seq<Ref>, t: string, loaded: Progress, prepared: Store, codec: Codec,
                      fetch: Fetcher, remaining: int, maxRetries: int)
    returns (progress: Progress, store: Store, events: seq<Event>)
    requires Lawful(codec) && Valid(loaded) && remaining > 0
    requires LoadExistingJson(prepared, codec, t) == loaded
    ensures Valid(progress) && Extends(progress, loaded)
    ensures Size(progress) <= Size(loaded) + remaining
    ensures FetchCount(events) <= Budget(remaining, maxRetries)
    ensures SaveCount(events) == Size(progress) - Size(loaded)
    ensures LoadExistingJson(store, codec, t) == progress
    ensures store.Keys <= prepared.Keys + {JsonPath(t)}
    ensures forall p | p in prepared && p != JsonPath(t) :: p in store && store[p] == prepared[p]
    ensures NeverFails(fetch) && maxRetries >= 1 && Size(UncrawledChapters(refs, Listed(refs), loaded)) <= remaining
            ==> forall i | 0 <= i < |refs| :: Listed(refs)[i] in progress.m
    ensures PageInv(refs, Listed(refs), loaded, progress, fetch)
    ensures FetchesFollowWork(WorkList(UncrawledChapters(refs, Listed(refs), loaded), remaining), loaded, progress,
                              events, Max0(maxRetries))
  {
    var ks := Listed(refs);
    var u := UncrawledChapters(refs, ks, loaded);
    var work := WorkList(u, remaining);
    var calls, handled, tries;
    progress, store, events, calls, handled, tries := CrawlChapters(work, t, loaded, prepared, codec, fetch, 0, maxRetries);
    RunCounts(Listed(work), loaded, progress, events, calls, handled, remaining, Max0(maxRetries));
    BudgetIsProduct(remaining, maxRetries);
    RunStore(Listed(work), loaded, progress, prepared, store, codec, t, handled);
    SameTitleSameKey(refs, work);
    RunCompletes(refs, ks, loaded, remaining, work, Listed(work), progress, events, handled, fetch, maxRetries);
    WorkFromLinks(refs, loaded, remaining);
    PagesFromLinks(refs, work, loaded, progress, fetch);
    FollowsWork(work, loaded, progress, events, Max0(maxRetries), handled, tries);
  }

  /** The loop's handling and per-item call counts witness `FetchesFollowWork`. */
  lemma FollowsWork(work: seq<Ref>, loaded: Progress, progress: Progress, events: seq<Event>, m: nat,
                    hs: seq<Handling>, ns: seq<nat>)
    requires |hs| == |work| && SkipInv(Listed(work), loaded, progress, hs)
    requires |ns| == |work| && forall i | 0 <= i < |work| :: TriesFit(hs[i], ns[i], m)
    requires FetchedUrls(events) == Expand(work, ns)
    ensures FetchesFollowWork(work, loaded, progress, events, m)
  {
    assert TriesInv(work, events, hs, ns, m);
  }

  /** A fetcher that never fails, with the whole work map inside the quota,
      leaves no listed key unstored. */
  lemma RunCompletes(refs: seq<Ref>, ks: seq<string>, loaded: Progress, remaining: int, work: seq<Ref>,
                     wks: seq<string>, d: Progress, events: seq<Event>, hs: seq<Handling>, fetch: Fetcher, maxRetries: int)
    requires |ks| == |refs| && |wks| == |work|
    requires forall i, p | 0 <= i < |refs| && 0 <= p < |work| && work[p].title == refs[i].title :: wks[p] == ks[i]
    requires Valid(loaded)
    requires work == WorkList(UncrawledChapters(refs, ks, loaded), remaining)
    requires |hs| == |work| && SkipInv(wks, loaded, d, hs)
    requires forall k | k in loaded.m :: k in d.m
    requires FetcherInv(fetch, maxRetries, events, hs)
    ensures NeverFails(fetch) && maxRetries >= 1 && Size(UncrawledChapters(refs, ks, loaded)) <= remaining
            ==> forall i | 0 <= i < |refs| :: ks[i] in d.m
  {
    if NeverFails(fetch) && maxRetries >= 1 && Size(UncrawledChapters(refs, ks, loaded)) <= remaining {
      CountOfZero(hs, GaveUp);
      EveryListedKeyStored(refs, ks, loaded, work, wks, d, hs);
    }
  }

  /** The counts a finished fetch loop guarantees for a work list within the quota. */
  lemma RunCounts(wks: seq<string>, loaded: Progress, d: Progress, events: seq<Event>, calls: nat,
                  hs: seq<Handling>, remaining: int, m: nat)
    requires |hs| == |wks| <= remaining
    requires CountInv(loaded, d, events, 0, calls, hs, m)
    ensures Size(d) <= Size(loaded) + remaining
    ensures FetchCount(events) <= remaining * m
    ensures SaveCount(events) == Size(d) - Size(loaded)
  {
    CountOfBound(hs, Stored);
    CountOfBound(hs, Skipped);
    FetchBound(|hs|, CountOf(hs, Skipped), remaining, m);
  }

  /** After the fetch loop the progress file loads as the final map, and only
      the progress file may have changed. */
  lemma RunStore(wks: seq<string>, loaded: Progress, d: Progress, prepared: Store, store: Store,
                 codec: Codec, t: string, hs: seq<Handling>)
    requires Lawful(codec) && LoadExistingJson(prepared, codec, t) == loaded
    requires MapInv(wks, loaded, d, hs)
    requires StoreInv(loaded, d, prepared, store, codec, t)
    ensures LoadExistingJson(store, codec, t) == d
    ensures store.Keys <= prepared.Keys + {JsonPath(t)}
    ensures forall p | p in prepared && p != JsonPath(t) :: p in store && store[p] == prepared[p]
  {
    if Size(d) == Size(loaded) {
      ExtendsSameSize(d, loaded);
    } else {
      LoadAfterSave(prepared, codec, t, d);
    }
  }

  /** Clearing touches only the novel's two files. */
  lemma PreparedKeepsOthers(cfg: Config, t: string, store0: Store)
    ensures Prepared(cfg, t, store0).Keys == store0.Keys
    ensures forall p | p in store0 && p != JsonPath(t) && p != TxtPath(t) :: Prepared(cfg, t, store0)[p] == store0[p]
  {
  }

  /** `crawl()`: discover the links, optionally clear the files, load the
      saved progress, stop at the chapter quota, fetch the chapters not stored
      yet (at most as many as the quota leaves), then assemble the text file.
      Any exception ends the run; only a failing discovery and a raising
      assembly can occur in the model, and both are reported as outcomes. */
  method Crawl(cfg: Config, discovery: Discovery, store0: Store, codec: Codec, fetch: Fetcher)
    returns (outcome: Outcome, progress: Progress, store: Store, events: seq<Event>)
    requires Lawful(codec)
    ensures outcome == Aborted <==> discovery.DiscoveryFailed?
    ensures outcome == Aborted ==> progress == Empty() && store == store0 && events == []
    ensures discovery.Discovered? ==>
              NovelRun(cfg, discovery.novelTitle, discovery.refs, store0, codec,
                       Loaded(cfg, discovery.novelTitle, store0, codec), fetch, outcome, progress, store, events)
  {
    if discovery.DiscoveryFailed? {
      return Aborted, Empty(), store0, [];
    }
    outcome, progress, store, events := CrawlNovel(cfg, discovery.novelTitle, discovery.refs, store0, codec, fetch);
  }

  /** What a run over the discovered novel `t` with links `refs` guarantees:
      - the progress map extends the loaded one, and the run stops at once
        exactly when the loaded map already fills the chapter quota;
      - only the novel's progress and text files may change;
      - each stored chapter is saved once;
      - after a full run the map stays within the quota, the fetch calls stay
        within the retry budget of the quota, the progress file loads as the
        final map, and the text file holds the assembled text, which is cut
        short exactly when a present key is listed twice;
      - with a fetcher that never fails and every missing chapter inside the
        quota, every listed key ends up stored;
      - every key the run added holds the page of a body that a fetch of a
        link with that key returned;
      - past the quota check, the fetch calls go item by item to the work
        list's URLs, never for an item whose key was already stored, and at
        most `max_retries` times for each. */
  ghost predicate NovelRun(cfg: Config, t: string, refs: seq<Ref>, store0: Store, codec: Codec, loaded: Progress,
                           fetch: Fetcher, outcome: Outcome, progress: Progress, store: Store, events: seq<Event>)
  {
    && outcome != Aborted
    && Valid(progress)
    && Extends(progress, loaded)
    && (outcome == QuotaReached <==> cfg.maxChapters <= Size(loaded))
    && OnlyNovelFiles(t, store0, store)
    && SaveCount(events) == Size(progress) - Size(loaded)
    && (outcome == QuotaReached ==> progress == loaded && store == Prepared(cfg, t, store0) && events == [])
    && (outcome != QuotaReached ==> RunBounds(cfg, loaded, progress, events))
    && (outcome != QuotaReached ==> NovelFiles(t, Listed(refs), codec, outcome, progress, store))
    && (NeverFails(fetch) && cfg.maxRetries >= 1
        && Size(UncrawledChapters(refs, Listed(refs), loaded)) <= cfg.maxChapters - Size(loaded)
        ==> forall i | 0 <= i < |refs| :: Listed(refs)[i] in progress.m)
    && PageInv(refs, Listed(refs), loaded, progress, fetch)
    && (outcome != QuotaReached ==>
          FetchesFollowWork(RunWork(cfg, refs, loaded), loaded, progress, events, Max0(cfg.maxRetries)))
  }

  /** The work list of a run: the uncrawled links, cut to what the quota leaves. */
  function RunWork(cfg: Config, refs: seq<Ref>, loaded: Progress): seq<Ref> {
    WorkList(UncrawledChapters(refs, Listed(refs), loaded), cfg.maxChapters - Size(loaded))
  }

  /** Only the novel's progress and text files may differ between `store0` and `store`. */
  ghost predicate OnlyNovelFiles(t: string, store0: Store, store: Store) {
    && (forall p | p in store0 && p != JsonPath(t) && p != TxtPath(t) :: p in store && store[p] == store0[p])
    && store.Keys <= store0.Keys + {JsonPath(t), TxtPath(t)}
  }

  /** The bounds a run that got past the quota check keeps: the map stays
      within the quota, and the fetches within the budget of the chapters
      the quota left. */
  ghost predicate RunBounds(cfg: Config, loaded: Progress, progress: Progress, events: seq<Event>) {
    && Size(progress) <= cfg.maxChapters
    && FetchCount(events) <= Budget(cfg.maxChapters - Size(loaded), cfg.maxRetries)
  }

  /** The progress file loads as the final map, and the text file holds the
      assembled text, cut short exactly when a present key is listed twice. */
  ghost predicate NovelFiles(t: string, ks: seq<string>, codec: Codec, outcome: Outcome, progress: Progress, store: Store)
    requires Valid(progress)
  {
    && LoadExistingJson(store, codec, t) == progress
    && TxtPath(t) in store
    && store[TxtPath(t)] == A.SaveNovelToTxt(ks, progress).text
    && (outcome == AssemblyRaised <==> !A.ListsPresentOnce(ks, progress))
  }

  /** `crawl()` once discovery has succeeded. */
  method CrawlNovel(cfg: Config, t: string, refs: seq<Ref>, store0: Store, codec: Codec, fetch: Fetcher)
    returns (outcome: Outcome, progress: Progress, store: Store, events: seq<Event>)
    requires Lawful(codec)
    ensures NovelRun(cfg, t, refs, store0, codec, Loaded(cfg, t, store0, codec), fetch, outcome, progress, store, events)
  {
    var prepared := Prepared(cfg, t, store0);
    var loaded := Loaded(cfg, t, store0, codec);
    var remaining := cfg.maxChapters - Size(loaded);
    if remaining <= 0 {
      QuotaRunHolds(cfg, t, refs, store0, codec, fetch, loaded, prepared);
      return QuotaReached, loaded, prepared, [];
    }
    var fetched, complete;
    progress, fetched, events := FetchMissing(refs, t, loaded, prepared, codec, fetch, remaining, cfg.maxRetries);
    complete, store := WriteText(Listed(refs), t, progress, fetched);
    outcome := if complete then Finished else AssemblyRaised;
    FullRunHolds(cfg, t, refs, store0, codec, fetch, loaded, prepared, remaining, progress, fetched, events);
  }

  /** Once every key is stored, no link is left to crawl. */
  lemma {:induction false} NothingMissing(refs: seq<Ref>, ks: seq<string>, d: Progress)
    requires |ks| == |refs|
    requires forall i | 0 <= i < |refs| :: ks[i] in d.m
    ensures UncrawledChapters(refs, ks, d) == Empty()
  {
    if refs != [] {
      var n := |refs| - 1;
      NothingMissing(refs[..n], ks[..n], d);
    }
  }

  /** Once every listed key is stored, a work list over the same links is empty. */
  lemma RerunHasNoWork(refs: seq<Ref>, d: Progress)
    requires forall i | 0 <= i < |refs| :: Listed(refs)[i] in d.m
    ensures Size(UncrawledChapters(refs, Listed(refs), d)) == 0
    ensures forall remaining :: WorkList(UncrawledChapters(refs, Listed(refs), d), remaining) == []
  {
    NothingMissing(refs, Listed(refs), d);
  }

  /** A rerun without clearing starts from the map the run left, so after a
      run that stored every listed key it has nothing to fetch. */
  lemma RerunFindsNothingToFetch(cfg: Config, t: string, refs: seq<Ref>, store0: Store, codec: Codec,
                                 fetch: Fetcher, outcome: Outcome, progress: Progress, store: Store,
                                 events: seq<Event>, cfg2: Config)
    requires Lawful(codec)
    requires NovelRun(cfg, t, refs, store0, codec, Loaded(cfg, t, store0, codec), fetch, outcome, progress, store, events)
    requires !cfg2.clearFiles
    requires forall i | 0 <= i < |refs| :: Listed(refs)[i] in progress.m
    ensures Loaded(cfg2, t, store, codec) == progress
    ensures Size(UncrawledChapters(refs, Listed(refs), Loaded(cfg2, t, store, codec))) == 0
  {
    RerunHasNoWork(refs, progress);
  }

  /** A run that finds the quota already met changes nothing after clearing. */
  lemma QuotaRunHolds(cfg: Config, t: string, refs: seq<Ref>, store0: Store, codec: Codec, fetch: Fetcher,
                      loaded: Progress, prepared: Store)
    requires Lawful(codec)
    requires loaded == Loaded(cfg, t, store0, codec) && prepared == Prepared(cfg, t, store0)
    requires cfg.maxChapters <= Size(loaded)
    ensures NovelRun(cfg, t, refs, store0, codec, loaded, fetch, QuotaReached, loaded, prepared, [])
  {
    PreparedKeepsOthers(cfg, t, store0);
  }

  /** A run that fetched and then wrote the text file meets `NovelRun`. */
  lemma FullRunHolds(cfg: Config, t: string, refs: seq<Ref>, store0: Store, codec: Codec, fetch: Fetcher,
                     loaded: Progress, prepared: Store, remaining: int,
                     progress: Progress, fetched: Store, events: seq<Event>)
    requires Lawful(codec)
    requires loaded == Loaded(cfg, t, store0, codec) && prepared == Prepared(cfg, t, store0)
    requires remaining == cfg.maxChapters - Size(loaded) > 0
    requires Valid(progress) && Extends(progress, loaded)
    requires Size(progress) <= Size(loaded) + remaining
    requires FetchCount(events) <= Budget(remaining, cfg.maxRetries)
    requires SaveCount(events) == Size(progress) - Size(loaded)
    requires LoadExistingJson(fetched, codec, t) == progress
    requires fetched.Keys <= prepared.Keys + {JsonPath(t)}
    requires forall p | p in prepared && p != JsonPath(t) :: p in fetched && fetched[p] == prepared[p]
    requires NeverFails(fetch) && cfg.maxRetries >= 1 && Size(UncrawledChapters(refs, Listed(refs), loaded)) <= remaining
             ==> forall i | 0 <= i < |refs| :: Listed(refs)[i] in progress.m
    requires PageInv(refs, Listed(refs), loaded, progress, fetch)
    requires FetchesFollowWork(WorkList(UncrawledChapters(refs, Listed(refs), loaded), remaining), loaded, progress,
                               events, Max0(cfg.maxRetries))
    ensures NovelRun(cfg, t, refs, store0, codec, loaded, fetch,
                     if A.ListsPresentOnce(Listed(refs), progress) then Finished else AssemblyRaised,
                     progress, fetched[TxtPath(t) := A.SaveNovelToTxt(Listed(refs), progress).text], events)
  {
    var text := A.SaveNovelToTxt(Listed(refs), progress).text;
    var store := fetched[TxtPath(t) := text];
    var outcome := if A.ListsPresentOnce(Listed(refs), progress) then Finished else AssemblyRaised;
    FullRunKeepsOthers(cfg, t, store0, prepared, fetched, store, text);
    NovelFilesHold(t, Listed(refs), codec, progress, fetched, text);
    RunBoundsHold(cfg, loaded, remaining, progress, events);
    RunWorkIsFetchMissingWork(cfg, refs, loaded, remaining, progress, events);
  }

  /** The work list `FetchMissing` gets in a run is the run's work list. */
  lemma RunWorkIsFetchMissingWork(cfg: Config, refs: seq<Ref>, loaded: Progress, remaining: int,
                                  progress: Progress, events: seq<Event>)
    requires remaining == cfg.maxChapters - Size(loaded)
    requires FetchesFollowWork(WorkList(UncrawledChapters(refs, Listed(refs), loaded), remaining), loaded, progress,
                               events, Max0(cfg.maxRetries))
    ensures FetchesFollowWork(RunWork(cfg, refs, loaded), loaded, progress, events, Max0(cfg.maxRetries))
  {
  }

  /** The bounds of a run past the quota check, from those of the fetch loop. */
  lemma RunBoundsHold(cfg: Config, loaded: Progress, remaining: int, progress: Progress, events: seq<Event>)
    requires remaining == cfg.maxChapters - Size(loaded)
    requires Size(progress) <= Size(loaded) + remaining
    requires FetchCount(events) <= Budget(remaining, cfg.maxRetries)
    ensures RunBounds(cfg, loaded, progress, events)
  {
    SameBudget(remaining, cfg.maxChapters - Size(loaded), cfg.maxRetries);
  }

  lemma SameBudget(a: int, b: int, maxRetries: int)
    requires a == b
    ensures Budget(a, maxRetries) == Budget(b, maxRetries)
  {
  }


  /** Writing the text file leaves the progress file loading as before. */
  lemma NovelFilesHold(t: string, ks: seq<string>, codec: Codec, progress: Progress, fetched: Store, text: string)
    requires Valid(progress)
    requires LoadExistingJson(fetched, codec, t) == progress
    requires text == A.SaveNovelToTxt(ks, progress).text
    ensures NovelFiles(t, ks, codec, if A.ListsPresentOnce(ks, progress) then Finished else AssemblyRaised,
                       progress, fetched[TxtPath(t) := text])
  {
    LoadIgnoresTxt(fetched, codec, t, text);
  }

  /** Fetching and writing the text touch only the novel's two files. */
  lemma FullRunKeepsOthers(cfg: Config, t: string, store0: Store, prepared: Store, fetched: Store, store: Store, text: string)
    requires prepared == Prepared(cfg, t, store0)
    requires fetched.Keys <= prepared.Keys + {JsonPath(t)}
    requires forall p | p in prepared && p != JsonPath(t) :: p in fetched && fetched[p] == prepared[p]
    requires store == fetched[TxtPath(t) := text]
    ensures OnlyNovelFiles(t, store0, store)
  {
    PreparedKeepsOthers(cfg, t, store0);
  }

  /** `save_novel_to_txt(content_title, normalized_titles, json_content)`:
      the text file gets the assembled text, cut short when the assembly
      raises; the progress file is not touched. */
  method WriteText(ks: seq<string>, t: string, d: Progress, store: Store)
    returns (complete: bool, store': Store)
    requires Valid(d)
    ensures complete <==> A.ListsPresentOnce(ks, d)
    ensures store' == store[TxtPath(t) := A.SaveNovelToTxt(ks, d).text]
  {
    var doc := A.SaveNovelToTxt(ks, d);
    store' := store[TxtPath(t) := doc.text];
    complete := doc.complete;
  }
}

=== FILE: legacy_crawler.dfy ===
/**
  The crawl orchestrator of the older root-level copy (`base_crawler.py` and
  `utils.py` at the repository root). It shares the packaged copy's outline —
  discover, optionally clear, load, check the quota, build the work list,
  fetch, assemble — but differs in four ways:
  - the key of a link is the legacy normalised title, which depends on the
    running counter for a title with neither marker nor digit;
  - each chapter gets a single attempt, and a failure is only logged;
  - the text file is every stored page in the map's order;
  - any exception ends the run silently, so nothing is reported upwards.

  The single attempt is the packaged fetch step with one attempt allowed,
  which makes the same calls and records the same events (one fetch, then the
  save and the pacing delay on success, no back-off).
*/
module LegacyCrawler {
  import opened Text
  import opened OrderedDict
  import opened ProgressStore
  import TN = TitleNormalizer
  import LN = LegacyNormalizer
  import A = Assembler
  import C = Crawler

  /** The constructor arguments that matter: the chapter quota and whether
      old files are cleared first. */
  datatype Config = Config(maxChapters: int, clearFiles: bool)

  // ---------------------------------------------------------------------
  // Keys

  /** The reconciliation key of a link: its title normalised with counter 1. */
  function ListedKey(r: C.Ref): string {
    LN.Normalize(r.title, 1).0
  }

  function ListedKeys(refs: seq<C.Ref>): (ks: seq<string>)
    ensures |ks| == |refs|
    ensures forall i | 0 <= i < |refs| :: ks[i] == ListedKey(refs[i])
  {
    seq(|refs|, i requires 0 <= i < |refs| => ListedKey(refs[i]))
  }

  /** The keys `step` gives the titles of `work` when the counter it returns
      is threaded from one title to the next, starting at `c`. */
  function ThreadedKeys(step: (string, int) -> (string, int), work: seq<C.Ref>, c: int): (ks: seq<string>)
    ensures |ks| == |work|
  {
    if work == [] then []
    else
      var n := step(work[0].title, c);
      [n.0] + ThreadedKeys(step, work[1..], n.1)
  }

  /** The counter in force when the threading reaches item `p`. */
  function ThreadedCounter(step: (string, int) -> (string, int), work: seq<C.Ref>, c: int, p: nat): int
    requires p <= |work|
  {
    if p == 0 then c else ThreadedCounter(step, work[1..], step(work[0].title, c).1, p - 1)
  }

  /** Item `p`'s key is its title stepped with the counter in force at `p`. */
  lemma {:induction false} ThreadedKeyAt(step: (string, int) -> (string, int), work: seq<C.Ref>, c: int, p: nat)
    requires p < |work|
    ensures ThreadedKeys(step, work, c)[p] == step(work[p].title, ThreadedCounter(step, work, c, p)).0
  {
    var n := step(work[0].title, c);
    var ks := ThreadedKeys(step, work, c);
    assert ks == [n.0] + ThreadedKeys(step, work[1..], n.1);
    if p > 0 {
      ThreadedKeyAt(step, work[1..], n.1, p - 1);
      assert work[1..][p - 1] == work[p];
    }
  }

  /** The keys the fetch loop computes: each title normalised with the running
      counter, which starts at `c` and takes the value each normalisation
      returns. */
  function RunningKeys(work: seq<C.Ref>, c: int): (ks: seq<string>)
    ensures |ks| == |work|
  {
    ThreadedKeys(LN.Normalize, work, c)
  }

  /** The counter in force when the loop reaches item `p`. */
  function CounterAt(work: seq<C.Ref>, c: int, p: nat): int
    requires p <= |work|
  {
    ThreadedCounter(LN.Normalize, work, c, p)
  }

  /** The running key of item `p` is its title normalised with the counter in
      force at `p`. */
  lemma RunningKeyAt(work: seq<C.Ref>, c: int, p: nat)
    requires p < |work|
    ensures RunningKeys(work, c)[p] == LN.Normalize(work[p].title, CounterAt(work, c, p)).0
  {
    ThreadedKeyAt(LN.Normalize, work, c, p);
  }

  /** A cleaned title with the marker or a digit gets its listed key in the
      loop, so a rerun recognises it. */
  lemma RunningKeyAgrees(work: seq<C.Ref>, p: nat)
    requires p < |work|
    requires var t := TN.CleanTitle(work[p].title);
             StartsWith(t, TN.Marker) || FirstNumber(t).Some?
    ensures RunningKeys(work, 1)[p] == ListedKey(work[p])
  {
    RunningKeyAt(work, 1, p);
    LN.KeyIndependentOfCounter(work[p].title, CounterAt(work, 1, p), 1);
  }

  /** A cleaned title with neither, reached with a counter other than 1, gets
      a key in the loop that differs from its listed key, so a rerun does not
      recognise it. */
  lemma RunningKeyDiffers(work: seq<C.Ref>, p: nat)
    requires p < |work|
    requires var t := TN.CleanTitle(work[p].title);
             !StartsWith(t, TN.Marker) && FirstNumber(t).None?
    requires CounterAt(work, 1, p) != 1
    ensures RunningKeys(work, 1)[p] != ListedKey(work[p])
  {
    RunningKeyAt(work, 1, p);
    LN.KeyDependsOnCounter(work[p].title, CounterAt(work, 1, p), 1);
  }

  /** Of two plain titles in a row, the second is keyed in the loop with
      counter 2 and so misses its listed key. */
  lemma SecondPlainTitleMisKeyed(a: C.Ref, b: C.Ref)
    requires var t := TN.CleanTitle(a.title);
             !StartsWith(t, TN.Marker) && FirstNumber(t).None?
    requires var t := TN.CleanTitle(b.title);
             !StartsWith(t, TN.Marker) && FirstNumber(t).None?
    ensures RunningKeys([a, b], 1)[1] != ListedKey(b)
  {
    LN.PlainTitleRewritten(a.title, 1);
    assert [a, b][0] == a && [a, b][1..] == [b];
    assert CounterAt([a, b], 1, 1) == ThreadedCounter(LN.Normalize, [b], LN.Normalize(a.title, 1).1, 0);
    RunningKeyDiffers([a, b], 1);
  }

  // ---------------------------------------------------------------------
  // The fetch loop

  /** The loop of `crawl()`: each item's key is computed with the running
      counter; an item whose key is in the map is skipped; any other item
      gets exactly one fetch, and its page is stored and the map saved on
      success. */
  method CrawlChapters(work: seq<C.Ref>, title: string, d0: Progress, store0: Store, codec: Codec,
                       fetch: C.Fetcher, calls0: nat)
    returns (d: Progress, store: Store, events: seq<C.Event>, calls: nat, handled: seq<C.Handling>)
    requires Valid(d0)
    ensures |handled| == |work|
    ensures C.MapInv(RunningKeys(work, 1), d0, d, handled)
    ensures C.SkipInv(RunningKeys(work, 1), d0, d, handled)
    ensures C.CountInv(d0, d, events, calls0, calls, handled, 1)
    ensures C.FetchCount(events) == |work| - C.CountOf(handled, C.Skipped)
    ensures C.StoreInv(d0, d, store0, store, codec, title)
    ensures C.FetcherInv(fetch, 1, events, handled)
    ensures C.PageInv(work, RunningKeys(work, 1), d0, d, fetch)
    ensures C.FetchedUrls(events) == AttemptedUrls(work, handled)
  {
    ghost var ks := RunningKeys(work, 1);
    d, store, events, calls, handled := d0, store0, [], calls0, [];
    var pageNum := 1;
    assert d0.keys + [] == d0.keys;
    for i := 0 to |work|
      invariant |handled| == i
      invariant RunningKeys(work[i..], pageNum) == ks[i..]
      invariant LoopInv(ks, d0, d, events, calls0, calls, handled, store0, store, codec, title, fetch)
      invariant C.PageInv(work, ks, d0, d, fetch)
      invariant C.FetchedUrls(events) == AttemptedUrls(work, handled)
    {
      var normalized := LN.Normalize(work[i].title, pageNum);
      var key := normalized.0;
      RunningKeysStep(work, i, pageNum, ks);
      pageNum := normalized.1;
      if key in d.m {
        SkipStep(ks, d0, d, events, calls0, calls, handled, store0, store, codec, title, fetch);
        SkipFetchesNothing(work, events, handled);
        handled := handled + [C.Skipped];
      } else {
        var ok, d', store', es, calls' := C.FetchChapterWithRetry(work[i].url, key, title, d, store, codec, fetch, calls, 1);
        ghost var page := if ok then C.Page(key, fetch(work[i].url, calls' - 1).body) else [];
        AttemptStep(ks, d0, d, d', events, es, calls0, calls, calls', handled, store0, store, store', codec, title, fetch,
                    ok, page);
        C.AttemptKeepsPages(work, ks, d0, d, d', fetch, i, ok, if ok then calls' - 1 else 0);
        AttemptFetchesItsUrl(work, events, es, handled, if ok then C.Stored else C.GaveUp);
        d, store, events, calls, handled := d', store', events + es, calls', handled + [if ok then C.Stored else C.GaveUp];
      }
    }
  }

  /** The URLs of the items not skipped among the first `|hs|`, in work order. */
  function AttemptedUrls(work: seq<C.Ref>, hs: seq<C.Handling>): (us: seq<string>)
    requires |hs| <= |work|
    ensures |us| == |hs| - C.CountOf(hs, C.Skipped)
  {
    if hs == [] then []
    else
      var n := |hs| - 1;
      AttemptedUrls(work, hs[..n]) + (if hs[n] != C.Skipped then [work[n].url] else [])
  }

  /** A skipped item makes no fetch call. */
  lemma SkipFetchesNothing(work: seq<C.Ref>, events: seq<C.Event>, hs: seq<C.Handling>)
    requires |hs| < |work| && C.FetchedUrls(events) == AttemptedUrls(work, hs)
    ensures C.FetchedUrls(events) == AttemptedUrls(work, hs + [C.Skipped])
  {
    AttemptedUrlsAppend(work, hs, C.Skipped);
  }

  /** An attempted item makes exactly one fetch call, of its own URL. */
  lemma AttemptFetchesItsUrl(work: seq<C.Ref>, events: seq<C.Event>, es: seq<C.Event>, hs: seq<C.Handling>,
                             h: C.Handling)
    requires |hs| < |work| && h != C.Skipped
    requires C.FetchedUrls(events) == AttemptedUrls(work, hs)
    requires C.FetchCount(es) == 1
    requires forall j | 0 <= j < |es| && es[j].Fetch? :: es[j].url == work[|hs|].url
    ensures C.FetchedUrls(events + es) == AttemptedUrls(work, hs + [h])
  {
    C.ConcatFetchedUrls(events, es);
    OneFetchOf(es, work[|hs|].url);
    AttemptedUrlsAppend(work, hs, h);
  }

  /** A trace with one fetch call, of `u`, fetches exactly `u`. */
  lemma OneFetchOf(es: seq<C.Event>, u: string)
    requires C.FetchCount(es) == 1
    requires forall j | 0 <= j < |es| && es[j].Fetch? :: es[j].url == u
    ensures C.FetchedUrls(es) == [u]
  {
    C.FetchedUrlsAllSame(es, u);
  }

  /** Handling one more item adds its URL exactly when it was not skipped. */
  lemma AttemptedUrlsAppend(work: seq<C.Ref>, hs: seq<C.Handling>, h: C.Handling)
    requires |hs| < |work|
    ensures AttemptedUrls(work, hs + [h]) == AttemptedUrls(work, hs) + (if h != C.Skipped then [work[|hs|].url] else [])
  {
    assert (hs + [h])[..|hs|] == hs;
  }

  /** What the loop keeps after handling the items `hs` of keys `ks`: the
      packaged loop's invariants for one attempt per item, and exactly one
      fetch for each item not skipped. */
  ghost predicate LoopInv(ks: seq<string>, d0: Progress, d: Progress, events: seq<C.Event>, calls0: nat, calls: nat,
                          hs: seq<C.Handling>, store0: Store, store: Store, codec: Codec, title: string,
                          fetch: C.Fetcher) {
    && C.MapInv(ks, d0, d, hs)
    && C.SkipInv(ks, d0, d, hs)
    && C.CountInv(d0, d, events, calls0, calls, hs, 1)
    && C.FetchCount(events) == |hs| - C.CountOf(hs, C.Skipped)
    && C.StoreInv(d0, d, store0, store, codec, title)
    && C.FetcherInv(fetch, 1, events, hs)
  }

  /** Skipping an item whose key is stored keeps the loop invariant. */
  lemma SkipStep(ks: seq<string>, d0: Progress, d: Progress, events: seq<C.Event>, calls0: nat, calls: nat,
                 hs: seq<C.Handling>, store0: Store, store: Store, codec: Codec, title: string, fetch: C.Fetcher)
    requires |hs| < |ks| && ks[|hs|] in d.m
    requires LoopInv(ks, d0, d, events, calls0, calls, hs, store0, store, codec, title, fetch)
    ensures LoopInv(ks, d0, d, events, calls0, calls, hs + [C.Skipped], store0, store, codec, title, fetch)
  {
    var key := ks[|hs|];
    if key !in d0.m {
      C.NewKeyIsStored(ks, d0, d, hs, key);
    }
    C.SkipKeepsMap(ks, d0, d, hs);
    C.SkipOnlyWhenStored(ks, d0, d, hs);
    C.SkipCountsNothing(d0, d, events, calls0, calls, hs, 1, fetch, 1);
    C.CountOfAppend(hs, C.Skipped);
  }

  /** One attempt at an item whose key is not stored keeps the loop
      invariant: it makes exactly one fetch call, and on success stores the
      page under the item's key and saves the map. */
  lemma AttemptStep(ks: seq<string>, d0: Progress, d: Progress, d': Progress, events: seq<C.Event>, es: seq<C.Event>,
                    calls0: nat, calls: nat, calls': nat, hs: seq<C.Handling>, store0: Store, store: Store,
                    store': Store, codec: Codec, title: string, fetch: C.Fetcher, ok: bool, page: string)
    requires |hs| < |ks| && ks[|hs|] !in d.m
    requires LoopInv(ks, d0, d, events, calls0, calls, hs, store0, store, codec, title, fetch)
    requires Valid(d') && calls <= calls' <= calls + 1
    requires C.FetchCount(es) == calls' - calls
    requires C.SaveCount(es) == if ok then 1 else 0
    requires ok ==> calls < calls' && d' == Put(d, ks[|hs|], page)
    requires ok ==> store' == SaveChapterToJson(store, codec, title, d')
    requires !ok ==> d' == d && store' == store && calls' == calls + 1
    requires C.NeverFails(fetch) ==> ok && C.BackoffCount(es) == 0
    ensures LoopInv(ks, d0, d', events + es, calls0, calls', hs + [if ok then C.Stored else C.GaveUp],
                    store0, store', codec, title, fetch)
  {
    var key := ks[|hs|];
    if ok {
      PutNewExtends(d, key, page);
    }
    C.AttemptKeepsMap(ks, d0, d, d', hs, ok);
    C.AttemptKeepsSkips(ks, d0, d, d', hs, ok);
    C.AttemptCounts(d0, d, d', events, es, calls0, calls, calls', hs, 1, ok);
    C.AttemptKeepsFetcherFacts(fetch, 1, events, es, hs, ok);
    C.AttemptKeepsStore(d0, d, d', store0, store, store', codec, title, ok);
    C.ConcatCounts(events, es);
    C.CountOfAppend(hs, if ok then C.Stored else C.GaveUp);
  }

  /** One step of the running counter: the key of item `i` and the keys after it. */
  lemma RunningKeysStep(work: seq<C.Ref>, i: nat, c: int, ks: seq<string>)
    requires i < |work| && |ks| == |work|
    requires RunningKeys(work[i..], c) == ks[i..]
    ensures LN.Normalize(work[i].title, c).0 == ks[i]
    ensures RunningKeys(work[i + 1..], LN.Normalize(work[i].title, c).1) == ks[i + 1..]
  {
    assert work[i..][0] == work[i] && work[i..][1..] == work[i + 1..];
    assert ks[i..][0] == ks[i] && ks[i..][1..] == ks[i + 1..];
  }

  // ---------------------------------------------------------------------
  // The whole run

  /** The store once the optional clearing has run. */
  function Prepared(cfg: Config, t: string, store: Store): Store {
    if cfg.clearFiles then C.ClearExistingFiles(store, t) else store
  }

  /** The progress map the run starts from. */
  function Loaded(cfg: Config, t: string, store: Store, codec: Codec): Progress {
    LoadExistingJson(Prepared(cfg, t, store), codec, t)
  }

  /** `uncrawled_chapters` cut to the quota: the links whose listed key is
      not stored, one per raw title, at most `remaining` of them. */
  function Work(refs: seq<C.Ref>, loaded: Progress, remaining: int): (work: seq<C.Ref>)
    ensures |work| <= C.Max0(remaining)
  {
    C.WorkList(C.UncrawledChapters(refs, ListedKeys(refs), loaded), remaining)
  }

  /** `save_novel_to_txt` of the root copy: every stored page, in the map's
      order. */
  function SaveNovelToTxt(d: Progress): string
    requires Valid(d)
  {
    Concat(Values(d))
  }

  /** The root copy's text file is what the packaged assembly gives when the
      list of keys is the map's own order: every page, each once. */
  lemma TextIsFullAssembly(d: Progress)
    requires Valid(d)
    ensures SaveNovelToTxt(d) == A.SaveNovelToTxt(d.keys, d).text
  {
    A.FullListInMapOrder(d);
  }

  /** What a legacy run over the discovered novel `t` with links `refs`
      guarantees:
      - the map extends the loaded one, and the run stops at once exactly
        when the loaded map fills the quota;
      - only the novel's progress and text files may change, and each stored
        chapter is saved once;
      - past the quota check: the map stays within the quota, every fetch is
        of a work item and at most one per item, the progress file loads as
        the final map, the text file holds every stored page in map order,
        the fetches are, in order, one of each work item not skipped, an
        item being skipped only when its running key was loaded or stored by
        an earlier item,
        and every key the run added is the running key of a work item and
        holds the page of a body that a fetch of that item returned;
      - with a fetcher that never fails, every work item's running key is
        stored and the fetches are exactly the stored chapters. */
  ghost predicate LegacyRun(cfg: Config, t: string, refs: seq<C.Ref>, store0: Store, codec: Codec, loaded: Progress,
                            fetch: C.Fetcher, outcome: C.Outcome, progress: Progress, store: Store,
                            events: seq<C.Event>)
  {
    && (outcome == C.QuotaReached || outcome == C.Finished)
    && Valid(progress)
    && Extends(progress, loaded)
    && (outcome == C.QuotaReached <==> cfg.maxChapters <= Size(loaded))
    && C.OnlyNovelFiles(t, store0, store)
    && C.SaveCount(events) == Size(progress) - Size(loaded)
    && (outcome == C.QuotaReached ==> progress == loaded && store == Prepared(cfg, t, store0) && events == [])
    && (outcome == C.Finished ==>
          var work := Work(refs, loaded, cfg.maxChapters - Size(loaded));
          && FinishedRun(cfg, t, codec, loaded, fetch, RunningKeys(work, 1), progress, store, events)
          && WorkRun(work, loaded, progress, fetch, events))
  }

  /** What a finished run did with its work items: each added key holds a
      page fetched for the item with that running key, and the fetches follow
      the items. */
  ghost predicate WorkRun(work: seq<C.Ref>, loaded: Progress, progress: Progress, fetch: C.Fetcher,
                          events: seq<C.Event>) {
    && C.PageInv(work, RunningKeys(work, 1), loaded, progress, fetch)
    && FetchesFollowWork(work, RunningKeys(work, 1), loaded, progress, events)
  }

  /** The fetch loop's facts about its items give `WorkRun`. */
  lemma WorkRunHolds(work: seq<C.Ref>, loaded: Progress, progress: Progress, fetch: C.Fetcher,
                     events: seq<C.Event>, handled: seq<C.Handling>)
    requires |handled| == |work|
    requires C.SkipInv(RunningKeys(work, 1), loaded, progress, handled)
    requires C.PageInv(work, RunningKeys(work, 1), loaded, progress, fetch)
    requires C.FetchedUrls(events) == AttemptedUrls(work, handled)
    ensures WorkRun(work, loaded, progress, fetch, events)
  {
    assert FetchesFollowWork(work, RunningKeys(work, 1), loaded, progress, events);
  }

  /** Some handling of the work items explains the fetches: one fetch of each
      item not skipped, in work order, under the skipping rules of the loop. */
  ghost predicate FetchesFollowWork(work: seq<C.Ref>, ks: seq<string>, loaded: Progress, progress: Progress,
                                    events: seq<C.Event>) {
    exists hs: seq<C.Handling> | |hs| == |work| ::
      C.FetchedUrls(events) == AttemptedUrls(work, hs) && C.SkipInv(ks, loaded, progress, hs)
  }

  /** The guarantees of a run past the quota check, for the running keys
      `ks` of its work items. */
  ghost predicate FinishedRun(cfg: Config, t: string, codec: Codec, loaded: Progress, fetch: C.Fetcher,
                              ks: seq<string>, progress: Progress, store: Store, events: seq<C.Event>)
  {
    && Valid(progress)
    && Size(progress) <= cfg.maxChapters
    && C.FetchCount(events) <= |ks|
    && LoadExistingJson(store, codec, t) == progress
    && TxtPath(t) in store && store[TxtPath(t)] == SaveNovelToTxt(progress)
    && (forall k | k in progress.m && k !in loaded.m :: k in ks)
    && (C.NeverFails(fetch) ==> ReliableRun(ks, loaded, progress, events))
  }

  /** With a fetcher that never fails: every work item's running key is
      stored, and the fetches are exactly the stored chapters. */
  ghost predicate ReliableRun(ks: seq<string>, loaded: Progress, progress: Progress, events: seq<C.Event>) {
    && (forall p | 0 <= p < |ks| :: ks[p] in progress.m)
    && C.FetchCount(events) == Size(progress) - Size(loaded)
  }

  /** `crawl()` of the root copy. A failing discovery is caught and logged;
      the run then ends with nothing changed. */
  method Crawl(cfg: Config, discovery: C.Discovery, store0: Store, codec: Codec, fetch: C.Fetcher)
    returns (outcome: C.Outcome, progress: Progress, store: Store, events: seq<C.Event>)
    requires Lawful(codec)
    ensures outcome == C.Aborted <==> discovery.DiscoveryFailed?
    ensures outcome == C.Aborted ==> store == store0 && events == []
    ensures discovery.Discovered? ==>
              LegacyRun(cfg, discovery.novelTitle, discovery.refs, store0, codec,
                        Loaded(cfg, discovery.novelTitle, store0, codec), fetch, outcome, progress, store, events)
  {
    if discovery.DiscoveryFailed? {
      return C.Aborted, Empty(), store0, [];
    }
    outcome, progress, store, events := CrawlNovel(cfg, discovery.novelTitle, discovery.refs, store0, codec, fetch);
  }

  /** `crawl()` once discovery has succeeded. */
  method CrawlNovel(cfg: Config, t: string, refs: seq<C.Ref>, store0: Store, codec: Codec, fetch: C.Fetcher)
    returns (outcome: C.Outcome, progress: Progress, store: Store, events: seq<C.Event>)
    requires Lawful(codec)
    ensures LegacyRun(cfg, t, refs, store0, codec, Loaded(cfg, t, store0, codec), fetch, outcome, progress, store, events)
  {
    var prepared := Prepared(cfg, t, store0);
    var loaded := Loaded(cfg, t, store0, codec);
    var remaining := cfg.maxChapters - Size(loaded);
    if remaining <= 0 {
      return C.QuotaReached, loaded, prepared, [];
    }
    var work := Work(refs, loaded, remaining);
    var fetched, calls, handled;
    progress, fetched, events, calls, handled := CrawlChapters(work, t, loaded, prepared, codec, fetch, 0);
    var text := SaveNovelToTxt(progress);
    store := fetched[TxtPath(t) := text];
    outcome := C.Finished;
    LegacyRunHolds(cfg, t, refs, store0, codec, fetch, loaded, prepared, remaining, work,
                   progress, fetched, events, calls, handled);
  }

  /** The guarantees of a run past the quota check, from those of the fetch loop. */
  lemma LegacyRunHolds(cfg: Config, t: string, refs: seq<C.Ref>, store0: Store, codec: Codec, fetch: C.Fetcher,
                       loaded: Progress, prepared: Store, remaining: int, work: seq<C.Ref>,
                       progress: Progress, fetched: Store, events: seq<C.Event>, calls: nat, handled: seq<C.Handling>)
    requires Lawful(codec)
    requires prepared == Prepared(cfg, t, store0) && loaded == LoadExistingJson(prepared, codec, t)
    requires remaining == cfg.maxChapters - Size(loaded) > 0
    requires work == Work(refs, loaded, remaining)
    requires |handled| == |work|
    requires C.MapInv(RunningKeys(work, 1), loaded, progress, handled)
    requires C.SkipInv(RunningKeys(work, 1), loaded, progress, handled)
    requires C.CountInv(loaded, progress, events, 0, calls, handled, 1)
    requires C.FetchCount(events) == |work| - C.CountOf(handled, C.Skipped)
    requires C.StoreInv(loaded, progress, prepared, fetched, codec, t)
    requires C.FetcherInv(fetch, 1, events, handled)
    requires C.PageInv(work, RunningKeys(work, 1), loaded, progress, fetch)
    requires C.FetchedUrls(events) == AttemptedUrls(work, handled)
    ensures LegacyRun(cfg, t, refs, store0, codec, loaded, fetch, C.Finished, progress,
                      fetched[TxtPath(t) := SaveNovelToTxt(progress)], events)
  {
    var ks := RunningKeys(work, 1);
    var store := fetched[TxtPath(t) := SaveNovelToTxt(progress)];
    C.RunStore(ks, loaded, progress, prepared, fetched, codec, t, handled);
    RunKeepsOthers(cfg, t, store0, prepared, fetched, store, SaveNovelToTxt(progress));
    FinishedRunHolds(cfg, t, codec, fetch, loaded, prepared, remaining, ks,
                     progress, fetched, events, calls, handled);
    RunGrowsMap(ks, loaded, progress, events, calls, handled);
    WorkRunHolds(work, loaded, progress, fetch, events, handled);
    FinishedLegacyRun(cfg, t, refs, store0, codec, fetch, loaded, work, progress, store, events);
  }

  /** The parts of a finished run make up `LegacyRun`. */
  lemma FinishedLegacyRun(cfg: Config, t: string, refs: seq<C.Ref>, store0: Store, codec: Codec, fetch: C.Fetcher,
                          loaded: Progress, work: seq<C.Ref>, progress: Progress, store: Store, events: seq<C.Event>)
    requires cfg.maxChapters > Size(loaded)
    requires work == Work(refs, loaded, cfg.maxChapters - Size(loaded))
    requires Valid(progress) && Extends(progress, loaded)
    requires C.OnlyNovelFiles(t, store0, store)
    requires C.SaveCount(events) == Size(progress) - Size(loaded)
    requires FinishedRun(cfg, t, codec, loaded, fetch, RunningKeys(work, 1), progress, store, events)
    requires WorkRun(work, loaded, progress, fetch, events)
    ensures LegacyRun(cfg, t, refs, store0, codec, loaded, fetch, C.Finished, progress, store, events)
  {
  }

  /** The fetch loop leaves an extension of the loaded map, saved once per
      added chapter. */
  lemma RunGrowsMap(ks: seq<string>, loaded: Progress, progress: Progress, events: seq<C.Event>, calls: nat,
                    handled: seq<C.Handling>)
    requires C.MapInv(ks, loaded, progress, handled)
    requires C.CountInv(loaded, progress, events, 0, calls, handled, 1)
    ensures Valid(progress) && Extends(progress, loaded)
    ensures C.SaveCount(events) == Size(progress) - Size(loaded)
  {
  }

  /** The part of the guarantees that only a finished run gives. */
  lemma FinishedRunHolds(cfg: Config, t: string, codec: Codec, fetch: C.Fetcher,
                         loaded: Progress, prepared: Store, remaining: int, ks: seq<string>,
                         progress: Progress, fetched: Store, events: seq<C.Event>, calls: nat, handled: seq<C.Handling>)
    requires Lawful(codec) && loaded == LoadExistingJson(prepared, codec, t)
    requires remaining == cfg.maxChapters - Size(loaded) && |ks| <= remaining
    requires |handled| == |ks|
    requires C.MapInv(ks, loaded, progress, handled)
    requires C.SkipInv(ks, loaded, progress, handled)
    requires C.CountInv(loaded, progress, events, 0, calls, handled, 1)
    requires C.FetchCount(events) == |ks| - C.CountOf(handled, C.Skipped)
    requires C.StoreInv(loaded, progress, prepared, fetched, codec, t)
    requires C.FetcherInv(fetch, 1, events, handled)
    ensures FinishedRun(cfg, t, codec, loaded, fetch, ks, progress, fetched[TxtPath(t) := SaveNovelToTxt(progress)], events)
  {
    C.RunCounts(ks, loaded, progress, events, calls, handled, remaining, 1);
    C.RunStore(ks, loaded, progress, prepared, fetched, codec, t, handled);
    C.LoadIgnoresTxt(fetched, codec, t, SaveNovelToTxt(progress));
    C.CountOfBound(handled, C.Skipped);
    AddedKeysAreRunning(ks, loaded, progress, handled);
    if C.NeverFails(fetch) {
      NeverFailingRun(ks, loaded, progress, events, handled);
    }
  }

  /** Fetching and writing the text touch only the novel's two files. */
  lemma RunKeepsOthers(cfg: Config, t: string, store0: Store, prepared: Store, fetched: Store, store: Store, text: string)
    requires prepared == Prepared(cfg, t, store0)
    requires fetched.Keys <= prepared.Keys + {JsonPath(t)}
    requires forall p | p in prepared && p != JsonPath(t) :: p in fetched && fetched[p] == prepared[p]
    requires store == fetched[TxtPath(t) := text]
    ensures C.OnlyNovelFiles(t, store0, store)
  {
    PreparedKeepsOthers(cfg, t, store0);
  }

  /** Clearing touches only the novel's two files. */
  lemma PreparedKeepsOthers(cfg: Config, t: string, store0: Store)
    ensures Prepared(cfg, t, store0).Keys == store0.Keys
    ensures forall p | p in store0 && p != JsonPath(t) && p != TxtPath(t) :: Prepared(cfg, t, store0)[p] == store0[p]
  {
  }

  /** Every key the loop added is the running key of one of its items. */
  lemma AddedKeysAreRunning(ks: seq<string>, loaded: Progress, d: Progress, hs: seq<C.Handling>)
    requires C.MapInv(ks, loaded, d, hs)
    ensures forall k | k in d.m && k !in loaded.m :: k in ks
  {
    forall k | k in d.m && k !in loaded.m ensures k in ks {
      C.NewKeyIsStored(ks, loaded, d, hs, k);
      C.StoredKeyHasItem(ks, hs, k);
    }
  }

  /** With a fetcher that never fails nothing is given up: every item's key
      is stored, and every fetch stored a chapter. */
  lemma NeverFailingRun(ks: seq<string>, loaded: Progress, d: Progress, events: seq<C.Event>, hs: seq<C.Handling>)
    requires |hs| == |ks|
    requires C.SkipInv(ks, loaded, d, hs)
    requires C.CountOf(hs, C.GaveUp) == 0
    requires C.SaveCount(events) == C.CountOf(hs, C.Stored) == Size(d) - Size(loaded)
    requires C.FetchCount(events) == |hs| - C.CountOf(hs, C.Skipped)
    ensures forall p | 0 <= p < |ks| :: ks[p] in d.m
    ensures C.FetchCount(events) == Size(d) - Size(loaded)
  {
    C.CountOfZero(hs, C.GaveUp);
    CountOfKinds(hs);
  }

  /** Every item is handled one of the three ways. */
  lemma {:induction false} CountOfKinds(hs: seq<C.Handling>)
    ensures C.CountOf(hs, C.Skipped) + C.CountOf(hs, C.Stored) + C.CountOf(hs, C.GaveUp) == |hs|
  {
    if hs != [] {
      CountOfKinds(hs[..|hs| - 1]);
    }
  }

  /** A listed key that neither was loaded nor is the running key of a work
      item is still missing after the run, so a rerun lists its link again. */
  lemma MissedKeyListedAgain(cfg: Config, t: string, refs: seq<C.Ref>, store0: Store, codec: Codec, loaded: Progress,
                             fetch: C.Fetcher, progress: Progress, store: Store, events: seq<C.Event>, i: nat)
    requires LegacyRun(cfg, t, refs, store0, codec, loaded, fetch, C.Finished, progress, store, events)
    requires i < |refs|
    requires var work := Work(refs, loaded, cfg.maxChapters - Size(loaded));
             ListedKeys(refs)[i] !in loaded.m && ListedKeys(refs)[i] !in RunningKeys(work, 1)
    ensures ListedKeys(refs)[i] !in progress.m
    ensures refs[i].title in C.UncrawledChapters(refs, ListedKeys(refs), progress).m
  {
    var ks := RunningKeys(Work(refs, loaded, cfg.maxChapters - Size(loaded)), 1);
    assert FinishedRun(cfg, t, codec, loaded, fetch, ks, progress, store, events);
    MissingKeyStaysMissing(refs, ListedKeys(refs), loaded, ks, progress, i);
  }

  /** A key that neither was loaded nor is among the added keys `ks` is not
      in the final map, so its link is uncrawled again. */
  lemma MissingKeyStaysMissing(refs: seq<C.Ref>, lks: seq<string>, loaded: Progress, ks: seq<string>,
                               progress: Progress, i: nat)
    requires |lks| == |refs| && i < |refs|
    requires forall k | k in progress.m && k !in loaded.m :: k in ks
    requires lks[i] !in loaded.m && lks[i] !in ks
    ensures lks[i] !in progress.m
    ensures refs[i].title in C.UncrawledChapters(refs, lks, progress).m
  {
  }
}

=== FILE: legacy_titles.dfy ===
/**
  Chapter-title normalisation of the older root-level crawler (`utils.py`,
  `normalize_chapter_title`). Unlike the packaged copy, it really rewrites a
  title that lacks the chapter marker into `"第 n 章: caption"`, so its key
  depends on the counter whenever the title has no digit.
*/
module LegacyNormalizer {
  import opened Wrappers
  import opened Text
  import TN = TitleNormalizer

  /** `normalize_chapter_title(title, page_num)` of the root-level crawler.
      Every step of its `try` block is total here, so the `except` fallback
      is unreachable in this model (the digit limit of Python's `int()` is
      not modelled). */
  function Normalize(raw: string, pageNum: int): (r: (string, int))
    ensures StartsWith(r.0, TN.Marker)
    ensures !StartsWith(TN.CleanTitle(raw), TN.Marker) ==>
              StartsWith(r.0, "第 " + IntToString(r.1 - 1) + " 章")
  {
    var t := TN.CleanTitle(raw);
    if StartsWith(t, TN.Marker) then (t, pageNum + 1)
    else
      match FirstNumber(t)
      case Some(n) => (TN.ChapterHeading(n, Strip(TN.DropLeadingNumber(t))), n + 1)
      case None => (TN.ChapterHeading(pageNum, t), pageNum + 1)
  }

  /** A cleaned title that already carries the marker is returned unchanged
      and the counter steps on by one. */
  lemma MarkedTitleKept(raw: string, pageNum: int)
    requires StartsWith(TN.CleanTitle(raw), TN.Marker)
    ensures Normalize(raw, pageNum) == (TN.CleanTitle(raw), pageNum + 1)
  {
  }

  /** With a digit run, the counter becomes the run's value `n`: the key is
      `"第 n 章"` plus the caption left after a leading number is dropped, and
      the next counter is `n + 1`. */
  lemma NumberedTitleRewritten(raw: string, pageNum: int)
    requires !StartsWith(TN.CleanTitle(raw), TN.Marker)
    requires FirstNumber(TN.CleanTitle(raw)).Some?
    ensures var n := FirstNumber(TN.CleanTitle(raw)).value;
            var caption := Strip(TN.DropLeadingNumber(TN.CleanTitle(raw)));
            Normalize(raw, pageNum)
            == ("第 " + IntToString(n) + " 章" + (if caption == "" then "" else ": " + caption), n + 1)
  {
  }

  /** Without marker or digit, the key is `"第 counter 章"` plus the whole
      cleaned title, and the counter steps on by one. */
  lemma PlainTitleRewritten(raw: string, pageNum: int)
    requires !StartsWith(TN.CleanTitle(raw), TN.Marker)
    requires FirstNumber(TN.CleanTitle(raw)).None?
    ensures var t := TN.CleanTitle(raw);
            Normalize(raw, pageNum)
            == ("第 " + IntToString(pageNum) + " 章" + (if t == "" then "" else ": " + t), pageNum + 1)
  {
  }

  /** The key is independent of the counter when the cleaned title starts
      with the marker or contains a digit. */
  lemma KeyIndependentOfCounter(raw: string, c1: int, c2: int)
    requires StartsWith(TN.CleanTitle(raw), TN.Marker) || FirstNumber(TN.CleanTitle(raw)).Some?
    ensures Normalize(raw, c1).0 == Normalize(raw, c2).0
  {
  }

  /** Otherwise two different counters give two different keys. */
  lemma {:induction false} KeyDependsOnCounter(raw: string, c1: int, c2: int)
    requires !StartsWith(TN.CleanTitle(raw), TN.Marker) && FirstNumber(TN.CleanTitle(raw)).None?
    requires c1 != c2
    ensures Normalize(raw, c1).0 != Normalize(raw, c2).0
  {
    IntToStringInjective(c1, c2);
    var h1, h2 := Normalize(raw, c1).0, Normalize(raw, c2).0;
    var p1, p2 := "第 " + IntToString(c1) + " 章", "第 " + IntToString(c2) + " 章";
    assert StartsWith(h1, p1) && StartsWith(h2, p2);
    if h1 == h2 {
      PrefixesOfHeading(h1, IntToString(c1), IntToString(c2));
    }
  }

  /** Two headings that open the same string share the number between the
      marker and " 章": the number has no space in it. */
  lemma PrefixesOfHeading(h: string, a: string, b: string)
    requires ' ' !in a && ' ' !in b
    requires StartsWith(h, "第 " + a + " 章") && StartsWith(h, "第 " + b + " 章")
    ensures a == b
  {
    assert h[2 + |a|] == ' ' && h[2 + |b|] == ' ';
    assert forall k :: 0 <= k < |a| ==> h[2 + k] == a[k];
    assert forall k :: 0 <= k < |b| ==> h[2 + k] == b[k];
    assert |a| == |b| ==> a == h[2..2 + |a|] == b;
  }

  /** Only a leading digit run is dropped: a later run sets the counter but
      stays in the caption. */
  lemma LaterNumberStaysInCaption(raw: string, pageNum: int)
    requires !StartsWith(TN.CleanTitle(raw), TN.Marker)
    requires TN.CleanTitle(raw) != [] && !IsDigit(TN.CleanTitle(raw)[0])
    requires FirstNumber(TN.CleanTitle(raw)).Some?
    ensures var t := TN.CleanTitle(raw);
            Normalize(raw, pageNum) == (TN.ChapterHeading(FirstNumber(t).value, t), FirstNumber(t).value + 1)
  {
  }

  /** The two generations agree on the next counter for every input. */
  lemma CounterAgreesWithPackaged(raw: string, pageNum: int)
    ensures Normalize(raw, pageNum).1 == TN.Normalize(raw, pageNum).1
  {
  }

  /** The rewritten key is exactly the title the packaged helper formats and
      then discards. */
  lemma KeyIsDiscardedPackagedTitle(raw: string, pageNum: int)
    requires !StartsWith(TN.CleanTitle(raw), TN.Marker)
    ensures Normalize(raw, pageNum).0 == TN.ExtractAndFormatTitle(TN.CleanTitle(raw), pageNum).0
  {
  }

  /** `normalize("456 测试内容", 1)` gives `("第 456 章: 测试内容", 457)`. */
  lemma NumberedTitleExample()
    ensures Normalize("456 测试内容", 1) == ("第 456 章: 测试内容", 457)
  {
    var s := "456 测试内容";
    TN.NumberedSampleClean();
    TN.NumberedSampleNumber();
    TN.NumberedSampleUnmarked();
    NumberedTitleRewritten(s, 1);
    TN.NumberedSampleCaption();
    CaptionIsStripped();
    NumberedSampleHeading();
  }

  lemma CaptionIsStripped()
    ensures Strip("测试内容") == "测试内容"
  {
    assert NoEdgeSpace("测试内容");
    StripOfClean("测试内容");
  }

  lemma NumberedSampleHeading()
    ensures TN.ChapterHeading(456, "测试内容") == "第 456 章: 测试内容"
  {
    assert IntToString(456) == "456" by {
      assert NatToString(4) == "4";
      assert NatToString(45) == "45";
    }
  }

  /** The same plain title gets different keys at different counters, which
      is why a rerun does not recognise a chapter stored under the running
      counter. */
  lemma PlainTitleExample()
    ensures Normalize("测试章节", 1).0 == "第 1 章: 测试章节"
    ensures Normalize("测试章节", 2).0 == "第 2 章: 测试章节"
  {
    TN.PlainSampleFacts();
    PlainTitleRewritten("测试章节", 1);
    PlainTitleRewritten("测试章节", 2);
  }
}

=== FILE: ordered_dict.dfy ===
/**
  A Python `dict`: a finite map whose keys remember the order of their first
  insertion. Assigning to a present key changes its value in place; assigning
  to a new key appends it. `len(d)` is the number of keys.
*/
module OrderedDict {

  datatype Dict<K(==), V> = Dict(keys: seq<K>, m: map<K, V>)

  /** Keys are pairwise distinct and are exactly the keys of the mapping. */
  ghost predicate Valid<K, V>(d: Dict<K, V>) {
    && (forall i, j :: 0 <= i < j < |d.keys| ==> d.keys[i] != d.keys[j])
    && (forall k | k in d.m :: k in d.keys)
    && (forall i | 0 <= i < |d.keys| :: d.keys[i] in d.m)
  }

  function Empty<K, V>(): (d: Dict<K, V>)
    ensures Valid(d) && Size(d) == 0 && d.m == map[]
  {
    Dict([], map[])
  }

  /** `len(d)`. */
  function Size<K, V>(d: Dict<K, V>): nat {
    |d.keys|
  }

  /** `d[k] = v`: the value of `k` becomes `v`, nothing else changes, and a
      key not present before is placed last. */
  function Put<K, V>(d: Dict<K, V>, k: K, v: V): (r: Dict<K, V>)
    requires Valid(d)
    ensures Valid(r)
    ensures r.m == d.m[k := v]
    ensures k in d.m ==> r.keys == d.keys
    ensures k !in d.m ==> r.keys == d.keys + [k]
    ensures Size(r) == if k in d.m then Size(d) else Size(d) + 1
  {
    if k in d.m then Dict(d.keys, d.m[k := v]) else Dict(d.keys + [k], d.m[k := v])
  }

  /** `list(d.values())`: the values in key order. */
  function Values<K, V>(d: Dict<K, V>): (vs: seq<V>)
    requires Valid(d)
    ensures |vs| == Size(d)
    ensures forall i :: 0 <= i < |vs| ==> vs[i] == d.m[d.keys[i]]
  {
    seq(|d.keys|, i requires 0 <= i < |d.keys| => d.m[d.keys[i]])
  }

  /** `e` holds every entry of `d` unchanged, and `d`'s keys open `e`'s key order. */
  ghost predicate Extends<K, V>(e: Dict<K, V>, d: Dict<K, V>) {
    && |d.keys| <= |e.keys|
    && e.keys[..|d.keys|] == d.keys
    && forall k | k in d.m :: k in e.m && e.m[k] == d.m[k]
  }

  lemma ExtendsTransitive<K, V>(a: Dict<K, V>, b: Dict<K, V>, c: Dict<K, V>)
    requires Extends(b, a) && Extends(c, b)
    ensures Extends(c, a)
  {
    assert c.keys[..|a.keys|] == c.keys[..|b.keys|][..|a.keys|];
  }

  /** Putting a new key extends the dictionary. */
  lemma PutNewExtends<K, V>(d: Dict<K, V>, k: K, v: V)
    requires Valid(d) && k !in d.m
    ensures Extends(Put(d, k, v), d)
  {
  }

  /** An extension of the same size is the dictionary itself. */
  lemma ExtendsSameSize<K, V>(e: Dict<K, V>, d: Dict<K, V>)
    requires Valid(e) && Valid(d) && Extends(e, d) && Size(e) == Size(d)
    ensures e == d
  {
    assert e.keys == e.keys[..|d.keys|];
    assert e.m.Keys == d.m.Keys by {
      forall k | k in e.m ensures k in d.m {
        var i :| 0 <= i < |e.keys| && e.keys[i] == k;
        assert d.keys[i] == k;
      }
    }
  }
}

=== FILE: progress_store.dfy ===
/**
  The crawl's saved progress (`src/utils.py`): a JSON file `<title>.json` holding
  the chapter map, and the finished text `<title>.txt`.

  Files are a map from path to content. JSON serialisation is a parameter: a
  `Codec` of an encoder and a decoder, with the laws a JSON library keeps
  stated as the ghost predicate `Lawful`.
*/
module ProgressStore {
  import opened Wrappers
  import opened Text
  import opened OrderedDict

  /** The chapter map: key to stored chapter text, in insertion order. */
  type Progress = Dict<string, string>

  /** A file of the crawl: the progress file or the text file of a novel. */
  datatype Path = JsonFile(title: string) | TxtFile(title: string)

  /** The file system: path to file content; a path is present iff the file exists. */
  type Store = map<Path, string>

  datatype Codec = Codec(encode: Progress -> string, decode: string -> Option<Progress>)

  /** The text a cleared progress file holds. */
  const EmptyJson: string := "{}"

  /** What the crawler relies on from `json.dump` / `json.loads`: decoding what
      was encoded gives the map back (keys in the same order), the encoding of
      a map is a non-empty JSON object with no surrounding whitespace, `"{}"` is
      the empty map, and only well-formed maps are decoded. */
  ghost predicate Lawful(c: Codec) {
    && (forall d: Progress | Valid(d) :: c.decode(c.encode(d)) == Some(d))
    && (forall d: Progress | Valid(d) :: c.encode(d) != [] && NoEdgeSpace(c.encode(d)))
    && c.decode(EmptyJson) == Some(Empty())
    && (forall s :: c.decode(s).Some? ==> Valid(c.decode(s).value))
  }

  /** `f"{title}.json"`; the `"./"` prefix used when loading names the same file. */
  function JsonPath(title: string): Path {
    JsonFile(title)
  }

  /** `f"{title}.txt"`. */
  function TxtPath(title: string): Path {
    TxtFile(title)
  }

  /** The file name a path stands for. */
  function PathName(p: Path): (name: string)
    ensures p.JsonFile? ==> EndsWith(name, ".json") && StartsWith(name, p.title) && |name| == |p.title| + 5
    ensures p.TxtFile? ==> EndsWith(name, ".txt") && StartsWith(name, p.title) && |name| == |p.title| + 4
  {
    match p
    case JsonFile(t) => t + ".json"
    case TxtFile(t) => t + ".txt"
  }

  /** Two paths name the same file exactly when they are the same path, so a
      map keyed by paths is a map keyed by file names. */
  lemma PathNameInjective(p: Path, q: Path)
    ensures PathName(p) == PathName(q) <==> p == q
  {
    if PathName(p) == PathName(q) {
      var n := PathName(p);
      PathNameLast(p);
      PathNameLast(q);
      assert p.JsonFile? == q.JsonFile?;
      assert |p.title| == |q.title|;
      assert p.title == n[..|p.title|] == q.title;
    }
  }

  /** The last letter of a file name tells the kind of file. */
  lemma PathNameLast(p: Path)
    ensures |PathName(p)| > 0
    ensures PathName(p)[|PathName(p)| - 1] == if p.JsonFile? then 'n' else 't'
  {
  }

  /** `save_chapter_to_json`: the whole map is written over the progress file. */
  function SaveChapterToJson(store: Store, c: Codec, title: string, d: Progress): (r: Store)
    ensures r.Keys == store.Keys + {JsonPath(title)}
    ensures forall p | p in store && p != JsonPath(title) :: r[p] == store[p]
  {
    store[JsonPath(title) := c.encode(d)]
  }

  /** `load_existing_json`: the empty map when the file is absent, when its
      content is only whitespace, or when it does not decode; otherwise the
      decoded map. */
  function LoadExistingJson(store: Store, c: Codec, title: string): (d: Progress)
    ensures JsonPath(title) !in store ==> d == Empty()
    ensures JsonPath(title) in store && Strip(store[JsonPath(title)]) == [] ==> d == Empty()
    ensures JsonPath(title) in store && c.decode(Strip(store[JsonPath(title)])).None? ==> d == Empty()
    ensures JsonPath(title) in store && Strip(store[JsonPath(title)]) != []
            && c.decode(Strip(store[JsonPath(title)])).Some?
            ==> d == c.decode(Strip(store[JsonPath(title)])).value
    ensures Lawful(c) ==> Valid(d)
  {
    var p := JsonPath(title);
    if p !in store then Empty()
    else
      var content := Strip(store[p]);
      if content == [] then Empty()
      else
        match c.decode(content)
        case Some(d) => d
        case None => Empty()
  }

  /** Loading right after a save gives back the saved map. */
  lemma LoadAfterSave(store: Store, c: Codec, title: string, d: Progress)
    requires Lawful(c) && Valid(d)
    ensures LoadExistingJson(SaveChapterToJson(store, c, title, d), c, title) == d
  {
    var e := c.encode(d);
    assert NoEdgeSpace(e) && e != [];
    StripOfClean(e);
    assert Strip(e) == e;
  }

  /** A cleared progress file loads as the empty map. */
  lemma LoadOfEmptyJson(store: Store, c: Codec, title: string)
    requires Lawful(c)
    requires JsonPath(title) in store && store[JsonPath(title)] == EmptyJson
    ensures LoadExistingJson(store, c, title) == Empty()
  {
    assert NoEdgeSpace(EmptyJson);
    StripOfClean(EmptyJson);
    assert Strip(EmptyJson) == EmptyJson;
  }
}

=== FILE: safe_filename.dfy ===
/**
  File names for saved debug pages (`_get_safe_filename` and
  `_extract_filename_from_url` in `src/utils.py`).

  The name is the page title without the characters `/:*?"<>|`; a title that
  keeps fewer than two characters is replaced by the last usable segment of
  the URL, and as a last resort by `chapter_<hash(url) % 1000>`. The URL
  segment is not filtered, so it can still carry a `:`.
*/
module SafeFilename {
  import opened Text
  import opened Sequences

  /** `INVALID_FILENAME_CHARS`. */
  const InvalidChars: set<char> := {'/', ':', '*', '?', '"', '<', '>', '|'}

  /** `''.join(char for char in title if char not in INVALID_FILENAME_CHARS)`. */
  function StripInvalidChars(title: string): (r: string)
    ensures forall c | c in r :: c !in InvalidChars
    ensures forall c | c in title && c !in InvalidChars :: c in r
    ensures forall c :: multiset(r)[c] == if c in InvalidChars then 0 else multiset(title)[c]
    ensures |r| <= |title|
  {
    DropCounts(title, InvalidChars);
    Drop(title, InvalidChars)
  }

  /** The filter works character by character: it distributes over
      concatenation and removes a single character exactly when it is
      invalid, so the kept characters stay in their order. */
  lemma StripInvalidCharsAppend(a: string, b: string)
    ensures StripInvalidChars(a + b) == StripInvalidChars(a) + StripInvalidChars(b)
  {
    DropAppend(a, b, InvalidChars);
  }

  lemma StripInvalidCharsOfChar(c: char)
    ensures StripInvalidChars([c]) == if c in InvalidChars then [] else [c]
  {
    DropOne(c, InvalidChars);
  }

  /** A title without invalid characters is kept whole, so filtering twice
      is filtering once. */
  lemma StripInvalidCharsOfValid(title: string)
    requires forall c | c in title :: c !in InvalidChars
    ensures StripInvalidChars(title) == title
  {
    DropNone(title, InvalidChars);
  }

  lemma StripInvalidCharsIdempotent(title: string)
    ensures StripInvalidChars(StripInvalidChars(title)) == StripInvalidChars(title)
  {
    StripInvalidCharsOfValid(StripInvalidChars(title));
  }

  /** A URL segment the fallback accepts: longer than one character and not
      ending in ".html" (a non-empty segment is implied by the length). */
  predicate UsableSegment(part: string) {
    part != [] && !EndsWith(part, ".html") && |part| > 1
  }

  /** The index of the last usable segment of `parts`, or -1 when there is none. */
  function LastUsable(parts: seq<string>): (k: int)
    ensures -1 <= k < |parts|
    ensures k >= 0 ==> UsableSegment(parts[k])
    ensures forall j | k < j < |parts| :: !UsableSegment(parts[j])
  {
    if parts == [] then -1
    else
      var n := |parts| - 1;
      if UsableSegment(parts[n]) then n
      else
        var k := LastUsable(parts[..n]);
        assert forall j | k < j < n :: parts[..n][j] == parts[j];
        k
  }

  /** `_extract_filename_from_url(url)`: scanning the slash-separated parts
      from the end, the first one longer than one character that does not end
      in ".html"; "" when there is none. */
  function ExtractFilenameFromUrl(url: string): (r: string)
    ensures r != "" ==> |r| > 1 && '/' !in r && !EndsWith(r, ".html")
    ensures r != "" ==> r in Split(url, '/')
    ensures r == "" <==> forall j | 0 <= j < |Split(url, '/')| :: !UsableSegment(Split(url, '/')[j])
    ensures r != "" ==> exists k | 0 <= k < |Split(url, '/')| ::
              && r == Split(url, '/')[k]
              && forall j | k < j < |Split(url, '/')| :: !UsableSegment(Split(url, '/')[j])
  {
    var parts := Split(url, '/');
    var k := LastUsable(parts);
    if k < 0 then "" else parts[k]
  }

  /** `f"chapter_{hash(url) % 1000}"`; `hash` is randomised per process, so
      its value is a parameter. Python's `%` by a positive number agrees with
      Dafny's. */
  function HashName(urlHash: int): (r: string)
    ensures r != "" && '/' !in r
    ensures 8 < |r| <= 11 && r[..8] == "chapter_"
    ensures AllDigits(r[8..]) && DigitsValue(r[8..]) == urlHash % 1000
  {
    NatToStringRoundTrip(urlHash % 1000);
    NatToStringBelowThousand(urlHash % 1000);
    var r := "chapter_" + IntToString(urlHash % 1000);
    assert r[8..] == NatToString(urlHash % 1000);
    r
  }

  /** `_get_safe_filename(title, url)` with `hash(url) == urlHash`. */
  function GetSafeFilename(title: string, url: string, urlHash: int): (r: string)
    ensures r != ""
    ensures '/' !in r
    ensures |StripInvalidChars(title)| >= 2 ==> r == StripInvalidChars(title)
    ensures |StripInvalidChars(title)| >= 2 ==> forall c | c in r :: c !in InvalidChars
    ensures |StripInvalidChars(title)| < 2 && ExtractFilenameFromUrl(url) != "" ==> r == ExtractFilenameFromUrl(url)
    ensures |StripInvalidChars(title)| < 2 && ExtractFilenameFromUrl(url) == "" ==> r == HashName(urlHash)
  {
    var safe := StripInvalidChars(title);
    if |safe| < 2 then
      var fromUrl := ExtractFilenameFromUrl(url);
      if fromUrl != "" then fromUrl else HashName(urlHash)
    else safe
  }

  /** Invalid characters are removed from a title that keeps enough of them. */
  lemma InvalidCharsRemovedExample(url: string, urlHash: int)
    ensures var r := GetSafeFilename("测试/文件:名?称", url, urlHash);
            '/' !in r && ':' !in r && '?' !in r
  {
    var t := "测试/文件:名?称";
    assert t[0] == '测' && t[1] == '试';
    TwoValidKept(t, 0, 1);
  }

  /** The URL segment is returned unfiltered: a title with fewer than two
      valid characters and a URL without slashes give a name with ':'. */
  lemma ColonThroughUrlFallback(urlHash: int)
    ensures GetSafeFilename("", "http:", urlHash) == "http:"
    ensures ':' in GetSafeFilename("", "http:", urlHash)
  {
    assert StripInvalidChars("") == "";
    assert '/' !in "http:";
    assert Split("http:", '/') == ["http:"];
    assert UsableSegment("http:");
  }

  /** `_get_safe_filename` with the URL segment filtered like the title, as
      the function's purpose asks: no invalid character survives on any path. */
  function GetSafeFilenameFiltered(title: string, url: string, urlHash: int): (r: string)
    ensures r != ""
    ensures forall c | c in r :: c !in InvalidChars
    ensures |StripInvalidChars(title)| >= 2 ==> r == StripInvalidChars(title)
    ensures |StripInvalidChars(title)| < 2 && StripInvalidChars(ExtractFilenameFromUrl(url)) != ""
            ==> r == StripInvalidChars(ExtractFilenameFromUrl(url))
    ensures |StripInvalidChars(title)| < 2 && StripInvalidChars(ExtractFilenameFromUrl(url)) == ""
            ==> r == HashName(urlHash)
  {
    var safe := StripInvalidChars(title);
    if |safe| < 2 then
      var fromUrl := StripInvalidChars(ExtractFilenameFromUrl(url));
      if fromUrl != "" then fromUrl
      else
        HashNameIsValid(urlHash);
        HashName(urlHash)
    else safe
  }

  /** The hash fallback is `chapter_` followed by the digits of a number below 1000. */
  lemma HashNameIsValid(urlHash: int)
    ensures forall c | c in HashName(urlHash) :: c !in InvalidChars
  {
    var r := HashName(urlHash);
    forall i | 0 <= i < |r|
      ensures r[i] !in InvalidChars
    {
      if i < 8 {
        assert r[i] == r[..8][i];
      } else {
        assert r[i] == r[8..][i - 8];
        assert IsDigit(r[8..][i - 8]);
      }
    }
  }


  /** Both versions agree whenever the title keeps at least two characters. */
  lemma FilteredAgreesOnTitles(title: string, url: string, urlHash: int)
    requires |StripInvalidChars(title)| >= 2
    ensures GetSafeFilenameFiltered(title, url, urlHash) == GetSafeFilename(title, url, urlHash)
  {
  }

  /** A title with two different valid characters keeps at least two. */
  lemma TwoValidKept(t: string, i: nat, j: nat)
    requires i < |t| && j < |t| && t[i] != t[j]
    requires t[i] !in InvalidChars && t[j] !in InvalidChars
    ensures |StripInvalidChars(t)| >= 2
  {
    TwoMembers(StripInvalidChars(t), t[i], t[j]);
  }

  /** A string holding two different characters has at least two. */
  lemma TwoMembers(r: string, a: char, b: char)
    requires a in r && b in r && a != b
    ensures |r| >= 2
  {
  }
}

=== FILE: sequences.dfy ===
/**
  Facts about sequences used by the assembly of the final text: duplicate
  freedom, splitting a sequence by membership in a set, and how both relate
  to multisets.
*/
module Sequences {

  ghost predicate Distinct<T>(s: seq<T>) {
    forall i, j :: 0 <= i < j < |s| ==> s[i] != s[j]
  }

  /** The elements of `s` that lie in `keep`, in their order in `s`. */
  function Keep<T>(s: seq<T>, keep: set<T>): (r: seq<T>)
    ensures forall x | x in r :: x in s && x in keep
    ensures forall x | x in s && x in keep :: x in r
    ensures |r| <= |s|
  {
    if s == [] then []
    else if s[0] in keep then [s[0]] + Keep(s[1..], keep)
    else Keep(s[1..], keep)
  }

  /** The elements of `s` that lie outside `drop`, in their order in `s`. */
  function Drop<T>(s: seq<T>, drop: set<T>): (r: seq<T>)
    ensures forall x | x in r :: x in s && x !in drop
    ensures forall x | x in s && x !in drop :: x in r
    ensures |r| <= |s|
  {
    if s == [] then []
    else if s[0] in drop then Drop(s[1..], drop)
    else [s[0]] + Drop(s[1..], drop)
  }

  /** Filtering distributes over concatenation, so the kept elements stay in
      their order and with their multiplicity. */
  lemma {:induction false} KeepAppend<T>(a: seq<T>, b: seq<T>, keep: set<T>)
    ensures Keep(a + b, keep) == Keep(a, keep) + Keep(b, keep)
  {
    if a != [] {
      KeepAppend(a[1..], b, keep);
      assert (a + b)[1..] == a[1..] + b;
    } else {
      assert a + b == b;
    }
  }

  lemma {:induction false} DropAppend<T>(a: seq<T>, b: seq<T>, drop: set<T>)
    ensures Drop(a + b, drop) == Drop(a, drop) + Drop(b, drop)
  {
    if a != [] {
      DropAppend(a[1..], b, drop);
      assert (a + b)[1..] == a[1..] + b;
    } else {
      assert a + b == b;
    }
  }

  /** On one element, dropping removes it exactly when it is in the set. */
  lemma DropOne<T>(x: T, drop: set<T>)
    ensures Drop([x], drop) == if x in drop then [] else [x]
  {
    assert [x][1..] == [];
  }

  /** Dropping keeps every element outside the set as often as it occurs. */
  lemma DropCounts<T>(s: seq<T>, drop: set<T>)
    ensures multiset(Drop(s, drop)) <= multiset(s)
    ensures forall x :: multiset(Drop(s, drop))[x] == if x in drop then 0 else multiset(s)[x]
  {
    KeepDropSplit(s, drop);
    forall x ensures multiset(Drop(s, drop))[x] == if x in drop then 0 else multiset(s)[x] {
      if x in drop {
        assert x !in Drop(s, drop);
      } else {
        assert x !in Keep(s, drop);
      }
    }
  }

  /** Keeping and dropping the same set splits `s` without loss or repetition. */
  lemma {:induction false} KeepDropSplit<T>(s: seq<T>, a: set<T>)
    ensures multiset(Keep(s, a)) + multiset(Drop(s, a)) == multiset(s)
  {
    if s != [] {
      var t := s[1..];
      KeepDropSplit(t, a);
      assert s == [s[0]] + t;
      assert multiset(s) == multiset{s[0]} + multiset(t);
      if s[0] in a {
        assert multiset(Keep(s, a)) == multiset{s[0]} + multiset(Keep(t, a)) by {
          assert Keep(s, a) == [s[0]] + Keep(t, a);
        }
        assert Drop(s, a) == Drop(t, a);
      } else {
        assert multiset(Drop(s, a)) == multiset{s[0]} + multiset(Drop(t, a)) by {
          assert Drop(s, a) == [s[0]] + Drop(t, a);
        }
        assert Keep(s, a) == Keep(t, a);
      }
    }
  }

  /** Filtering keeps duplicate freedom. */
  lemma {:induction false} KeepDistinct<T>(s: seq<T>, a: set<T>)
    requires Distinct(s)
    ensures Distinct(Keep(s, a))
  {
    if s != [] {
      assert Distinct(s[1..]) by {
        forall i, j | 0 <= i < j < |s[1..]| ensures s[1..][i] != s[1..][j] {
          assert s[1..][i] == s[i + 1] && s[1..][j] == s[j + 1];
        }
      }
      KeepDistinct(s[1..], a);
      if s[0] in a {
        assert s[0] !in s[1..] by {
          forall i | 0 <= i < |s[1..]| ensures s[1..][i] != s[0] {
            assert s[1..][i] == s[i + 1];
          }
        }
      }
    }
  }

  lemma {:induction false} DropDistinct<T>(s: seq<T>, a: set<T>)
    requires Distinct(s)
    ensures Distinct(Drop(s, a))
  {
    if s != [] {
      assert Distinct(s[1..]) by {
        forall i, j | 0 <= i < j < |s[1..]| ensures s[1..][i] != s[1..][j] {
          assert s[1..][i] == s[i + 1] && s[1..][j] == s[j + 1];
        }
      }
      DropDistinct(s[1..], a);
      if s[0] !in a {
        assert s[0] !in s[1..] by {
          forall i | 0 <= i < |s[1..]| ensures s[1..][i] != s[0] {
            assert s[1..][i] == s[i + 1];
          }
        }
      }
    }
  }

  /** A duplicate-free sequence counts every element once. */
  lemma {:induction false} DistinctMultiset<T>(s: seq<T>)
    requires Distinct(s)
    ensures multiset(s) == multiset(set x | x in s)
  {
    if s != [] {
      var t := s[1..];
      assert Distinct(t) by {
        forall i, j | 0 <= i < j < |t| ensures t[i] != t[j] {
          assert t[i] == s[i + 1] && t[j] == s[j + 1];
        }
      }
      DistinctMultiset(t);
      assert s[0] !in t by {
        forall i | 0 <= i < |t| ensures t[i] != s[0] {
          assert t[i] == s[i + 1];
        }
      }
      assert s == [s[0]] + t;
      assert (set x | x in s) == {s[0]} + (set x | x in t);
    }
  }

  /** Two duplicate-free sequences with the same elements are permutations of each other. */
  lemma SameElementsMultiset<T>(a: seq<T>, b: seq<T>)
    requires Distinct(a) && Distinct(b)
    requires forall x :: x in a <==> x in b
    ensures multiset(a) == multiset(b)
  {
    DistinctMultiset(a);
    DistinctMultiset(b);
    assert (set x | x in a) == (set x | x in b);
  }

  /** A sequence with the multiset of a duplicate-free one is duplicate free. */
  lemma MultisetDistinct<T>(a: seq<T>, b: seq<T>)
    requires Distinct(b) && multiset(a) == multiset(b)
    ensures Distinct(a)
  {
    DistinctMultiset(b);
    forall i, j | 0 <= i < j < |a| ensures a[i] != a[j] {
      RepeatCountsTwice(a, i, j);
    }
  }

  lemma RepeatCountsTwice<T>(a: seq<T>, i: nat, j: nat)
    requires i < j < |a|
    ensures a[i] == a[j] ==> multiset(a)[a[i]] >= 2
  {
    assert a == a[..j] + a[j..];
    assert a[i] in a[..j] && a[j] in a[j..];
  }

  /** Joining two duplicate-free sequences with no common element keeps duplicate freedom. */
  lemma DistinctConcat<T>(a: seq<T>, b: seq<T>)
    requires Distinct(a) && Distinct(b)
    requires forall x | x in a :: x !in b
    ensures Distinct(a + b)
  {
    forall i, j | 0 <= i < j < |a + b| ensures (a + b)[i] != (a + b)[j] {
      if j < |a| {
        assert (a + b)[i] == a[i] && (a + b)[j] == a[j];
      } else if |a| <= i {
        assert (a + b)[i] == b[i - |a|] && (a + b)[j] == b[j - |a|];
      } else {
        assert (a + b)[i] == a[i] && (a + b)[j] == b[j - |a|];
        assert a[i] in a;
      }
    }
  }

  /** Keeping a set that holds every element changes nothing. */
  lemma {:induction false} KeepAll<T>(s: seq<T>, keep: set<T>)
    requires forall x | x in s :: x in keep
    ensures Keep(s, keep) == s
  {
    if s != [] {
      KeepAll(s[1..], keep);
      assert s == [s[0]] + s[1..];
    }
  }

  /** Dropping a set that holds no element changes nothing. */
  lemma {:induction false} DropNone<T>(s: seq<T>, drop: set<T>)
    requires forall x | x in s :: x !in drop
    ensures Drop(s, drop) == s
  {
    if s != [] {
      DropNone(s[1..], drop);
      assert s == [s[0]] + s[1..];
    }
  }
}

=== FILE: shuwu.dfy ===
/**
  The pure helpers of the 77shuwu site crawler (`src/crawer_77shuwu.py`): the
  novel title filter, the novel id in the homepage URL, the test for chapter
  links, the filter over the page's anchors, the deduplication and ordering of
  the links found, and the fetcher wrapper that turns every failure into a
  placeholder chapter.

  The HTML parsing itself is not modelled: an anchor is its `href` and its
  text, and the title tag is an optional text.
*/
module Shuwu {
  import opened Wrappers
  import opened Text
  import opened Sequences
  import opened Sorting
  import SF = SafeFilename
  import TN = TitleNormalizer
  import C = Crawler
  import PS = ProgressStore
  import OD = OrderedDict

  // ---------------------------------------------------------------------
  // Novel title

  /** The title used when the page has neither `<h1>` nor `<title>`. */
  const UnknownNovel: string := "未知小说"

  /** `_extract_novel_title`: the stripped text of the title tag without the
      characters `/:*?"<>|`, or the placeholder when there is no tag. */
  function ExtractNovelTitle(tag: Option<string>): (t: string)
    ensures tag.Some? ==> forall c | c in t :: c !in SF.InvalidChars && c in tag.value
    ensures tag.Some? ==> forall c | c in Strip(tag.value) && c !in SF.InvalidChars :: c in t
    ensures tag.Some? ==> forall c :: multiset(t)[c] == if c in SF.InvalidChars then 0 else multiset(Strip(tag.value))[c]
    ensures tag.None? ==> t == UnknownNovel
  {
    StripDropsSpace(if tag.Some? then tag.value else "");
    match tag
    case None => UnknownNovel
    case Some(text) => SF.StripInvalidChars(Strip(text))
  }

  /** The title filter keeps the order of the characters it keeps: the
      title of a stripped text `a + b` is the filtered `a` followed by the
      filtered `b`. */
  lemma NovelTitleKeepsOrder(text: string, a: string, b: string)
    requires Strip(text) == a + b
    ensures ExtractNovelTitle(Some(text)) == SF.StripInvalidChars(a) + SF.StripInvalidChars(b)
  {
    SF.StripInvalidCharsAppend(a, b);
  }

  /** A title tag that is clean already gives its own text. */
  lemma NovelTitleExample()
    ensures ExtractNovelTitle(Some("测试小说")) == "测试小说"
  {
    var s := "测试小说";
    assert NoEdgeSpace(s);
    StripOfClean(s);
    assert forall c | c in s :: c !in SF.InvalidChars;
    SF.StripInvalidCharsOfValid(s);
  }

  // ---------------------------------------------------------------------
  // Novel id

  const NovelPrefix: string := "/novel/"

  /** `re.search(r'/novel/(\d+)/', url)` matches at `i`. The greedy digit run
      can only be followed by '/' at its maximal end, since '/' is no digit,
      so the pattern matches exactly when the maximal run after the prefix is
      non-empty and followed by '/'. */
  predicate IdMatchAt(url: string, i: nat) {
    && i + 7 <= |url|
    && url[i..i + 7] == NovelPrefix
    && var j := DigitRunEnd(url, i + 7);
       i + 7 < j < |url| && url[j] == '/'
  }

  /** The leftmost match at or after `i`, or `|url|` when there is none. */
  function FirstIdMatch(url: string, i: nat): (k: nat)
    requires i <= |url|
    ensures i <= k <= |url|
    ensures k < |url| ==> IdMatchAt(url, k)
    ensures forall j | i <= j < k :: !IdMatchAt(url, j)
    decreases |url| - i
  {
    if i == |url| then |url|
    else if IdMatchAt(url, i) then i
    else FirstIdMatch(url, i + 1)
  }

  /** `_extract_novel_id(url)`: the digits of the leftmost `/novel/<digits>/`,
      or "" when the URL has none. */
  function ExtractNovelId(url: string): (id: string)
    ensures id != "" ==> AllDigits(id)
    ensures id == "" <==> forall j | 0 <= j < |url| :: !IdMatchAt(url, j)
  {
    var k := FirstIdMatch(url, 0);
    if k == |url| then "" else url[k + 7..DigitRunEnd(url, k + 7)]
  }

  /** The id of the leftmost match is the digit run right after its prefix. */
  lemma NovelIdOfFirstMatch(url: string, k: nat)
    requires k < |url| && IdMatchAt(url, k)
    requires forall j | 0 <= j < k :: !IdMatchAt(url, j)
    ensures ExtractNovelId(url) == url[k + 7..DigitRunEnd(url, k + 7)]
  {
    assert FirstIdMatch(url, 0) == k;
  }

  /** A homepage URL `host + "/novel/" + digits + "/"` whose host has no 'n'
      gives `digits` as the novel id (the unit test uses the host
      "http://test.com" and the digits "456"). */
  lemma NovelIdOfHomepage(host: string, digits: string)
    requires 'n' !in host && digits != "" && AllDigits(digits)
    ensures ExtractNovelId(host + NovelPrefix + digits + "/") == digits
  {
    var u := host + NovelPrefix + digits + "/";
    var i := |host|;
    var e := i + 7 + |digits|;
    assert u[i..i + 7] == NovelPrefix;
    assert u[i + 7..e] == digits;
    assert u[e] == '/';
    var k := DigitRunEnd(u, i + 7);
    assert !IsDigit(u[e]);
    assert k == e;
    assert IdMatchAt(u, i);
    forall j | 0 <= j < i ensures !IdMatchAt(u, j) {
      assert u[j + 1] == (if j + 1 < i then host[j + 1] else '/');
      assert u[j..j + 7][1] == u[j + 1];
    }
    NovelIdOfFirstMatch(u, i);
  }

  // ---------------------------------------------------------------------
  // Chapter links

  /** The third rule: a `/novel/` link to a page rather than a directory,
      with at least three slashes. */
  predicate NovelPageLink(href: string) {
    StartsWith(href, "/novel/") && !EndsWith(href, "/") && CountChar(href, '/') >= 3
  }

  /** `_is_chapter_link(href, novel_id)`. */
  predicate IsChapterLink(href: string, novelId: string) {
    || (novelId != "" && Contains(href, "/chapter/" + novelId + "/"))
    || StartsWith(href, "/chapter/")
    || NovelPageLink(href)
  }

  /** A link under `/chapter/` is a chapter link whatever the novel id. */
  lemma ChapterPrefixAccepted(href: string, novelId: string)
    requires StartsWith(href, "/chapter/")
    ensures IsChapterLink(href, novelId)
  {
  }

  /** Without a novel id only the two prefix rules apply. */
  lemma EmptyIdUsesPrefixRules(href: string)
    ensures IsChapterLink(href, "") <==> StartsWith(href, "/chapter/") || NovelPageLink(href)
  {
  }

  /** A link that mentions no `/chapter/` and does not start with `/novel/`
      is never a chapter link. */
  lemma OtherLinksRejected(href: string, novelId: string)
    requires !Contains(href, "/chapter/") && !StartsWith(href, "/novel/")
    ensures !IsChapterLink(href, novelId)
  {
    NoPatternNoExtension(href, "/chapter/", novelId + "/");
    assert "/chapter/" + novelId + "/" == "/chapter/" + (novelId + "/");
    NoPatternNoPrefix(href, "/chapter/");
  }

  /** A string without `p` has no `p + q` in it either. */
  lemma NoPatternNoExtension(s: string, p: string, q: string)
    requires !Contains(s, p)
    ensures !Contains(s, p + q)
  {
    var pq := p + q;
    forall k | OccursAt(s, pq, k) ensures OccursAt(s, p, k) {
      assert s[k..k + |p|] == s[k..k + |pq|][..|p|];
    }
    ContainsIffOccurs(s, p);
    ContainsIffOccurs(s, pq);
  }

  /** A string without `p` does not start with `p`. */
  lemma NoPatternNoPrefix(s: string, p: string)
    requires !Contains(s, p)
    ensures !StartsWith(s, p)
  {
    ContainsIffOccurs(s, p);
    assert !OccursAt(s, p, 0);
  }

  /** The three links of the unit tests. */
  lemma ChapterLinkExamples()
    ensures IsChapterLink("/chapter/123/1.html", "123")
    ensures IsChapterLink("/chapter/456/2.html", "")
    ensures !IsChapterLink("/author/test", "123")
  {
    assert StartsWith("/chapter/123/1.html", "/chapter/");
    assert StartsWith("/chapter/456/2.html", "/chapter/");
    var h := "/author/test";
    assert !StartsWith(h, "/novel/") by { assert h[1] != NovelPrefix[1]; }
    assert !StartsWith(h, "/chapter/") by { assert h[1] != 'c'; }
    ShortHasNoOccurrence(h, "/chapter/" + "123" + "/");
  }

  // ---------------------------------------------------------------------
  // The anchor filter of `_extract_chapter_links`

  /** An `<a href>` element: its `href` and its text before stripping. */
  datatype Anchor = Anchor(href: string, text: string)

  /** The anchor is kept: its stripped text is not empty, at most 50
      characters long and not the "read now" button, and its `href` is a
      chapter link. */
  predicate KeepsAnchor(a: Anchor, novelId: string) {
    var t := Strip(a.text);
    t != "" && |t| <= 50 && t != TN.Noise && IsChapterLink(a.href, novelId)
  }

  /** `base_url + href` for a site-relative `href`, otherwise `href`. */
  function FullUrl(baseUrl: string, href: string): (u: string)
    ensures StartsWith(href, "/") ==> EndsWith(u, href) && StartsWith(u, baseUrl) && |u| == |baseUrl| + |href|
    ensures !StartsWith(href, "/") ==> u == href
  {
    if StartsWith(href, "/") then baseUrl + href else href
  }

  function LinkOf(a: Anchor, baseUrl: string): C.Ref {
    C.Ref(Strip(a.text), FullUrl(baseUrl, a.href))
  }

  /** `_extract_chapter_links`: the kept anchors as (title, URL) links, in
      page order. */
  function ExtractChapterLinks(anchors: seq<Anchor>, novelId: string, baseUrl: string): (links: seq<C.Ref>)
    ensures |links| <= |anchors|
    ensures forall i | 0 <= i < |links| ::
              1 <= |links[i].title| <= 50 && links[i].title != TN.Noise && NoEdgeSpace(links[i].title)
  {
    if anchors == [] then []
    else
      var n := |anchors| - 1;
      var links := ExtractChapterLinks(anchors[..n], novelId, baseUrl);
      if KeepsAnchor(anchors[n], novelId) then links + [LinkOf(anchors[n], baseUrl)] else links
  }

  /** Every link found comes from a kept anchor. */
  lemma {:induction false} LinkFromKeptAnchor(anchors: seq<Anchor>, novelId: string, baseUrl: string, l: C.Ref)
    requires l in ExtractChapterLinks(anchors, novelId, baseUrl)
    ensures exists a | a in anchors :: KeepsAnchor(a, novelId) && l == LinkOf(a, baseUrl)
  {
    var n := |anchors| - 1;
    if l in ExtractChapterLinks(anchors[..n], novelId, baseUrl) {
      LinkFromKeptAnchor(anchors[..n], novelId, baseUrl, l);
      var a :| a in anchors[..n] && KeepsAnchor(a, novelId) && l == LinkOf(a, baseUrl);
      assert a in anchors;
    } else {
      assert anchors[n] in anchors;
    }
  }

  /** Every kept anchor gives a link. */
  lemma {:induction false} KeptAnchorLinked(anchors: seq<Anchor>, novelId: string, baseUrl: string, a: Anchor)
    requires a in anchors && KeepsAnchor(a, novelId)
    ensures LinkOf(a, baseUrl) in ExtractChapterLinks(anchors, novelId, baseUrl)
  {
    var n := |anchors| - 1;
    if a != anchors[n] {
      var i :| 0 <= i < |anchors| && anchors[i] == a;
      assert anchors[..n][i] == a;
      KeptAnchorLinked(anchors[..n], novelId, baseUrl, a);
    }
  }

  // ---------------------------------------------------------------------
  // `_deduplicate_and_sort_links`

  function UrlSet(links: seq<C.Ref>): set<string> {
    set l | l in links :: l.url
  }

  /** The index of the first link with URL `u`, or `|links|`. */
  function FirstUrlIndex(links: seq<C.Ref>, u: string): (k: nat)
    ensures k <= |links|
    ensures k < |links| ==> links[k].url == u
    ensures forall j | 0 <= j < k :: links[j].url != u
  {
    if links == [] then 0
    else
      var n := |links| - 1;
      var k := FirstUrlIndex(links[..n], u);
      if k < n then k else if links[n].url == u then n else |links|
  }

  /** No two links share a URL. */
  ghost predicate DistinctUrls(links: seq<C.Ref>) {
    forall i, j | 0 <= i < j < |links| :: links[i].url != links[j].url
  }

  /** Each link is the first link of the input with its URL. */
  ghost predicate FirstOccurrences(r: seq<C.Ref>, links: seq<C.Ref>) {
    forall i | 0 <= i < |r| :: FirstUrlIndex(links, r[i].url) < |links| && r[i] == links[FirstUrlIndex(links, r[i].url)]
  }

  /** The loop over `seen_urls`: the first link of every URL, in input order. */
  function DedupByUrl(links: seq<C.Ref>): (r: seq<C.Ref>)
    ensures |r| <= |links|
    ensures forall l | l in r :: l in links
  {
    if links == [] then []
    else
      var n := |links| - 1;
      var p := DedupByUrl(links[..n]);
      if links[n].url in UrlSet(p) then p else p + [links[n]]
  }

  lemma UrlSetAppend(p: seq<C.Ref>, x: C.Ref)
    ensures UrlSet(p + [x]) == UrlSet(p) + {x.url}
  {
    assert forall l | l in p + [x] :: l in p || l == x;
  }

  /** Deduplication keeps exactly the URLs of its input, once each, each
      with the first link that carried it. */
  lemma DedupByUrlFacts(links: seq<C.Ref>)
    ensures DistinctUrls(DedupByUrl(links))
    ensures UrlSet(DedupByUrl(links)) == UrlSet(links)
    ensures FirstOccurrences(DedupByUrl(links), links)
  {
    DedupUrls(links);
    DedupDistinct(links);
    DedupFirst(links);
  }

  lemma {:induction false} DedupUrls(links: seq<C.Ref>)
    ensures UrlSet(DedupByUrl(links)) == UrlSet(links)
  {
    if links != [] {
      var n := |links| - 1;
      DedupUrls(links[..n]);
      assert links == links[..n] + [links[n]];
      UrlSetAppend(links[..n], links[n]);
      UrlSetAppend(DedupByUrl(links[..n]), links[n]);
    }
  }

  lemma {:induction false} DedupDistinct(links: seq<C.Ref>)
    ensures DistinctUrls(DedupByUrl(links))
  {
    if links != [] {
      var n := |links| - 1;
      var p := DedupByUrl(links[..n]);
      DedupDistinct(links[..n]);
      if links[n].url !in UrlSet(p) {
        var r := p + [links[n]];
        forall i | 0 <= i < |p| ensures r[i].url != r[|p|].url {
          assert r[i] == p[i] && p[i] in p;
        }
      }
    }
  }

  lemma {:induction false} DedupFirst(links: seq<C.Ref>)
    ensures FirstOccurrences(DedupByUrl(links), links)
  {
    if links != [] {
      var n := |links| - 1;
      var p := DedupByUrl(links[..n]);
      DedupFirst(links[..n]);
      DedupUrls(links[..n]);
      FirstOccurrencesExtend(p, links);
      if links[n].url !in UrlSet(p) {
        FirstUrlAtEnd(links);
      }
    }
  }

  /** A link's first occurrence in a prefix stays its first occurrence. */
  lemma FirstOccurrencesExtend(p: seq<C.Ref>, links: seq<C.Ref>)
    requires links != [] && FirstOccurrences(p, links[..|links| - 1])
    ensures FirstOccurrences(p, links)
  {
    var n := |links| - 1;
    forall i | 0 <= i < |p| ensures FirstUrlIndex(links, p[i].url) == FirstUrlIndex(links[..n], p[i].url) {
    }
  }

  /** A URL that no earlier link has first occurs in the last link. */
  lemma FirstUrlAtEnd(links: seq<C.Ref>)
    requires links != []
    requires links[|links| - 1].url !in UrlSet(links[..|links| - 1])
    ensures FirstUrlIndex(links, links[|links| - 1].url) == |links| - 1
  {
    var n := |links| - 1;
    forall j | 0 <= j < n ensures links[j].url != links[n].url {
      assert links[..n][j] == links[j];
      assert links[j] in links[..n];
    }
  }

  /** The sort key comparison `key=lambda x: x[1]`. */
  predicate UrlLeq(a: C.Ref, b: C.Ref) {
    LexLeq(a.url, b.url)
  }

  lemma UrlLeqIsTotalPreorder()
    ensures TotalPreorder(UrlLeq)
  {
    forall a: C.Ref, b: C.Ref ensures UrlLeq(a, b) || UrlLeq(b, a) {
      LexLeqTotal(a.url, b.url);
    }
    forall a: C.Ref, b: C.Ref, c: C.Ref | UrlLeq(a, b) && UrlLeq(b, c) ensures UrlLeq(a, c) {
      LexLeqTransitive(a.url, b.url, c.url);
    }
  }

  /** `_deduplicate_and_sort_links`: one link per URL, the first one the
      page gave, ordered by URL. */
  function DeduplicateAndSortLinks(links: seq<C.Ref>): (r: seq<C.Ref>)
    ensures DistinctUrls(r)
    ensures UrlSet(r) == UrlSet(links)
    ensures FirstOccurrences(r, links)
    ensures SortedBy(r, UrlLeq)
  {
    UrlLeqIsTotalPreorder();
    var d := DedupByUrl(links);
    DedupByUrlFacts(links);
    var r := SortBy(d, UrlLeq);
    SameElements(r, d);
    PermutationKeepsDistinctUrls(r, d);
    SameElementsKeepFirsts(r, d, links);
    r
  }

  /** Reordering the deduplicated links keeps their URLs, and keeps each one
      the first link of the input with its URL. */
  lemma SameElementsKeepFirsts(r: seq<C.Ref>, d: seq<C.Ref>, links: seq<C.Ref>)
    requires forall x :: x in r <==> x in d
    requires FirstOccurrences(d, links)
    ensures UrlSet(r) == UrlSet(d)
    ensures FirstOccurrences(r, links)
  {
    forall i | 0 <= i < |r|
      ensures FirstUrlIndex(links, r[i].url) < |links| && r[i] == links[FirstUrlIndex(links, r[i].url)]
    {
      assert r[i] in d;
      var a :| 0 <= a < |d| && d[a] == r[i];
    }
    forall u ensures u in UrlSet(r) <==> u in UrlSet(d) {
      if u in UrlSet(r) {
        var l :| l in r && l.url == u;
        assert l in d;
      }
      if u in UrlSet(d) {
        var l :| l in d && l.url == u;
        assert l in r;
      }
    }
  }

  /** Two sequences with one multiset hold the same elements. */
  lemma SameElements(r: seq<C.Ref>, d: seq<C.Ref>)
    requires multiset(r) == multiset(d)
    ensures forall x :: x in r <==> x in d
  {
    forall x ensures x in r <==> x in d {
      assert x in r <==> x in multiset(r);
      assert x in d <==> x in multiset(d);
    }
  }

  /** A permutation of links with distinct URLs has distinct URLs. */
  lemma PermutationKeepsDistinctUrls(r: seq<C.Ref>, d: seq<C.Ref>)
    requires multiset(r) == multiset(d) && DistinctUrls(d)
    ensures DistinctUrls(r)
  {
    assert Distinct(d);
    MultisetDistinct(r, d);
    forall i, j | 0 <= i < j < |r| ensures r[i].url != r[j].url {
      assert r[i] in multiset(r) && r[j] in multiset(r);
      var a :| 0 <= a < |d| && d[a] == r[i];
      var b :| 0 <= b < |d| && d[b] == r[j];
      assert a != b;
    }
  }

  /** The unit test, for any site prefix: three links, two of them equal,
      give two links with chapter 1 first. */
  lemma DeduplicateExample(site: string)
    ensures var r := DeduplicateAndSortLinks([C.Ref("第一章", site + "2.html"),
                                              C.Ref("第二章", site + "1.html"),
                                              C.Ref("第一章", site + "2.html")]);
            |r| == 2 && r[0].url == site + "1.html"
  {
    var a := C.Ref("第一章", site + "2.html");
    var b := C.Ref("第二章", site + "1.html");
    var links := [a, b, a];
    assert a.url != b.url by { assert a.url[|site|] != b.url[|site|]; }
    assert links[..2] == [a, b] && [a, b][..1] == [a];
    assert DedupByUrl([a]) == [a];
    assert DedupByUrl([a, b]) == [a, b];
    assert DedupByUrl(links) == [a, b];
    LexLeqCommonPrefix(site, "1.html", "2.html");
    LexLeqCommonPrefix(site, "2.html", "1.html");
    UrlLeqIsTotalPreorder();
    var r := DeduplicateAndSortLinks(links);
    assert r == SortBy([a, b], UrlLeq);
    assert [a, b][1..] == [b];
    assert SortBy([b], UrlLeq) == [b];
  }

  /** A common prefix does not change the order. */
  lemma {:induction false} LexLeqCommonPrefix(p: string, a: string, b: string)
    ensures LexLeq(p + a, p + b) == LexLeq(a, b)
  {
    if p != [] {
      LexLeqCommonPrefix(p[1..], a, b);
      assert (p + a)[1..] == p[1..] + a && (p + b)[1..] == p[1..] + b;
    } else {
      assert p + a == a && p + b == b;
    }
  }

  // ---------------------------------------------------------------------
  // Discovery

  /** The parsed catalogue page: the `<h1>` (or else `<title>`) text, if
      any, and the anchors with an `href`. */
  datatype IndexPage = IndexPage(titleTag: Option<string>, anchors: seq<Anchor>)

  /** `get_page_urls(url)`, given the parsed page or `None` when the request
      raised: the novel title and the links from the anchors, deduplicated
      and ordered by URL. */
  function GetPageUrls(url: string, baseUrl: string, page: Option<IndexPage>): (d: C.Discovery)
    ensures d.DiscoveryFailed? <==> page.None?
    ensures d.Discovered? ==> DistinctUrls(d.refs) && SortedBy(d.refs, UrlLeq)
    ensures d.Discovered? ==> forall i | 0 <= i < |d.refs| :: 1 <= |d.refs[i].title| <= 50 && d.refs[i].title != TN.Noise
    ensures d.Discovered? ==> UrlSet(d.refs) == UrlSet(ExtractChapterLinks(page.value.anchors, ExtractNovelId(url), baseUrl))
    ensures d.Discovered? ==> FirstOccurrences(d.refs, ExtractChapterLinks(page.value.anchors, ExtractNovelId(url), baseUrl))
    ensures d.Discovered? ==> d.novelTitle == ExtractNovelTitle(page.value.titleTag)
  {
    if page.None? then C.DiscoveryFailed
    else
    var links := ExtractChapterLinks(page.value.anchors, ExtractNovelId(url), baseUrl);
    var r := DeduplicateAndSortLinks(links);
    forall i | 0 <= i < |r| ensures 1 <= |r[i].title| <= 50 && r[i].title != TN.Noise {
      var k := FirstUrlIndex(links, r[i].url);
      assert r[i] == links[k];
    }
    C.Discovered(ExtractNovelTitle(page.value.titleTag), r)
  }

  // ---------------------------------------------------------------------
  // `_clean_content`

  /** No two consecutive `c` in `s`: for newlines, no blank line. */
  predicate NoDouble(s: string, c: char) {
    forall i | 0 <= i < |s| - 1 :: s[i] != c || s[i + 1] != c
  }

  /** No three consecutive newlines. */
  predicate NoTripleNewline(s: string) {
    forall i | 0 <= i < |s| - 2 :: s[i] != '\n' || s[i + 1] != '\n' || s[i + 2] != '\n'
  }

  lemma NoDoubleSlice(s: string, c: char, a: int, b: int)
    requires 0 <= a <= b <= |s| && NoDouble(s, c)
    ensures NoDouble(s[a..b], c)
  {
    forall i | 0 <= i < b - a - 1 ensures s[a..b][i] != c || s[a..b][i + 1] != c {
      assert s[a..b][i] == s[a + i] && s[a..b][i + 1] == s[a + i + 1];
    }
  }

  /** The lines the comprehension keeps: each stripped, the blank ones
      dropped. */
  function StripLines(lines: seq<string>): (r: seq<string>)
    ensures |r| <= |lines|
    ensures forall i | 0 <= i < |r| :: r[i] != "" && NoEdgeSpace(r[i])
  {
    if lines == [] then []
    else
      var rest := StripLines(lines[1..]);
      if Strip(lines[0]) == "" then rest else [Strip(lines[0])] + rest
  }

  /** Stripping never brings in a character. */
  lemma {:induction false} StripLinesNoChar(lines: seq<string>, c: char)
    requires forall i | 0 <= i < |lines| :: c !in lines[i]
    ensures forall i | 0 <= i < |StripLines(lines)| :: c !in StripLines(lines)[i]
  {
    if lines != [] {
      StripLinesNoChar(lines[1..], c);
      StripDropsSpace(lines[0]);
    }
  }

  /** Lines that are already stripped and non-blank are kept as they are. */
  lemma {:induction false} StripLinesOfClean(lines: seq<string>)
    requires forall i | 0 <= i < |lines| :: lines[i] != "" && NoEdgeSpace(lines[i])
    ensures StripLines(lines) == lines
  {
    if lines != [] {
      StripLinesOfClean(lines[1..]);
      StripOfClean(lines[0]);
      assert lines == [lines[0]] + lines[1..];
    }
  }

  lemma StripLinesIdempotent(lines: seq<string>)
    ensures StripLines(StripLines(lines)) == StripLines(lines)
  {
    StripLinesOfClean(StripLines(lines));
  }

  /** `'\n'.join(line.strip() for line in content.split('\n') if line.strip())`. */
  function CleanLines(content: string): (r: string)
    ensures NoDouble(r, '\n')
  {
    var lines := StripLines(Split(content, '\n'));
    StripLinesNoChar(Split(content, '\n'), '\n');
    JoinNoDouble(lines, '\n');
    Join(lines, '\n')
  }

  /** Splitting the cleaned text at newlines gives the kept lines back. */
  lemma CleanLinesRoundTrip(content: string)
    requires StripLines(Split(content, '\n')) != []
    ensures Split(CleanLines(content), '\n') == StripLines(Split(content, '\n'))
  {
    StripLinesNoChar(Split(content, '\n'), '\n');
    SplitJoin(StripLines(Split(content, '\n')), '\n');
  }

  /** Joining non-empty pieces without the separator never puts two
      separators side by side. */
  lemma {:induction false} JoinNoDouble(parts: seq<string>, c: char)
    requires forall i | 0 <= i < |parts| :: parts[i] != "" && c !in parts[i]
    ensures NoDouble(Join(parts, c), c)
    ensures parts != [] ==> Join(parts, c) != "" && Join(parts, c)[0] == parts[0][0]
  {
    if |parts| == 1 {
      var p := parts[0];
      assert Join(parts, c) == p;
      assert forall i | 0 <= i < |p| :: p[i] in p;
    } else if |parts| > 1 {
      var p := parts[0];
      var rest := Join(parts[1..], c);
      JoinNoDouble(parts[1..], c);
      var s := p + [c] + rest;
      assert Join(parts, c) == s;
      forall i | 0 <= i < |s| - 1 ensures s[i] != c || s[i + 1] != c {
        if i < |p| {
          assert s[i] == p[i] && p[i] in p;
        } else if i == |p| {
          assert s[i + 1] == rest[0] == parts[1][0] && parts[1][0] in parts[1];
        } else {
          assert s[i] == rest[i - |p| - 1] && s[i + 1] == rest[i - |p|];
        }
      }
    }
  }

  /** The end of the run of newlines that starts at `i`. */
  function NewlineRunEnd(s: string, i: nat): (k: nat)
    requires i <= |s|
    ensures i <= k <= |s|
    ensures forall j | i <= j < k :: s[j] == '\n'
    ensures k == |s| || s[k] != '\n'
    decreases |s| - i
  {
    if i < |s| && s[i] == '\n' then NewlineRunEnd(s, i + 1) else i
  }

  /** `re.sub(r'\n{3,}', '\n\n', s)`: every maximal run of three or more
      newlines becomes two; shorter runs match nowhere and stay. */
  function CollapseNewlines(s: string): (r: string)
    ensures NoTripleNewline(r)
    ensures s != [] && s[0] != '\n' ==> r != [] && r[0] == s[0]
    decreases |s|
  {
    if s == [] then []
    else if s[0] != '\n' then
      var rest := CollapseNewlines(s[1..]);
      ConsNoTriple(s[0], rest);
      [s[0]] + rest
    else
      var e := NewlineRunEnd(s, 0);
      var rest := CollapseNewlines(s[e..]);
      var head := if e >= 3 then "\n\n" else s[..e];
      ShortHeadNoTriple(head, rest);
      head + rest
  }

  /** A head of at most two characters followed by a text that opens with
      no newline adds no run of three newlines. */
  lemma ShortHeadNoTriple(head: string, rest: string)
    requires |head| <= 2 && NoTripleNewline(rest)
    requires rest == [] || rest[0] != '\n'
    ensures NoTripleNewline(head + rest)
  {
    var s := head + rest;
    forall i | 0 <= i < |s| - 2 ensures s[i] != '\n' || s[i + 1] != '\n' || s[i + 2] != '\n' {
      if i < |head| {
        assert s[|head|] == rest[0];
      } else {
        assert s[i] == rest[i - |head|] && s[i + 1] == rest[i - |head| + 1] && s[i + 2] == rest[i - |head| + 2];
      }
    }
  }

  lemma ConsNoTriple(c: char, rest: string)
    requires c != '\n' && NoTripleNewline(rest)
    ensures NoTripleNewline([c] + rest)
  {
    var s := [c] + rest;
    forall i | 1 <= i < |s| - 2 ensures s[i] != '\n' || s[i + 1] != '\n' || s[i + 2] != '\n' {
      assert s[i] == rest[i - 1] && s[i + 1] == rest[i] && s[i + 2] == rest[i + 1];
    }
  }

  /** Text without a blank line has no run to collapse. */
  lemma {:induction false} CollapseOfNoDouble(s: string)
    requires NoDouble(s, '\n')
    ensures CollapseNewlines(s) == s
    decreases |s|
  {
    if s != [] {
      NoDoubleSlice(s, '\n', 1, |s|);
      CollapseOfNoDouble(s[1..]);
      if s[0] == '\n' {
        assert NewlineRunEnd(s, 0) == 1;
        assert s[..1] == [s[0]];
      }
      assert s == [s[0]] + s[1..];
    }
  }

  /** `re.sub(open + '.*?' + close, '', s, flags=re.DOTALL)` for literal
      `open` and `close`: from the leftmost `open` up to the first `close`
      after it, removed, and the search goes on after the removed block. An
      `open` with no `close` after it leaves the rest as it is, and so does
      every later `open`. */
  function RemoveBlocks(s: string, open: string, close: string): (r: string)
    requires open != []
    ensures |r| <= |s|
    ensures !Contains(s, open) ==> r == s
    decreases |s|
  {
    var k := Find(s, open);
    if k < 0 then s
    else
      var e := FindFrom(s, close, k + |open|);
      if e < 0 then s
      else s[..k] + RemoveBlocks(s[e + |close|..], open, close)
  }

  /** A block that opens after a text without the first character of `open`
      and holds no first character of `close` is removed, and the search
      goes on after it. */
  lemma BlockRemoved(pre: string, open: string, mid: string, close: string, post: string)
    requires open != [] && close != []
    requires open[0] !in pre && close[0] !in mid
    ensures RemoveBlocks(pre + open + mid + close + post, open, close) == pre + RemoveBlocks(post, open, close)
  {
    var s := pre + open + mid + close + post;
    var k := |pre|;
    var e := k + |open| + |mid|;
    assert s[k..k + |open|] == open;
    assert OccursAt(s, open, k);
    forall j | 0 <= j < k ensures !OccursAt(s, open, j) {
      assert s[j] == pre[j] && s[j..j + |open|][0] == s[j];
    }
    assert Find(s, open) == k;
    assert s[e..e + |close|] == close;
    assert OccursAt(s, close, e);
    forall j | k + |open| <= j < e ensures !OccursAt(s, close, j) {
      assert s[j] == mid[j - k - |open|];
      assert s[j..j + |close|][0] == s[j];
    }
    assert FindFrom(s, close, k + |open|) == e;
    assert s[..k] == pre;
    assert s[e + |close|..] == post;
  }

  /** The advertisement opens with the "arrow keys" hint and ends at "back to list". */
  const AdStart: string := "温馨提示：方向键左右"
  const AdEnd: string := "返回列表"

  /** The advertisement filter. */
  function RemoveAds(s: string): (r: string)
    ensures |r| <= |s|
    ensures !Contains(s, AdStart) ==> r == s
  {
    RemoveBlocks(s, AdStart, AdEnd)
  }

  /** One advertisement after text without '温', holding no '返', is cut out. */
  lemma AdBlockRemoved(pre: string, mid: string, post: string)
    requires '温' !in pre && '返' !in mid
    ensures RemoveAds(pre + AdStart + mid + AdEnd + post) == pre + RemoveAds(post)
  {
    BlockRemoved(pre, AdStart, mid, AdEnd, post);
  }

  /** `content[:content.find(kw)].strip()` when `kw` occurs, else `content`. */
  function CutAt(s: string, kw: string): (r: string)
    ensures |r| <= |s|
    ensures kw != [] ==> !Contains(r, kw)
  {
    var k := Find(s, kw);
    if k < 0 then s
    else
      BeforeFirstOccurrence(s, kw);
      StripDropsSpace(s[..k]);
      NotContainsSliceIf(s[..k], kw, LeadingSpace(s[..k]), LeadingSpace(s[..k]) + |Strip(s[..k])|);
      Strip(s[..k])
  }

  /** `NotContainsSlice` for a string that may contain the pattern. */
  lemma NotContainsSliceIf(s: string, t: string, a: int, b: int)
    requires 0 <= a <= b <= |s|
    ensures !Contains(s, t) ==> !Contains(s[a..b], t)
  {
    if !Contains(s, t) {
      NotContainsSlice(s, t, a, b);
    }
  }

  /** The text before the first occurrence of a non-empty pattern does not
      hold it. */
  lemma BeforeFirstOccurrence(s: string, t: string)
    requires Contains(s, t)
    ensures t != [] ==> !Contains(s[..Find(s, t)], t)
  {
    var k := Find(s, t);
    var u := s[..k];
    forall j | OccursAt(u, t, j) ensures OccursAt(s, t, j) {
      assert u[j..j + |t|] == s[j..j + |t|];
    }
    ContainsIffOccurs(u, t);
  }

  /** Cutting keeps a slice of the text: what the text lacks, the cut text
      lacks, blank lines included. */
  lemma CutAtKeeps(s: string, kw: string)
    ensures forall t | !Contains(s, t) :: !Contains(CutAt(s, kw), t)
    ensures NoDouble(s, '\n') ==> NoDouble(CutAt(s, kw), '\n')
  {
    var k := Find(s, kw);
    if k >= 0 {
      var u := s[..k];
      var a := LeadingSpace(u);
      StripDropsSpace(u);
      forall t | !Contains(s, t) ensures !Contains(CutAt(s, kw), t) {
        NotContainsSlice(s, t, 0, k);
        NotContainsSlice(u, t, a, a + |Strip(u)|);
      }
      if NoDouble(s, '\n') {
        NoDoubleSlice(s, '\n', 0, k);
        NoDoubleSlice(u, '\n', a, a + |Strip(u)|);
      }
    }
  }

  /** The navigation keywords: the text is cut at each in turn. */
  const NavKeywords: seq<string> := ["txt下载地址", "手机阅读"]

  /** The loop over the navigation keywords. */
  function CutAtAll(s: string, kws: seq<string>): (r: string)
    decreases kws
    ensures |r| <= |s|
    ensures forall kw | kw in kws && kw != [] :: !Contains(r, kw)
    ensures forall t | !Contains(s, t) :: !Contains(r, t)
    ensures NoDouble(s, '\n') ==> NoDouble(r, '\n')
  {
    if kws == [] then s
    else
      CutAtKeeps(s, kws[0]);
      CutAtAll(CutAt(s, kws[0]), kws[1..])
  }

  /** `strip` keeps a slice: what the text lacks, the stripped text lacks. */
  lemma StripKeeps(s: string)
    ensures forall t | !Contains(s, t) :: !Contains(Strip(s), t)
    ensures NoDouble(s, '\n') ==> NoDouble(Strip(s), '\n')
  {
    StripDropsSpace(s);
    var a := LeadingSpace(s);
    forall t | !Contains(s, t) ensures !Contains(Strip(s), t) {
      NotContainsSlice(s, t, a, a + |Strip(s)|);
    }
    if NoDouble(s, '\n') {
      NoDoubleSlice(s, '\n', a, a + |Strip(s)|);
    }
  }

  /** `_clean_content(content)`: join the stripped non-blank lines, collapse
      newline runs, remove the advertisements, cut at the navigation
      keywords, strip. */
  function CleanContent(content: string): (r: string)
    ensures NoEdgeSpace(r)
    ensures forall kw | kw in NavKeywords :: !Contains(r, kw)
  {
    var cut := CutAtAll(RemoveAds(CollapseNewlines(CleanLines(content))), NavKeywords);
    StripKeeps(cut);
    Strip(cut)
  }

  /** The newline collapse never finds anything to do: the joined lines hold
      no blank line, so the text reaching the advertisement filter is the
      joined lines themselves. */
  lemma CollapseIsNoOp(content: string)
    ensures CollapseNewlines(CleanLines(content)) == CleanLines(content)
  {
    CollapseOfNoDouble(CleanLines(content));
  }

  /** A page without the advertisement hint comes out with no blank line:
      its lines are the stripped non-blank lines of the page, cut at the
      navigation keywords. */
  lemma CleanContentWithoutAds(content: string)
    requires !Contains(CleanLines(content), AdStart)
    ensures CleanContent(content) == Strip(CutAtAll(CleanLines(content), NavKeywords))
    ensures NoDouble(CleanContent(content), '\n')
  {
    CollapseIsNoOp(content);
    StripKeeps(CutAtAll(CleanLines(content), NavKeywords));
  }

  /** A text without the keyword is not cut. */
  lemma CutAtAbsent(s: string, kw: string)
    requires !Contains(s, kw)
    ensures CutAt(s, kw) == s
  {
  }

  lemma JoinThree(a: string, b: string, c: string, sep: char)
    ensures Join([a, b, c], sep) == a + [sep] + b + [sep] + c
  {
    assert [a, b, c][1..] == [b, c] && [b, c][1..] == [c];
    assert Join([b, c], sep) == b + [sep] + c;
    assert Join([a, b, c], sep) == a + [sep] + (b + [sep] + c);
  }

  /** A line holding exactly one block, between two lines, goes and leaves
      the two newlines around it. */
  lemma BlockLineRemoved(p: string, open: string, close: string, q: string)
    requires open != [] && close != [] && open[0] != '\n' && open[0] !in p && !Contains(['\n'] + q, open)
    ensures RemoveBlocks(p + ['\n'] + (open + close) + ['\n'] + q, open, close) == p + "\n\n" + q
  {
    var pre := p + ['\n'];
    var post := ['\n'] + q;
    assert open[0] !in pre;
    BlockRemoved(pre, open, [], close, post);
    assert p + ['\n'] + (open + close) + ['\n'] + q == pre + open + [] + close + post;
    assert pre + post == p + "\n\n" + q;
  }

  /** Stripped, non-blank lines joined by newlines are clean already. */
  lemma CleanLinesOfJoin(lines: seq<string>)
    requires lines != []
    requires forall i | 0 <= i < |lines| :: lines[i] != "" && NoEdgeSpace(lines[i]) && '\n' !in lines[i]
    ensures CleanLines(Join(lines, '\n')) == Join(lines, '\n')
  {
    SplitJoin(lines, '\n');
    StripLinesOfClean(lines);
  }

  /** Text without any navigation keyword is not cut. */
  lemma CutAtAllAbsent(s: string, kws: seq<string>)
    requires forall kw | kw in kws :: !Contains(s, kw)
    ensures CutAtAll(s, kws) == s
    decreases kws
  {
    if kws != [] {
      CutAtAbsent(s, kws[0]);
      CutAtAllAbsent(s, kws[1..]);
    }
  }

  lemma AdLine()
    ensures AdStart + AdEnd != "" && NoEdgeSpace(AdStart + AdEnd) && '\n' !in AdStart + AdEnd
    ensures AdStart[0] == '温' && AdEnd != []
  {
  }

  /** An advertisement that fills a whole line leaves a blank line where it
      stood, even though the blank lines were removed before: the advertisement
      filter runs after the newline collapse. */
  lemma AdLineLeavesBlankLine(p: string, q: string)
    requires p != "" && q != "" && NoEdgeSpace(p) && NoEdgeSpace(q)
    requires '\n' !in p && '\n' !in q && '温' !in p && !Contains("\n" + q, AdStart)
    requires forall kw | kw in NavKeywords :: !Contains(p + "\n\n" + q, kw)
    ensures CleanContent(Join([p, AdStart + AdEnd, q], '\n')) == p + "\n\n" + q
    ensures Contains(CleanContent(Join([p, AdStart + AdEnd, q], '\n')), "\n\n")
  {
    AdLine();
    var content := Join([p, AdStart + AdEnd, q], '\n');
    CleanLinesOfJoin([p, AdStart + AdEnd, q]);
    CollapseIsNoOp(content);
    JoinThree(p, AdStart + AdEnd, q, '\n');
    var r := p + "\n\n" + q;
    BlockLineRemoved(p, AdStart, AdEnd, q);
    CutAtAllAbsent(r, NavKeywords);
    BlankLineBetween(p, q);
  }

  /** `p + "\n\n" + q` for clean non-empty `p` and `q` is clean and holds a
      blank line. */
  lemma BlankLineBetween(p: string, q: string)
    requires p != "" && q != "" && NoEdgeSpace(p) && NoEdgeSpace(q)
    ensures Strip(p + "\n\n" + q) == p + "\n\n" + q
    ensures Contains(p + "\n\n" + q, "\n\n")
  {
    var r := p + "\n\n" + q;
    assert r[0] == p[0] && r[|r| - 1] == q[|q| - 1];
    StripOfClean(r);
    assert r[|p|..|p| + 2] == "\n\n";
    assert OccursAt(r, "\n\n", |p|);
    ContainsIffOccurs(r, "\n\n");
  }

  // ---------------------------------------------------------------------
  // Chapter fetching

  /** What one attempt at a chapter page does before the exception handler:
      return a title and a body, or raise with a message. */
  datatype PageResult = Page(title: string, body: string) | Raised(message: string)

  /** `get_chapter_content(url)`: every exception is caught and turned into
      a placeholder chapter carrying the message. */
  function GetChapterContent(page: (string, nat) -> PageResult): (fetch: C.Fetcher)
    ensures C.NeverFails(fetch)
  {
    (u: string, n: nat) =>
      match page(u, n)
      case Page(t, b) => C.Fetched(t, b)
      case Raised(m) => C.Fetched("未知章节", "[章节内容获取失败 - " + m + "]")
  }

  /** A failed page is stored as a placeholder chapter, not retried. */
  lemma FailedPageBecomesPlaceholder(page: (string, nat) -> PageResult, u: string, n: nat)
    requires page(u, n).Raised?
    ensures GetChapterContent(page)(u, n).Fetched?
    ensures StartsWith(GetChapterContent(page)(u, n).body, "[章节内容获取失败 - ")
  {
    var b := GetChapterContent(page)(u, n).body;
    assert b == "[章节内容获取失败 - " + page(u, n).message + "]";
    assert b[..|"[章节内容获取失败 - "|] == "[章节内容获取失败 - ";
  }

  /** With this site's fetcher, a run whose quota covers every missing
      chapter stores every listed chapter, placeholders included. */
  lemma SiteRunStoresEveryChapter(cfg: C.Config, t: string, refs: seq<C.Ref>, store0: PS.Store, codec: PS.Codec,
                                  loaded: PS.Progress, page: (string, nat) -> PageResult, outcome: C.Outcome,
                                  progress: PS.Progress, store: PS.Store, events: seq<C.Event>)
    requires C.NovelRun(cfg, t, refs, store0, codec, loaded, GetChapterContent(page), outcome, progress, store, events)
    requires cfg.maxRetries >= 1
    requires OD.Size(C.UncrawledChapters(refs, C.Listed(refs), loaded)) <= cfg.maxChapters - OD.Size(loaded)
    ensures forall i | 0 <= i < |refs| :: C.Listed(refs)[i] in progress.m
  {
  }
}

=== FILE: sorting.dfy ===
/**
  Sorting by a total preorder (Python's `sorted(xs, key=f)` and
  `list.sort(key=f)` compare keys with `<=`), and the code-point
  lexicographic order Python uses to compare strings.
*/
module Sorting {

  /** `leq` is total and transitive. */
  ghost predicate TotalPreorder<T(!new)>(leq: (T, T) -> bool) {
    && (forall a, b :: leq(a, b) || leq(b, a))
    && (forall a, b, c :: leq(a, b) && leq(b, c) ==> leq(a, c))
  }

  ghost predicate SortedBy<T>(s: seq<T>, leq: (T, T) -> bool) {
    forall i, j :: 0 <= i < j < |s| ==> leq(s[i], s[j])
  }

  /** Places `x` into the sorted `s`, ahead of the first element it precedes. */
  function Insert<T(!new)>(x: T, s: seq<T>, leq: (T, T) -> bool): (r: seq<T>)
    requires TotalPreorder(leq)
    requires SortedBy(s, leq)
    ensures SortedBy(r, leq)
    ensures multiset(r) == multiset(s) + multiset{x}
    ensures |r| == |s| + 1
  {
    if s == [] || leq(x, s[0]) then
      InsertFirstSorted(x, s, leq);
      [x] + s
    else
      var rest := Insert(x, s[1..], leq);
      InsertLaterSorted(x, s, rest, leq);
      assert s == [s[0]] + s[1..];
      [s[0]] + rest
  }

  /** An element that precedes the head of a sorted sequence may open it. */
  lemma InsertFirstSorted<T(!new)>(x: T, s: seq<T>, leq: (T, T) -> bool)
    requires TotalPreorder(leq) && SortedBy(s, leq)
    requires s == [] || leq(x, s[0])
    ensures SortedBy([x] + s, leq)
  {
    var r := [x] + s;
    forall i, j | 0 <= i < j < |r| ensures leq(r[i], r[j]) {
      if i == 0 {
        assert r[j] == s[j - 1];
        if j > 1 {
          assert leq(s[0], s[j - 1]);
        }
      } else {
        assert r[i] == s[i - 1] && r[j] == s[j - 1];
      }
    }
  }

  /** The head of a sorted sequence that `x` does not precede may open the
      sorted insertion of `x` into its tail. */
  lemma InsertLaterSorted<T(!new)>(x: T, s: seq<T>, rest: seq<T>, leq: (T, T) -> bool)
    requires TotalPreorder(leq) && SortedBy(s, leq)
    requires s != [] && !leq(x, s[0])
    requires SortedBy(rest, leq) && multiset(rest) == multiset(s[1..]) + multiset{x}
    ensures SortedBy([s[0]] + rest, leq)
  {
    assert leq(s[0], x);
    var r := [s[0]] + rest;
    forall i, j | 0 <= i < j < |r| ensures leq(r[i], r[j]) {
      if i == 0 {
        var y := rest[j - 1];
        assert y in multiset(rest);
        if y != x {
          assert y in multiset(s[1..]);
          var k :| 0 <= k < |s[1..]| && s[1..][k] == y;
          assert s[1..][k] == s[k + 1];
        }
      } else {
        assert r[i] == rest[i - 1] && r[j] == rest[j - 1];
      }
    }
  }

  /** Insertion sort: the result is ordered and holds exactly the input's elements. */
  function SortBy<T(!new)>(s: seq<T>, leq: (T, T) -> bool): (r: seq<T>)
    requires TotalPreorder(leq)
    ensures SortedBy(r, leq)
    ensures multiset(r) == multiset(s)
    ensures |r| == |s|
  {
    if s == [] then []
    else
      assert s == [s[0]] + s[1..];
      Insert(s[0], SortBy(s[1..], leq), leq)
  }

  // ---------------------------------------------------------------------
  // Python string comparison

  /** `a <= b` on Python strings: lexicographic by code point. */
  predicate LexLeq(a: string, b: string) {
    if a == [] then true
    else if b == [] then false
    else if a[0] != b[0] then a[0] < b[0]
    else LexLeq(a[1..], b[1..])
  }

  lemma {:induction false} LexLeqTotal(a: string, b: string)
    ensures LexLeq(a, b) || LexLeq(b, a)
  {
    if a != [] && b != [] && a[0] == b[0] {
      LexLeqTotal(a[1..], b[1..]);
    }
  }

  lemma {:induction false} LexLeqTransitive(a: string, b: string, c: string)
    requires LexLeq(a, b) && LexLeq(b, c)
    ensures LexLeq(a, c)
  {
    if a != [] && b != [] && c != [] && a[0] == b[0] && b[0] == c[0] {
      LexLeqTransitive(a[1..], b[1..], c[1..]);
    }
  }

  lemma {:induction false} LexLeqAntisymmetric(a: string, b: string)
    requires LexLeq(a, b) && LexLeq(b, a)
    ensures a == b
  {
    if a != [] && b != [] {
      LexLeqAntisymmetric(a[1..], b[1..]);
      assert a == [a[0]] + a[1..] && b == [b[0]] + b[1..];
    }
  }

  lemma LexLeqIsTotalPreorder()
    ensures TotalPreorder((a: string, b: string) => LexLeq(a, b))
  {
    forall a: string, b: string
      ensures LexLeq(a, b) || LexLeq(b, a)
    {
      LexLeqTotal(a, b);
    }
    forall a: string, b: string, c: string | LexLeq(a, b) && LexLeq(b, c)
      ensures LexLeq(a, c)
    {
      LexLeqTransitive(a, b, c);
    }
  }
}

=== FILE: text.dfy ===
/**
  The Python string operations the crawler relies on, written out over
  `seq<char>`: `str.strip`, `str.replace`, `str.find`, `startswith`/`endswith`,
  `str.count`, `str.split`/`join`, the first `\d+` run of `re.search` and the
  decimal formatting of an `int` in an f-string.

  Simplification: Python's `\d` and `int()` also accept non-ASCII decimal
  digits; here a digit is one of '0'..'9'.
*/
module Text {
  import opened Wrappers

  /** The characters for which Python's `str.isspace` holds; the same set is
      matched by `\s` in a `str` regular expression. */
  predicate IsSpace(c: char) {
    || c == ' '
    || '\t' <= c <= '\r'
    || '\U{1c}' <= c <= '\U{1f}'
    || c == '\U{85}' || c == '\U{a0}' || c == '\U{1680}'
    || '\U{2000}' <= c <= '\U{200a}'
    || c == '\U{2028}' || c == '\U{2029}' || c == '\U{202f}' || c == '\U{205f}'
    || c == '\U{3000}'
  }

  predicate IsDigit(c: char) {
    '0' <= c <= '9'
  }

  function DigitValue(c: char): nat
    requires IsDigit(c)
  {
    (c as int) - ('0' as int)
  }

  function DigitChar(d: nat): (c: char)
    requires d < 10
    ensures IsDigit(c) && DigitValue(c) == d
  {
    ('0' as int + d) as char
  }

  predicate AllDigits(s: string) {
    forall i :: 0 <= i < |s| ==> IsDigit(s[i])
  }

  /** Neither end of `s` is whitespace. */
  predicate NoEdgeSpace(s: string) {
    s == [] || (!IsSpace(s[0]) && !IsSpace(s[|s| - 1]))
  }

  /** `s.lstrip()`: `s` without its maximal whitespace prefix. What it drops
      is stated by `LStripDropsSpace`. */
  function LStrip(s: string): (r: string)
    ensures |r| <= |s|
    ensures r == [] || !IsSpace(r[0])
    decreases |s|
  {
    if s != [] && IsSpace(s[0]) then LStrip(s[1..]) else s
  }

  /** `s.rstrip()`: `s` without its maximal whitespace suffix; the result is a
      prefix of `s`. */
  function RStrip(s: string): (r: string)
    ensures |r| <= |s| && r == s[..|r|]
    ensures r == [] || !IsSpace(r[|r| - 1])
    decreases |s|
  {
    if s != [] && IsSpace(s[|s| - 1]) then RStrip(s[..|s| - 1]) else s
  }

  /** `lstrip` keeps a suffix and drops only whitespace. */
  lemma {:induction false} LStripDropsSpace(s: string)
    ensures LStrip(s) == s[|s| - |LStrip(s)|..]
    ensures forall i :: 0 <= i < |s| - |LStrip(s)| ==> IsSpace(s[i])
    decreases |s|
  {
    if s != [] && IsSpace(s[0]) {
      LStripDropsSpace(s[1..]);
      assert s[1..][|s| - 1 - |LStrip(s)|..] == s[|s| - |LStrip(s)|..];
      forall i | 1 <= i < |s| - |LStrip(s)| ensures IsSpace(s[i]) {
        assert s[i] == s[1..][i - 1];
      }
    }
  }

  /** `rstrip` drops only whitespace. */
  lemma {:induction false} RStripDropsSpace(s: string)
    ensures forall i :: |RStrip(s)| <= i < |s| ==> IsSpace(s[i])
    decreases |s|
  {
    if s != [] && IsSpace(s[|s| - 1]) {
      RStripDropsSpace(s[..|s| - 1]);
      forall i | |RStrip(s)| <= i < |s| - 1 ensures IsSpace(s[i]) {
        assert s[i] == s[..|s| - 1][i];
      }
    }
  }

  /** `s.strip()`: `s` without whitespace at either end. What it drops and
      keeps is stated by `StripDropsSpace`. */
  function Strip(s: string): (r: string)
    ensures NoEdgeSpace(r)
    ensures |r| <= |s|
  {
    RStrip(LStrip(s))
  }

  /** The number of whitespace characters `s.lstrip()` drops. */
  function LeadingSpace(s: string): nat {
    |s| - |LStrip(s)|
  }

  /** `strip` keeps one contiguous slice of `s` and drops only whitespace,
      on both sides of it. */
  lemma StripDropsSpace(s: string)
    ensures LeadingSpace(s) + |Strip(s)| <= |s|
    ensures Strip(s) == s[LeadingSpace(s)..LeadingSpace(s) + |Strip(s)|]
    ensures forall i :: 0 <= i < LeadingSpace(s) ==> IsSpace(s[i])
    ensures forall i :: LeadingSpace(s) + |Strip(s)| <= i < |s| ==> IsSpace(s[i])
  {
    var l := LStrip(s);
    var r := RStrip(l);
    LStripDropsSpace(s);
    RStripDropsSpace(l);
    SliceOfSuffix(s, l, r);
    forall i | LeadingSpace(s) + |r| <= i < |s| ensures IsSpace(s[i]) {
      assert s[i] == l[i - LeadingSpace(s)];
    }
  }

  lemma SliceOfSuffix(s: string, l: string, r: string)
    requires |l| <= |s| && l == s[|s| - |l|..]
    requires |r| <= |l| && r == l[..|r|]
    ensures r == s[|s| - |l|..|s| - |l| + |r|]
  {
  }

  /** A string with no whitespace at either end is its own strip. */
  lemma StripOfClean(s: string)
    requires NoEdgeSpace(s)
    ensures Strip(s) == s
  {
  }

  lemma StripIdempotent(s: string)
    ensures Strip(Strip(s)) == Strip(s)
  {
    StripOfClean(Strip(s));
  }

  // ---------------------------------------------------------------------
  // Substring search

  /** `t` occurs in `s` starting at index `i`. */
  predicate OccursAt(s: string, t: string, i: int) {
    0 <= i && i + |t| <= |s| && s[i..i + |t|] == t
  }

  /** `s.find(t, i)`: the first index at or after `i` where `t` occurs, or -1. */
  function FindFrom(s: string, t: string, i: nat): (k: int)
    requires i <= |s|
    ensures k == -1 || (i <= k && OccursAt(s, t, k))
    ensures k == -1 ==> forall j :: i <= j ==> !OccursAt(s, t, j)
    ensures k != -1 ==> forall j :: i <= j < k ==> !OccursAt(s, t, j)
    decreases |s| - i
  {
    if i + |t| > |s| then -1
    else if s[i..i + |t|] == t then i
    else FindFrom(s, t, i + 1)
  }

  /** `s.find(t)`. */
  function Find(s: string, t: string): int {
    FindFrom(s, t, 0)
  }

  /** `t in s` for strings. */
  predicate Contains(s: string, t: string) {
    Find(s, t) >= 0
  }

  lemma ContainsIffOccurs(s: string, t: string)
    ensures Contains(s, t) <==> exists j :: OccursAt(s, t, j)
  {
    if Contains(s, t) {
      assert OccursAt(s, t, Find(s, t));
    }
  }

  lemma SliceOfSlice(s: string, a: int, b: int, i: int, j: int)
    requires 0 <= a <= b <= |s| && 0 <= i <= j <= b - a
    ensures s[a..b][i..j] == s[a + i..a + j]
  {
    var u := s[a..b][i..j];
    assert |u| == j - i;
    assert forall m :: 0 <= m < j - i ==> u[m] == s[a + i + m];
  }

  /** A slice of a string that does not contain `t` does not contain `t`. */
  lemma NotContainsSlice(s: string, t: string, a: int, b: int)
    requires 0 <= a <= b <= |s|
    requires !Contains(s, t)
    ensures !Contains(s[a..b], t)
  {
    var u := s[a..b];
    if Contains(u, t) {
      var j := Find(u, t);
      SliceOfSlice(s, a, b, j, j + |t|);
      assert OccursAt(s, t, a + j);
      assert false;
    }
  }

  /** `s.startswith(p)`. */
  predicate StartsWith(s: string, p: string) {
    |p| <= |s| && s[..|p|] == p
  }

  /** `s.endswith(p)`. */
  predicate EndsWith(s: string, p: string) {
    |p| <= |s| && s[|s| - |p|..] == p
  }

  /** A string that starts with `a`, ends with `b` and is as long as both
      together is `a + b`. */
  lemma PrefixSuffixDetermine(s: string, a: string, b: string)
    requires StartsWith(s, a) && EndsWith(s, b) && |s| == |a| + |b|
    ensures s == a + b
  {
    assert s == s[..|a|] + s[|a|..];
  }

  /** `s.count(c)` for a one-character argument. */
  function CountChar(s: string, c: char): (n: nat)
    ensures n <= |s|
    ensures n == 0 <==> c !in s
  {
    if s == [] then 0
    else (if s[0] == c then 1 else 0) + CountChar(s[1..], c)
  }

  // ---------------------------------------------------------------------
  // str.replace

  /** `s.replace(pat, rep)`: one left-to-right pass that replaces each
      non-overlapping occurrence of `pat`; text produced by a replacement is
      never scanned again. */
  function Replace(s: string, pat: string, rep: string): (r: string)
    requires pat != []
    decreases |s|
  {
    if |s| < |pat| then s
    else if s[..|pat|] == pat then rep + Replace(s[|pat|..], pat, rep)
    else [s[0]] + Replace(s[1..], pat, rep)
  }

  /** Replacing a pattern that does not occur changes nothing. */
  lemma {:induction false} ReplaceAbsent(s: string, pat: string, rep: string)
    requires pat != []
    requires !Contains(s, pat)
    ensures Replace(s, pat, rep) == s
    decreases |s|
  {
    if |s| < |pat| {
    } else {
      assert !OccursAt(s, pat, 0);
      NotContainsSlice(s, pat, 1, |s|);
      assert s[1..|s|] == s[1..];
      ReplaceAbsent(s[1..], pat, rep);
      assert s == [s[0]] + s[1..];
    }
  }

  /** Deleting a pattern never lengthens the string, and shortens it
      exactly when the pattern occurs. */
  lemma {:induction false} DeleteShrinks(s: string, pat: string)
    requires pat != []
    ensures |Replace(s, pat, "")| <= |s|
    ensures Contains(s, pat) <==> |Replace(s, pat, "")| < |s|
    decreases |s|
  {
    if |s| < |pat| {
      ShortHasNoOccurrence(s, pat);
    } else if s[..|pat|] == pat {
      DeleteShrinks(s[|pat|..], pat);
      assert OccursAt(s, pat, 0);
    } else {
      DeleteShrinks(s[1..], pat);
      ContainsPastHead(s, pat);
    }
  }

  /** A string shorter than the pattern does not contain it. */
  lemma ShortHasNoOccurrence(s: string, pat: string)
    requires |s| < |pat|
    ensures !Contains(s, pat)
  {
  }

  /** When the pattern does not open `s`, it occurs in `s` exactly when it
      occurs in the tail `s[1..]`. */
  lemma ContainsPastHead(s: string, pat: string)
    requires |pat| <= |s| && s[..|pat|] != pat
    ensures Contains(s, pat) <==> Contains(s[1..], pat)
  {
    if Contains(s, pat) {
      ContainsInTail(s, pat);
    }
    if Contains(s[1..], pat) {
      TailOccurrence(s, pat);
    }
  }

  lemma ContainsInTail(s: string, pat: string)
    requires |pat| <= |s| && s[..|pat|] != pat && Contains(s, pat)
    ensures Contains(s[1..], pat)
  {
    var k := Find(s, pat);
    assert k != 0 by { assert !OccursAt(s, pat, 0); }
    assert s[1..|s|] == s[1..];
    SliceOfSlice(s, 1, |s|, k - 1, k - 1 + |pat|);
    assert OccursAt(s[1..], pat, k - 1);
    ContainsIffOccurs(s[1..], pat);
  }

  lemma TailOccurrence(s: string, pat: string)
    requires s != [] && Contains(s[1..], pat)
    ensures Contains(s, pat)
  {
    var k := Find(s[1..], pat);
    assert OccursAt(s[1..], pat, k);
    assert s[1..|s|] == s[1..];
    SliceOfSlice(s, 1, |s|, k, k + |pat|);
    assert OccursAt(s, pat, k + 1);
    ContainsIffOccurs(s, pat);
  }

  // ---------------------------------------------------------------------
  // Decimal digits

  /** The value of a string of decimal digits (`int(ds)`); 0 for "". */
  function DigitsValue(ds: string): nat
    requires AllDigits(ds)
  {
    if ds == [] then 0
    else DigitsValue(ds[..|ds| - 1]) * 10 + DigitValue(ds[|ds| - 1])
  }

  /** The decimal representation of a natural number. */
  function NatToString(n: nat): (s: string)
    ensures s != [] && AllDigits(s)
    ensures |s| > 1 ==> s[0] != '0'
  {
    if n < 10 then [DigitChar(n)] else NatToString(n / 10) + [DigitChar(n % 10)]
  }

  /** `f"{i}"` for a Python int: an optional '-' followed by the digits. */
  function IntToString(i: int): (s: string)
    ensures ' ' !in s
  {
    if i < 0 then "-" + NatToString(-i) else NatToString(i)
  }

  /** Parsing the decimal representation gives the number back. */
  lemma {:induction false} NatToStringRoundTrip(n: nat)
    ensures DigitsValue(NatToString(n)) == n
  {
    if n >= 10 {
      NatToStringRoundTrip(n / 10);
      var s := NatToString(n);
      assert s[..|s| - 1] == NatToString(n / 10);
    }
  }

  /** A number below 1000 has at most three digits. */
  lemma NatToStringBelowThousand(n: nat)
    requires n < 1000
    ensures |NatToString(n)| <= 3
  {
    if n >= 10 {
      assert n / 10 < 100;
      if n / 10 >= 10 {
        assert |NatToString(n / 10)| == |NatToString(n / 100)| + 1;
      }
    }
  }

  /** The integer can be read back from its decimal representation, so
      distinct integers are printed differently. */
  lemma IntToStringRoundTrip(i: int)
    ensures i < 0 ==> IntToString(i)[0] == '-' && DigitsValue(IntToString(i)[1..]) == -i
    ensures i >= 0 ==> IsDigit(IntToString(i)[0]) && DigitsValue(IntToString(i)) == i
  {
    if i < 0 {
      NatToStringRoundTrip(-i);
      assert IntToString(i)[1..] == NatToString(-i);
    } else {
      NatToStringRoundTrip(i);
    }
  }

  lemma IntToStringInjective(i: int, j: int)
    requires i != j
    ensures IntToString(i) != IntToString(j)
  {
    IntToStringRoundTrip(i);
    IntToStringRoundTrip(j);
  }

  /** The index of the first digit at or after `i`, or `|s|` if there is none. */
  function FirstDigitFrom(s: string, i: nat): (k: nat)
    requires i <= |s|
    ensures i <= k <= |s|
    ensures k < |s| ==> IsDigit(s[k])
    ensures forall j :: i <= j < k ==> !IsDigit(s[j])
    decreases |s| - i
  {
    if i == |s| || IsDigit(s[i]) then i else FirstDigitFrom(s, i + 1)
  }

  /** The end of the maximal run of digits that starts at `i`. */
  function DigitRunEnd(s: string, i: nat): (k: nat)
    requires i <= |s|
    ensures i <= k <= |s|
    ensures AllDigits(s[i..k])
    ensures k == |s| || !IsDigit(s[k])
    decreases |s| - i
  {
    if i < |s| && IsDigit(s[i]) then
      var k := DigitRunEnd(s, i + 1);
      assert s[i..k] == [s[i]] + s[i + 1..k];
      k
    else i
  }

  /** `re.search(r'\d+', s)`: the bounds of the first maximal run of digits. */
  function FirstRun(s: string): (r: Option<(nat, nat)>)
    ensures r.None? <==> forall j :: 0 <= j < |s| ==> !IsDigit(s[j])
    ensures r.Some? ==>
      var (a, b) := r.value;
      && a < b <= |s|
      && AllDigits(s[a..b])
      && (b == |s| || !IsDigit(s[b]))
      && forall j :: 0 <= j < a ==> !IsDigit(s[j])
  {
    var a := FirstDigitFrom(s, 0);
    if a == |s| then None else Some((a, DigitRunEnd(s, a)))
  }

  /** `int(re.search(r'\d+', s).group())`, or None when `s` has no digit. */
  function FirstNumber(s: string): Option<nat> {
    match FirstRun(s)
    case None => None
    case Some((a, b)) => Some(DigitsValue(s[a..b]))
  }

  lemma FirstNumberOfDigitFree(s: string)
    requires forall j :: 0 <= j < |s| ==> !IsDigit(s[j])
    ensures FirstNumber(s) == None
  {
  }

  // ---------------------------------------------------------------------
  // split / join

  /** `s.split(sep)` for a one-character separator. */
  function Split(s: string, sep: char): (parts: seq<string>)
    ensures |parts| >= 1
    ensures forall i :: 0 <= i < |parts| ==> sep !in parts[i]
    decreases |s|
  {
    if sep !in s then [s]
    else
      var k := FirstIndexOf(s, sep);
      [s[..k]] + Split(s[k + 1..], sep)
  }

  /** The index of the first occurrence of `c` in `s`. */
  function FirstIndexOf(s: string, c: char): (k: nat)
    requires c in s
    ensures k < |s| && s[k] == c && c !in s[..k]
  {
    if s[0] == c then 0
    else
      var k := 1 + FirstIndexOf(s[1..], c);
      assert s[..k] == [s[0]] + s[1..][..k - 1];
      k
  }

  /** `s.split(sep)` cuts at the first separator. */
  lemma SplitAt(s: string, sep: char, k: nat)
    requires k < |s| && s[k] == sep && sep !in s[..k]
    ensures Split(s, sep) == [s[..k]] + Split(s[k + 1..], sep)
  {
    var j := FirstIndexOf(s, sep);
    assert forall i | 0 <= i < k :: s[..k][i] == s[i];
    assert forall i | 0 <= i < j :: s[..j][i] == s[i];
  }

  /** `sep.join(parts)`. */
  function Join(parts: seq<string>, sep: char): string {
    if parts == [] then ""
    else if |parts| == 1 then parts[0]
    else parts[0] + [sep] + Join(parts[1..], sep)
  }

  /** Joining the pieces of a split gives back the original string. */
  lemma {:induction false} JoinSplit(s: string, sep: char)
    ensures Join(Split(s, sep), sep) == s
    decreases |s|
  {
    if sep in s {
      var k := FirstIndexOf(s, sep);
      var rest := Split(s[k + 1..], sep);
      JoinSplit(s[k + 1..], sep);
      var parts := [s[..k]] + rest;
      assert Split(s, sep) == parts;
      assert parts[1..] == rest;
      assert Join(parts, sep) == s[..k] + [sep] + Join(rest, sep);
      assert s == s[..k] + [sep] + s[k + 1..];
    }
  }

  /** Splitting a join of separator-free pieces gives the pieces back. */
  lemma {:induction false} SplitJoin(parts: seq<string>, sep: char)
    requires |parts| >= 1
    requires forall i | 0 <= i < |parts| :: sep !in parts[i]
    ensures Split(Join(parts, sep), sep) == parts
  {
    if |parts| == 1 {
      assert Join(parts, sep) == parts[0];
    } else {
      var p := parts[0];
      var rest := Join(parts[1..], sep);
      var s := p + [sep] + rest;
      assert Join(parts, sep) == s;
      assert s[..|p|] == p && s[|p|] == sep;
      assert s[|p| + 1..] == rest;
      SplitAt(s, sep, |p|);
      SplitJoin(parts[1..], sep);
      assert parts == [p] + parts[1..];
    }
  }

  /** The concatenation `''.join(parts)`. */
  function Concat(parts: seq<string>): string {
    if parts == [] then "" else parts[0] + Concat(parts[1..])
  }
}

=== FILE: titles.dfy ===
/**
  Chapter-title normalisation of the packaged crawler (`src/utils.py`,
  `normalize_chapter_title` and `_extract_and_format_title`).

  The packaged helper formats a `"第 n 章: caption"` title but throws it away and
  returns only the next page number, so the key handed back to the caller is
  the cleaned raw title itself and does not depend on the counter.
*/
module TitleNormalizer {
  import opened Wrappers
  import opened Text

  /** The "read now" button text that leaks into chapter link labels. */
  const Noise: string := "立即阅读"

  /** The chapter marker; a title that starts with it is taken as final. */
  const Marker: string := "第"

  /** `title.replace("立即阅读", "").strip()`. */
  function CleanTitle(raw: string): (t: string)
    ensures NoEdgeSpace(t)
    ensures |t| <= |raw|
  {
    DeleteShrinks(raw, Noise);
    Strip(Replace(raw, Noise, ""))
  }

  /** `f"第 {n} 章"`, followed by `f": {caption}"` when the caption is not empty. */
  function ChapterHeading(n: int, caption: string): (h: string)
    ensures StartsWith(h, Marker)
    ensures StartsWith(h, "第 " + IntToString(n) + " 章")
    ensures caption != "" ==> EndsWith(h, ": " + caption)
  {
    "第 " + IntToString(n) + " 章" + (if caption == "" then "" else ": " + caption)
  }

  /** A character of the class `[\s:、]`. */
  predicate IsSeparator(c: char) {
    IsSpace(c) || c == ':' || c == '、'
  }

  /** Drops the maximal prefix of separator characters. */
  function DropSeparators(t: string): (r: string)
    ensures |r| <= |t| && r == t[|t| - |r|..]
    ensures r == [] || !IsSeparator(r[0])
    ensures forall i :: 0 <= i < |t| - |r| ==> IsSeparator(t[i])
    decreases |t|
  {
    if t != [] && IsSeparator(t[0]) then DropSeparators(t[1..]) else t
  }

  /** `re.sub(r'^\d+[\s:、]*', '', t)`: only a digit run at the very start is
      removed, together with the separators that follow it. */
  function DropLeadingNumber(t: string): (r: string)
    ensures t == [] || !IsDigit(t[0]) ==> r == t
    ensures t != [] && IsDigit(t[0]) ==> |r| < |t|
    ensures r == t[|t| - |r|..]
    ensures t != [] && IsDigit(t[0]) ==>
              var e := DigitRunEnd(t, 0);
              && AllDigits(t[..e]) && (e == |t| || !IsDigit(t[e]))
              && e <= |t| - |r|
              && (forall i | e <= i < |t| - |r| :: IsSeparator(t[i]))
              && (r == [] || !IsSeparator(r[0]))
  {
    if t != [] && IsDigit(t[0]) then DropSeparators(t[DigitRunEnd(t, 0)..]) else t
  }

  /** `_extract_and_format_title(t, page_num)`: the title it formats (which
      its caller never sees) and the page number it returns. */
  function ExtractAndFormatTitle(t: string, pageNum: int): (r: (string, int))
    ensures StartsWith(r.0, Marker)
  {
    match FirstNumber(t)
    case Some(n) => (ChapterHeading(n, Strip(DropLeadingNumber(t))), n + 1)
    case None => (ChapterHeading(pageNum, t), pageNum + 1)
  }

  /** `normalize_chapter_title(title, page_num)` of the packaged crawler.
      Every step of the `try` block is total here, so the `except` fallback
      is unreachable in this model (the digit limit of Python's `int()` is
      not modelled). */
  function Normalize(raw: string, pageNum: int): (r: (string, int))
    ensures r.0 == CleanTitle(raw)
    ensures StartsWith(r.0, Marker) ==> r.1 == pageNum + 1
    ensures !StartsWith(r.0, Marker) && FirstNumber(r.0).Some? ==>
              r.1 == FirstNumber(r.0).value + 1
    ensures FirstNumber(r.0).None? ==> r.1 == pageNum + 1
  {
    var t := CleanTitle(raw);
    if !StartsWith(t, Marker) then (t, ExtractAndFormatTitle(t, pageNum).1)
    else (t, pageNum + 1)
  }

  /** The key never depends on the counter. */
  lemma KeyIgnoresCounter(raw: string, c1: int, c2: int)
    ensures Normalize(raw, c1).0 == Normalize(raw, c2).0
  {
  }

  /** Once the cleaned title holds a digit and does not start with the
      marker, the next counter is fixed by the title alone. */
  lemma NextCounterFromTitle(raw: string, c1: int, c2: int)
    requires !StartsWith(CleanTitle(raw), Marker)
    requires FirstNumber(CleanTitle(raw)).Some?
    ensures Normalize(raw, c1).1 == Normalize(raw, c2).1
  {
  }

  /** The next counter is always the input counter plus one, except when a
      digit run in a title without the marker replaces it. */
  lemma NextCounterCases(raw: string, pageNum: int)
    ensures Normalize(raw, pageNum).1 == pageNum + 1
            || (!StartsWith(CleanTitle(raw), Marker)
                && Normalize(raw, pageNum).1 == FirstNumber(CleanTitle(raw)).value + 1)
  {
  }

  /** `str.replace` makes one pass, so deleting the noise token can join two
      halves into a fresh copy of it. */
  lemma NoiseSurvivesOnePass()
    ensures CleanTitle("立即立即阅读阅读") == Noise
    ensures Contains(Normalize("立即立即阅读阅读", 1).0, Noise)
  {
    NestedNoiseReplaced();
    NoiseIsClean();
    assert OccursAt(Noise, Noise, 0);
    ContainsIffOccurs(Noise, Noise);
  }

  /** One pass over the nested noise leaves exactly one noise token. */
  lemma NestedNoiseReplaced()
    ensures Replace("立即立即阅读阅读", Noise, "") == Noise
  {
    var s := "立即立即阅读阅读";
    assert s[..4][2] != Noise[2];
    assert s[1..][..4][1] != Noise[1];
    assert s[2..][..4] == Noise;
    assert s[2..][4..] == "阅读";
    assert Replace(s[2..][4..], Noise, "") == "阅读";
    assert Replace(s[2..], Noise, "") == "阅读";
  }

  lemma NoiseIsClean()
    ensures Strip(Noise) == Noise
  {
    assert NoEdgeSpace(Noise);
    StripOfClean(Noise);
  }

  /** A title that is only the noise token cleans to "" and keeps counting. */
  lemma NoiseOnlyTitle()
    ensures Normalize(Noise, 1) == ("", 2)
  {
    assert Noise[..4] == Noise;
    assert Replace(Noise, Noise, "") == "";
  }

  /** A title that already carries the marker comes back unchanged, and its
      own number does not move the counter. */
  lemma MarkedTitleExample()
    ensures Normalize("第123章 测试标题", 1) == ("第123章 测试标题", 2)
  {
    var s := "第123章 测试标题";
    ReplaceAbsentLiteral(s);
    assert NoEdgeSpace(s);
    StripOfClean(s);
    assert StartsWith(s, Marker);
  }

  /** A leading number sets the next counter. */
  lemma NumberedTitleExample()
    ensures Normalize("456 测试内容", 1).1 == 457
  {
    NumberedSampleClean();
    NumberedSampleNumber();
    NumberedSampleUnmarked();
  }

  lemma NumberedSampleUnmarked()
    ensures !StartsWith("456 测试内容", Marker)
  {
    assert "456 测试内容"[..1][0] != Marker[0];
  }

  /** The numbered sample title is already clean. */
  lemma NumberedSampleClean()
    ensures CleanTitle("456 测试内容") == "456 测试内容"
  {
    var s := "456 测试内容";
    ReplaceAbsentLiteral(s);
    assert NoEdgeSpace(s);
    StripOfClean(s);
  }

  /** The first number of the numbered sample title is 456. */
  lemma NumberedSampleNumber()
    ensures FirstNumber("456 测试内容") == Some(456)
  {
    var s := "456 测试内容";
    assert FirstDigitFrom(s, 0) == 0;
    NumberedSampleRun();
    assert s[0..3] == "456";
    assert DigitsValue("456") == 456 by {
      assert "456"[..2] == "45" && "45"[..1] == "4" && "4"[..0] == "";
    }
  }

  lemma NumberedSampleRun()
    ensures DigitRunEnd("456 测试内容", 0) == 3
  {
    var s := "456 测试内容";
    assert !IsDigit(s[3]);
    assert IsDigit(s[0]) && IsDigit(s[1]) && IsDigit(s[2]);
  }

  /** Dropping the leading number of the numbered sample leaves its caption. */
  lemma NumberedSampleCaption()
    ensures DropLeadingNumber("456 测试内容") == "测试内容"
  {
    var s := "456 测试内容";
    NumberedSampleRun();
    assert s[3..] == " 测试内容";
    var u := " 测试内容";
    assert IsSeparator(u[0]);
    assert u[1..] == "测试内容";
    assert !IsSeparator('测');
  }

  /** A title without marker or digit is kept and the counter steps on. */
  lemma PlainTitleExample()
    ensures Normalize("测试章节", 5) == ("测试章节", 6)
  {
    PlainSampleFacts();
  }

  /** The plain sample title is clean already, and has neither the marker nor a digit. */
  lemma PlainSampleFacts()
    ensures CleanTitle("测试章节") == "测试章节"
    ensures !StartsWith("测试章节", Marker)
    ensures FirstNumber("测试章节").None?
  {
    var s := "测试章节";
    ReplaceAbsentLiteral(s);
    assert NoEdgeSpace(s);
    StripOfClean(s);
    assert !StartsWith(s, Marker);
    FirstNumberOfDigitFree(s);
  }

  /** The noise token is absent from the titles used in the examples. */
  lemma ReplaceAbsentLiteral(s: string)
    requires s in {"第123章 测试标题", "456 测试内容", "测试章节"}
    ensures Replace(s, Noise, "") == s
  {
    assert forall c :: c in s ==> c != '立';
    assert forall j :: 0 <= j < |s| ==> s[j] != Noise[0];
    ReplaceAbsent(s, Noise, "");
  }
}

=== FILE: wrappers.dfy ===
/** Failure-compatible optional values shared by every module of the model. */
module Wrappers {

  /** A value that may be missing: Python's `None` versus a present value. */
  datatype Option<+T> = None | Some(value: T) {

    /** The present value, or `default` when there is none. */
    function GetOr(default: T): T {
      match this
      case Some(v) => v
      case None => default
    }
  }
}
